=== FILE: README.md ===
# newtone_mvp translation pipeline, modelled in Dafny

This project models the pure core of the `newtone_translate` pipeline and of
its stand-alone prototype `simple_translate_example.py`. The pipeline
translates HTML, Markdown or plain text while keeping protected spans and
document structure intact. The model covers:

- the placeholder engine: `PlaceholderManager.freeze_all`, including the
  markdown-link pre-pass and `replace_once`, and `restore_all`;
- the format classifier: `FormatService.detect_format` and its HTML and
  Markdown tests;
- the HTML segmenter: `HTMLParser.parse` (the doctype and the fragment flag),
  `extract_segments`, `apply_translations` and the shape of `serialize`;
- the content processor's dispatch and the reconciliation of missing ids;
- the providers: `MockProvider.translate_segments`, and the pure
  post-processing of `OpenAIProvider.translate_segments`;
- the orchestration: `TranslationService.translate` and
  `_generate_metadata`;
- request validation in `TranslationRequest.__post_init__`;
- the output path in `FileStorage.save_translation`;
- the prototype's `detect_format`, `protect_content`,
  `restore_protected_content`, batching and `translate_html` segment loop.

Strings are `seq<char>`. A Python dict is an insertion-ordered `Dict`: a key
order plus a map (`Dicts`). Regex patterns the model does not compute are
functions in an `Engine` (EMAIL, SKU, CURRENCY, MARKDOWN_LINK) or in
`Matchers` (the prototype's URL, EMAIL and PRICE). `<[^>]+>`, the URL
pattern, `⟦SEG_(n\d+)⟧` and the doctype, `<html…>` and `<body…>` probes
have concrete scanners. The translation service is a function parameter.
So are the tree html5lib builds, the rendering of a node, and the
timestamp. The modules follow the source layout:

- `Text`, `Dicts`, `Wrappers`: helpers;
- `Models`;
- `Scanners`;
- `Placeholders`, with the round-trip proof in `PlaceholderRoundTrip` and
  worked examples in `PlaceholderExamples`;
- `FormatDetection`;
- `HtmlDocument`, with examples in `HtmlExamples`;
- `Providers`;
- `ContentProcessing`;
- `Storage`;
- `TranslationService`;
- `Prototype`.

Where the code does less than a reader might expect, the model follows the
code. Each point names where the expectation comes from:

- Restoring a frozen text gives back the input only under a precondition
  (`PlaceholderRoundTrip.RoundTrip`), not for every text. The unit tests
  assert `restore_all(freeze_all(x)) == x` for their inputs
  (tests/unit/test_placeholder_manager.py:26-28).
  - A URL inside a tag breaks the round trip. The tag is stored with the
    URL's token inside, and that token is never restored
    (`PlaceholderExamples.UrlInsideTag`).
  - A do-not-translate term that occurs inside a token breaks it too
    (`PlaceholderExamples.DntInsideToken`).
- Tokens are not collision-free. The provider's prompt treats `⟦PH_n⟧` as a
  placeholder to keep exactly
  (src/newtone_translate/infrastructure/providers/openai_provider.py:57).
  Yet it is ordinary text that a do-not-translate term can match.
- Raw HTML tags are frozen before the format is detected, although the
  content processor has an HTML path. A tag that appears only once
  therefore never reaches that path
  (`TranslationService.TagsFrozenBeforeDetection`).
- The package's provider sends every translatable segment in one request.
  Only the prototype joins up to five segments with `---` into one request
  (simple_translate_example.py:208-221).
- After a failed call, usage is zero and the language is `auto`. A reply
  that cannot be decoded still keeps the usage it reported
  (`Providers.UndecodableReply`).

One place departs from the code on purpose. The code's unresolved-marker
note probes for a mis-encoded literal, so it never fires on a real marker
(see Findings). `TranslationService.Translate` uses the corrected probe
`⟦SEG_`. `TranslationService.TranslateAsWritten` computes the result as the
code does.

## Model

| member | source | states |
|---|---|---|
| Models.NewRequest | src/newtone_translate/domain/models.py:22-27 | construction succeeds exactly when the text is not whitespace-only and the target is non-empty; a blank text gives "Text cannot be empty" first, otherwise an empty target gives "Target language is required"; a success keeps every field |
| Models.Request | src/newtone_translate/domain/models.py:15-20 | with only a text, the target defaults to `fr` and the optional fields to `None`; a blank text is refused |
| Models.ConstructWellFormed | src/newtone_translate/domain/models.py:22-27 | a request is well formed iff construction from its own fields accepts it unchanged |
| Models.TextCheckedFirst | src/newtone_translate/domain/models.py:24-27 | a blank text with an empty target reports the text error |
| Models.ValidationExamples | tests/integration/test_translation_workflow.py:132-138 | `""`-like text and `Hello` with an empty target are refused with the two messages |
| Models.MapSegments | src/newtone_translate/infrastructure/providers/mock_provider.py:29-33 | a dict comprehension over segments has exactly the segment ids as keys, each id holding the value of its last segment |
| Models.MapSegmentsUniform | src/newtone_translate/infrastructure/providers/mock_provider.py:30-33 | when all segments with an id carry the same text, the id maps to that text whatever the duplicates |
| Models.IdsMember | src/newtone_translate/domain/content_processor.py:72 | an id is among the ids exactly when some segment carries it |
| Dicts.Put | src/newtone_translate/domain/placeholder_manager.py:54 | `d[k] = v`: `k` then holds `v`, other keys keep their values, a new key goes to the end of the order and an old one keeps its place |
| Dicts.Update | src/newtone_translate/infrastructure/providers/openai_provider.py:160 | `d.update(e)`: keys of `e` take `e`'s value, others keep `d`'s |
| Dicts.Items | src/newtone_translate/domain/placeholder_manager.py:99 | `items()` lists the keys in insertion order with their values |
| Text.Find | src/newtone_translate/domain/placeholder_manager.py:56 | the leftmost occurrence of a pattern, or -1 exactly when it does not occur |
| Text.ReplaceFirstFind | src/newtone_translate/domain/placeholder_manager.py:56 | `str.replace(p, rep, 1)` rewrites the leftmost occurrence only |
| Text.ReplaceAllIsJoinSplit | src/newtone_translate/domain/placeholder_manager.py:100 | `str.replace(p, rep)` equals joining the pieces between the occurrences of `p` with `rep` |
| Text.Split | simple_translate_example.py:221 | `str.split(sep)` gives at least one piece, the pieces rejoin to the input, and no piece holds `sep`; there is one piece iff `sep` does not occur, and otherwise the first cut is at the leftmost `sep` |
| Text.SplitCuts | simple_translate_example.py:221 | every cut is at the leftmost `sep` of the text that remains |
| Text.SplitUnique | simple_translate_example.py:221 | any `sep`-free pieces that rejoin to the input and are cut at leftmost separators are exactly `str.split(sep)` |
| Text.NatToString | src/newtone_translate/domain/placeholder_manager.py:53 | the decimal spelling of a number: non-empty, all digits, and its value is the number, with no leading zero unless it is `0` |
| Text.NatToStringCanonical | src/newtone_translate/domain/placeholder_manager.py:53 | every digit string without a leading zero (or `0` itself) is the rendering of the number it denotes, so the rendering is the one canonical spelling |
| Scanners.TagScan | src/newtone_translate/application/format_service.py:30 | every match of `<[^>]+>` is a `<`, at least one non-`>` and a `>`, occurring in the text; there is a match iff a tag starts somewhere |
| Scanners.TagScanHit | src/newtone_translate/application/format_service.py:30 | a `<`, a non-`>` and the first `>` after it give the next match, and the scan resumes after it |
| Scanners.TagScanSkip | src/newtone_translate/application/format_service.py:30 | a position that does not start a tag is skipped |
| Scanners.UrlMatchLen | src/newtone_translate/domain/placeholder_manager.py:22 | a match at a position starts with `https://`, `http://` or (after `href="`) `/`; each of these followed by a character the alternative admits is matched; the match stays in the text, holds a `/` and no quote, and runs greedily: the character after it is not a URL character |
| Scanners.UrlScan | src/newtone_translate/domain/placeholder_manager.py:22 | every URL match occurs in the text and holds a `/`; there is a match iff the pattern matches at some position; a text without `/` has none |
| Scanners.UrlScanHit | src/newtone_translate/domain/placeholder_manager.py:22 | a position where the pattern matches yields that match, and `finditer` resumes after it |
| Scanners.UrlScanSkip | src/newtone_translate/domain/placeholder_manager.py:22 | a position where the pattern does not match is passed over |
| Placeholders.TokenShape | src/newtone_translate/domain/placeholder_manager.py:53 | `⟦PH_n⟧` opens with `⟦`, closes with `⟧`, has only token characters between, and spells `n` after `PH_` |
| Placeholders.TokenInjective | src/newtone_translate/domain/placeholder_manager.py:53 | two equal tokens carry the same number |
| Placeholders.Rules | src/newtone_translate/domain/placeholder_manager.py:21-43 | the main loop's patterns are URL, EMAIL, SKU, CURRENCY, HTML_TAG in that order, then each do-not-translate term |
| Placeholders.LiteralScan | src/newtone_translate/domain/placeholder_manager.py:80-81 | the matches of a term are copies of the term, one per leftmost non-overlapping occurrence (the empty term matching at every position), and there are some iff the term occurs |
| Placeholders.Mint | src/newtone_translate/domain/placeholder_manager.py:46-73 | a source already mapped changes nothing; otherwise it is appended under the next token and the leftmost occurrence of `pre + src + post` alone is rewritten with the token in place of `src` |
| Placeholders.LinkPass | src/newtone_translate/domain/placeholder_manager.py:59-75 | the link pre-pass extends the sources, keeps them distinct, maps every link URL and adds nothing else |
| Placeholders.MintAll | src/newtone_translate/domain/placeholder_manager.py:80-83 | minting the matches of one pattern extends the sources, keeps them distinct, maps every match and adds nothing else |
| Placeholders.Passes | src/newtone_translate/domain/placeholder_manager.py:78-83 | the patterns, each scanned on the text as it stands when it starts, only extend the sources and keep them distinct |
| Placeholders.ToDict | src/newtone_translate/domain/placeholder_manager.py:52-54 | the mapping lists `Token(1)`, `Token(2)`, … in order, each holding its source |
| Placeholders.ToDictValues | src/newtone_translate/domain/placeholder_manager.py:49 | `src in mapping.values()` iff `src` is among the sources |
| Placeholders.Freeze | src/newtone_translate/domain/placeholder_manager.py:31-86 | the keys are `Token(1)…Token(n)` in order, no two keys share a value, and every markdown-link URL of the input is a value |
| Placeholders.FreezeState | src/newtone_translate/domain/placeholder_manager.py:42-86 | the sources are distinct and begin with those of the link pre-pass |
| Placeholders.RestoreItems | src/newtone_translate/domain/placeholder_manager.py:99-101 | replacing each key everywhere, in order, is the identity when no key occurs and no value holds a later key |
| Placeholders.Restore | src/newtone_translate/domain/placeholder_manager.py:88-101 | restoring with an empty mapping is the identity |
| PlaceholderRoundTrip.RoundTrip | src/newtone_translate/domain/placeholder_manager.py:31-101 | restoring a frozen text gives back the input when the input holds no `⟦`/`⟧` and every source is free of them and has a character outside the token alphabet |
| PlaceholderRoundTrip.MintRepr | src/newtone_translate/domain/placeholder_manager.py:46-56 | one mint keeps the frozen text a rendering of chunks whose expansion is the original input |
| PlaceholderRoundTrip.LinkPassRepr | src/newtone_translate/domain/placeholder_manager.py:59-75 | the link pre-pass keeps that representation |
| PlaceholderRoundTrip.MintAllRepr | src/newtone_translate/domain/placeholder_manager.py:80-83 | the matches of one pattern keep it |
| PlaceholderRoundTrip.PassesRepr | src/newtone_translate/domain/placeholder_manager.py:78-83 | all patterns keep it |
| PlaceholderRoundTrip.MintChunks | src/newtone_translate/domain/placeholder_manager.py:56 | `replace(src, token, 1)` on a rendered chunk list is again a rendering with the same expansion |
| PlaceholderRoundTrip.RestoreFrom | src/newtone_translate/domain/placeholder_manager.py:99-101 | restoring from the `k`-th item on turns the remaining tokens back into their sources |
| PlaceholderRoundTrip.RestoreStep | src/newtone_translate/domain/placeholder_manager.py:100 | replacing one token everywhere substitutes exactly that placeholder chunk |
| PlaceholderExamples.FreezeEmpty | tests/unit/test_placeholder_manager.py:106-114 | `""` with no terms freezes to `("", {})` and restores to `""` |
| PlaceholderExamples.FreezeNothing | tests/unit/test_placeholder_manager.py:116-126 | when no link and no pattern matches, the frozen text is the input and the mapping is empty |
| PlaceholderExamples.PassesQuiet | src/newtone_translate/domain/placeholder_manager.py:78-83 | patterns that find nothing leave the state alone |
| PlaceholderExamples.DntCaseSensitive | tests/unit/test_placeholder_manager.py:141-153 | a term matches its own spelling only, not another case |
| PlaceholderExamples.MintAllKnown | src/newtone_translate/domain/placeholder_manager.py:49-51 | repeated matches of an already mapped source change nothing |
| PlaceholderExamples.MintAllSame | src/newtone_translate/domain/placeholder_manager.py:49-56 | repeated matches of a new source mint it once |
| PlaceholderExamples.MintPlain | src/newtone_translate/domain/placeholder_manager.py:52-56 | minting a new source replaces its first occurrence with the next token |
| PlaceholderExamples.RulesTwo | src/newtone_translate/domain/placeholder_manager.py:43 | two terms come after the five fixed rules |
| PlaceholderExamples.RestoreTwo | src/newtone_translate/domain/placeholder_manager.py:99-101 | restoring two items replaces `Token(1)` everywhere, then `Token(2)` |
| PlaceholderExamples.DntInsideToken | src/newtone_translate/domain/placeholder_manager.py:53-101 | with terms `a` and `1`, `a1` freezes to a text whose second token sits inside the first, and restores to `⟦PH_1⟧1`, not `a1` |
| PlaceholderExamples.UrlInsideTag | src/newtone_translate/domain/placeholder_manager.py:22-101 | `<http://x>` stores the tag with the URL's token inside; restoring gives the tag with the token, not the input |
| PlaceholderExamples.ImgFreeze | src/newtone_translate/domain/placeholder_manager.py:27-83 | `<img src=x>` freezes to `Token(1)` mapped to the tag |
| FormatDetection.DetectFormat | src/newtone_translate/application/format_service.py:18-25 | the result is one of the three names; `markdown` iff a Markdown signal is found; `html` iff none is and the HTML test passes |
| FormatDetection.BlankIsText | src/newtone_translate/application/format_service.py:30-32 | a whitespace-only text is `text` |
| FormatDetection.NoTagNotHtml | src/newtone_translate/application/format_service.py:30-32 | a text without a tag is never `html` |
| FormatDetection.MarkdownBeatsHtml | src/newtone_translate/application/format_service.py:20-21 | any Markdown signal gives `markdown`, tags or not |
| FormatDetection.OpenAndCloseIsHtml | src/newtone_translate/application/format_service.py:35-45 | an opening tag and a closing or self-closing tag give `html` |
| FormatDetection.AttributeIsHtml | src/newtone_translate/application/format_service.py:40-50 | a tag with `=` and a tag holding a common element name, ignoring case, give `html` |
| FormatDetection.BoldIsItalic | src/newtone_translate/application/format_service.py:62-63 | a bold span also matches the italic pattern one character later |
| FormatDetection.SignalNotBlank | src/newtone_translate/application/format_service.py:56-64 | every Markdown signal starts at a non-space character |
| FormatDetection.HeadingOnAnyLine | src/newtone_translate/application/format_service.py:57-65 | `# ` after a newline is a heading and gives `markdown` |
| FormatDetection.BulletOnAnyLine | src/newtone_translate/application/format_service.py:58-65 | `* ` after a newline is a list item |
| FormatDetection.NumberedOnAnyLine | src/newtone_translate/application/format_service.py:59-65 | `1. ` after a newline is a numbered item |
| FormatDetection.QuoteOnAnyLine | src/newtone_translate/application/format_service.py:60-65 | `> ` after a newline is a quote |
| FormatDetection.AnchoredOnlyAtLineStart | src/newtone_translate/application/format_service.py:57-60 | the anchored signals never match off a line start |
| FormatDetection.NoMarkdown | src/newtone_translate/application/format_service.py:56-65 | a one-line text without `#`, `*`, `[` and not opening with `>` or a digit has no signal |
| FormatDetection.PairIsHtml | src/newtone_translate/application/format_service.py:30-45 | with no Markdown signal, an opening tag followed by a closing tag as the only two tags gives `html` |
| FormatDetection.LoneTagIsText | src/newtone_translate/application/format_service.py:30-52 | with no Markdown signal, a single tag that neither closes, self-closes nor holds `=` gives `text` |
| FormatDetection.HtmlTags | src/newtone_translate/application/format_service.py:30 | the tags of `<p>Hi</p>` are `<p>` and `</p>` |
| FormatDetection.NotHtmlTags | src/newtone_translate/application/format_service.py:30 | `< not html >` is one tag |
| FormatDetection.AttributeTags | src/newtone_translate/application/format_service.py:30 | `<img src=x>` is one tag |
| FormatDetection.NotHtmlExample | tests/unit/test_application_services.py:143-144 | `< not html >` is `text` |
| FormatDetection.HtmlExample | tests/unit/test_application_services.py:94-106 | `<p>Hi</p>` is `html` |
| FormatDetection.AttributeExample | src/newtone_translate/application/format_service.py:48-50 | `<img src=x>` is `html` by the attribute rule |
| FormatDetection.EmptyExample | tests/unit/test_application_services.py:136-137 | `""` is `text` |
| FormatDetection.HeadingWithMarkupExample | src/newtone_translate/application/format_service.py:19-23 | a heading with markup after it is `markdown` |
| HtmlDocument.DoctypeIndex | src/newtone_translate/infrastructure/parsers/html_parser.py:29-30 | the first position from `i` where a doctype declaration starts, or -1 when there is none |
| HtmlDocument.Doctype | src/newtone_translate/infrastructure/parsers/html_parser.py:28-31 | the first `<!DOCTYPE…>`, ignoring case, is captured as it occurs, or none when there is none |
| HtmlDocument.Parse | src/newtone_translate/infrastructure/parsers/html_parser.py:24-47 | the parse carries that doctype and the fragment flag (neither an `<html…>` nor a `<body…>` tag), and no doctype node stays among the top nodes |
| HtmlDocument.DropDoctypes | src/newtone_translate/infrastructure/parsers/html_parser.py:43-45 | the doctype nodes are removed and every other node kept |
| HtmlDocument.ExtractIds | src/newtone_translate/infrastructure/parsers/html_parser.py:49-80 | the segments are the kept string nodes in document order, the `j`-th with id `n{j+1}` and the node's unstripped text |
| HtmlDocument.ExtractNodesNumbers | src/newtone_translate/infrastructure/parsers/html_parser.py:57-77 | extraction over a node list numbers exactly the kept texts of its leaves |
| HtmlDocument.ExtractDistinct | src/newtone_translate/infrastructure/parsers/html_parser.py:73-74 | no two extracted segments share an id |
| HtmlDocument.Numbered | src/newtone_translate/infrastructure/parsers/html_parser.py:73-76 | numbering continues from the counter |
| HtmlDocument.SegScanFrom | src/newtone_translate/infrastructure/parsers/html_parser.py:93-96 | every id read by `⟦SEG_(n\d+)⟧` is `n` followed by digits |
| HtmlDocument.MarkerScanAt | src/newtone_translate/infrastructure/parsers/html_parser.py:93-96 | the marker of a segment id is read back as that id, and the scan resumes after it |
| HtmlDocument.MarkerScan | src/newtone_translate/infrastructure/parsers/html_parser.py:77-93 | a lone marker yields its id |
| HtmlDocument.SegScanFree | src/newtone_translate/infrastructure/parsers/html_parser.py:94 | a string without `⟦` holds no marker |
| HtmlDocument.MarkerInjective | src/newtone_translate/infrastructure/parsers/html_parser.py:77 | distinct ids have distinct markers |
| HtmlDocument.ApplyNode | src/newtone_translate/infrastructure/parsers/html_parser.py:82-101 | application keeps every element's name and number of children |
| HtmlDocument.ApplyUnmarked | src/newtone_translate/infrastructure/parsers/html_parser.py:87-99 | a string without `⟦` is left as it is |
| HtmlDocument.ApplyKnownMarker | src/newtone_translate/infrastructure/parsers/html_parser.py:87-90 | a node that is exactly a known marker becomes its text |
| HtmlDocument.ApplyUnknownMarker | src/newtone_translate/infrastructure/parsers/html_parser.py:94-99 | the marker of an id without a translation stays literal |
| HtmlDocument.SubstituteMissing | src/newtone_translate/infrastructure/parsers/html_parser.py:96-98 | ids without translations substitute nothing |
| HtmlDocument.ExactPassesHit | src/newtone_translate/infrastructure/parsers/html_parser.py:87-90 | the first item for a marker's id replaces the whole node |
| HtmlDocument.ExactPassesMiss | src/newtone_translate/infrastructure/parsers/html_parser.py:87-90 | a marker whose id has no item stays |
| HtmlDocument.ApplyExtractNodes | src/newtone_translate/infrastructure/parsers/html_parser.py:77-99 | applying a mapping that sends each extracted id to its own text undoes the extraction, when no original string holds `⟦` |
| HtmlDocument.ApplyAfterExtract | src/newtone_translate/infrastructure/parsers/html_parser.py:49-101 | when no string node holds `⟦`, extracting and applying `{id: text}` gives back the tree |
| HtmlDocument.FindIn | src/newtone_translate/infrastructure/parsers/html_parser.py:110-120 | within one tree, `None` exactly when no element has the name, otherwise the first such element in document order |
| HtmlDocument.FindInAll | src/newtone_translate/infrastructure/parsers/html_parser.py:110-120 | `find(name)` is `None` exactly when no element of the trees has that name, and otherwise the first such element in document order (an element before its descendants) |
| HtmlDocument.Serialize | src/newtone_translate/infrastructure/parsers/html_parser.py:103-127 | with a non-empty doctype the output is the doctype, a newline, then the content; otherwise just the content |
| HtmlDocument.SerializeDoctype | src/newtone_translate/infrastructure/parsers/html_parser.py:123-125 | a captured doctype heads the output followed by a newline; without one the output is the content |
| HtmlDocument.SerializeFragment | src/newtone_translate/infrastructure/parsers/html_parser.py:107-113 | a fragment serialises as the body's children only, no wrapper |
| HtmlDocument.SerializeDocument | src/newtone_translate/infrastructure/parsers/html_parser.py:117-121 | a complete document serialises as its `html` element |
| HtmlExamples.DoctypeExample | src/newtone_translate/infrastructure/parsers/html_parser.py:28-31 | `<!DOCTYPE html><p>Hi</p>` captures `<!DOCTYPE html>` |
| HtmlExamples.FragmentExample | src/newtone_translate/infrastructure/parsers/html_parser.py:34-37 | `<p>Hi</p>` is a fragment |
| HtmlExamples.UnclosedBodyExample | src/newtone_translate/infrastructure/parsers/html_parser.py:35 | an unclosed `<body` is no body tag |
| HtmlExamples.UpperHtmlExample | src/newtone_translate/infrastructure/parsers/html_parser.py:34 | `<HTML lang=en>` counts, ignoring case |
| HtmlExamples.ExtractSkippedLeaves | src/newtone_translate/infrastructure/parsers/html_parser.py:61-71 | script content, comments and whitespace-only strings give no segment |
| HtmlExamples.ExtractExample | src/newtone_translate/infrastructure/parsers/html_parser.py:57-77 | of a paragraph with text, a script, a comment and spaces, only the text becomes `n1` |
| HtmlExamples.TwoMarkersExample | src/newtone_translate/infrastructure/parsers/html_parser.py:92-99 | in a node with two markers, the known one is replaced and the unknown one stays |
| HtmlExamples.SubstituteFirstOnly | src/newtone_translate/infrastructure/parsers/html_parser.py:96-98 | with one id known and one not, only the known marker is replaced |
| Providers.MockText | src/newtone_translate/infrastructure/providers/mock_provider.py:32 | `[` + upper-cased language + `] ` followed by the text: that prefix, then exactly the text, and nothing else, by length |
| Providers.MockTranslate | src/newtone_translate/infrastructure/providers/mock_provider.py:14-38 | the keys are exactly the segment ids, each the mock text of its last segment; usage `{10, 15}`, language `en` |
| Providers.MockEmpty | tests/unit/test_infrastructure_providers.py:96-106 | no segments give an empty mapping |
| Providers.MockIgnoresGuides | src/newtone_translate/infrastructure/providers/mock_provider.py:29-33 | source language, brand guide and glossary do not change the result |
| Providers.MockExample | tests/unit/test_infrastructure_providers.py:20-36 | `Hello` to `fr` gives `[FR] Hello` |
| Providers.PunctuationRuns | src/newtone_translate/infrastructure/providers/openai_provider.py:41 | `string.punctuation` is the 32 characters the predicate accepts |
| Providers.PunctuationExamples | src/newtone_translate/infrastructure/providers/openai_provider.py:40-41 | `, ` and `...` are punctuation-only; spaces, `""` and `Hi!` are not |
| Providers.PunctSegments | src/newtone_translate/infrastructure/providers/openai_provider.py:44-48 | the punctuation-only segments, in order |
| Providers.TranslatableSegments | src/newtone_translate/infrastructure/providers/openai_provider.py:44-50 | the other segments, in order |
| Providers.Partition | src/newtone_translate/infrastructure/providers/openai_provider.py:46-50 | each segment goes to exactly one side |
| Providers.IdsPartition | src/newtone_translate/infrastructure/providers/openai_provider.py:46-50 | the ids of both sides are the ids of the input |
| Providers.CompleteSegments | src/newtone_translate/infrastructure/providers/openai_provider.py:152 | exactly the entries with both `id` and `text` are kept |
| Providers.CompleteSuffix | src/newtone_translate/infrastructure/providers/openai_provider.py:152 | the filter distributes over concatenation |
| Providers.IncompleteDropped | src/newtone_translate/infrastructure/providers/openai_provider.py:152 | an id whose entries all lack a text is no key |
| Providers.LastEntryWins | src/newtone_translate/infrastructure/providers/openai_provider.py:152 | of two entries for an id, the later wins |
| Providers.Backfill | src/newtone_translate/infrastructure/providers/openai_provider.py:155-157 | every id becomes a key; answered ids keep their value; a missing id takes the text of its first segment |
| Providers.BackfillUniform | src/newtone_translate/infrastructure/providers/openai_provider.py:155-157 | a missing id whose segments agree takes their text |
| Providers.OpenAITranslate | src/newtone_translate/infrastructure/providers/openai_provider.py:35-163 | punctuation-only ids hold their own text; the language is the reply's or `auto`; usage is zero unless a call answered, then the reported one |
| Providers.OpenAIKeys | src/newtone_translate/infrastructure/providers/openai_provider.py:150-160 | the keys are the input ids plus the ids of the reply |
| Providers.EveryIdAnswered | src/newtone_translate/infrastructure/providers/openai_provider.py:155-160 | every input id is a key |
| Providers.ExtraIdsKept | src/newtone_translate/infrastructure/providers/openai_provider.py:152 | an id not in the input keeps the reply's value |
| Providers.PunctuationKept | src/newtone_translate/infrastructure/providers/openai_provider.py:47-160 | a punctuation-only segment maps to its own text, whatever the reply says |
| Providers.ReplyWins | src/newtone_translate/infrastructure/providers/openai_provider.py:152-157 | a translatable id the reply answered keeps the reply's text |
| Providers.MissingBackfilled | src/newtone_translate/infrastructure/providers/openai_provider.py:155-157 | a translatable id the reply missed maps to its source text |
| Providers.NoReplyIdentity | src/newtone_translate/infrastructure/providers/openai_provider.py:150-160 | an empty reply gives the identity mapping |
| Providers.NothingToTranslate | src/newtone_translate/infrastructure/providers/openai_provider.py:84-130 | with nothing translatable there is no call: usage zero, `auto`, identity mapping |
| Providers.BothCallsFailed | src/newtone_translate/infrastructure/providers/openai_provider.py:125-127 | when both attempts raise: usage zero, `auto`, identity mapping |
| Providers.UndecodableReply | src/newtone_translate/infrastructure/providers/openai_provider.py:134-148 | a reply with no decodable object keeps its usage but gives `auto` and the identity mapping |
| Providers.ReplyExample | tests/unit/test_infrastructure_providers.py:119-154 | a reply for `t1` gives its text, language and usage |
| ContentProcessing.OrEmpty | src/newtone_translate/domain/content_processor.py:65-66 | `d or {}` |
| ContentProcessing.ProcessWhole | src/newtone_translate/domain/content_processor.py:85-127 | one segment `t1` with source `auto`; the output is the provider's `t1` if any, else the frozen text; usage and language as returned |
| ContentProcessing.Missing | src/newtone_translate/domain/content_processor.py:72 | exactly the segment ids that are not keys |
| ContentProcessing.FirstText | src/newtone_translate/domain/content_processor.py:76 | the text of the first segment with the id |
| ContentProcessing.FillMissing | src/newtone_translate/domain/content_processor.py:75-77 | each missing id gets the text of its first segment; other keys are untouched |
| ContentProcessing.Reconcile | src/newtone_translate/domain/content_processor.py:71-77 | every segment id becomes a key; provider keys, extra ones too, keep their value; missing ids take their first segment's text |
| ContentProcessing.ReconcileIsBackfill | src/newtone_translate/domain/content_processor.py:71-77 | the reconciliation agrees key for key with the provider's back-fill |
| ContentProcessing.ReconcileOwnText | src/newtone_translate/domain/content_processor.py:75-77 | with distinct ids, an unanswered segment maps to its own text |
| ContentProcessing.RunHtml | src/newtone_translate/domain/content_processor.py:47-77 | parse, extract, one provider call with `auto`, reconciliation over the extracted ids |
| ContentProcessing.ProcessHtml | src/newtone_translate/domain/content_processor.py:61-83 | usage and language are the provider's |
| ContentProcessing.Process | src/newtone_translate/domain/content_processor.py:40-45 | `html` takes the HTML path, every other format the whole-text path |
| ContentProcessing.AbsentGuidesAreEmpty | src/newtone_translate/domain/content_processor.py:65-66 | an absent brand guide or glossary behaves as `{}` |
| ContentProcessing.WholeWithMock | src/newtone_translate/domain/content_processor.py:85-105 | with the mock, a whole text comes back prefixed with usage `{10, 15}` and `en` |
| ContentProcessing.WholeUnanswered | src/newtone_translate/domain/content_processor.py:102-124 | without a `t1` answer the text is unchanged |
| ContentProcessing.HtmlUnanswered | src/newtone_translate/domain/content_processor.py:72-80 | without answers, an HTML tree whose strings hold no `⟦` serialises as parsed |
| Storage.LastIndex | src/newtone_translate/infrastructure/storage.py:51 | the last position of a character |
| Storage.PathJoin | src/newtone_translate/infrastructure/storage.py:20-58 | `os.path.join`: an absolute second part wins; otherwise the first part, at most one `/`, then the second |
| Storage.Basename | src/newtone_translate/infrastructure/storage.py:51 | the part after the last `/`: a `/`-free suffix of the path that is either the whole path or preceded by a `/` |
| Storage.SplitExt | src/newtone_translate/infrastructure/storage.py:51 | the root and extension rejoin to the name; the extension is empty or one `.` part without `/` |
| Storage.StemDropsLastExtension | src/newtone_translate/infrastructure/storage.py:51 | only the last extension is dropped |
| Storage.StemWithoutExtension | src/newtone_translate/infrastructure/storage.py:51 | a name without a proper extension is its own stem |
| Storage.OutputDirIsJoin | src/newtone_translate/infrastructure/storage.py:19-20 | the output directory is `data/output` |
| Storage.Extension | src/newtone_translate/infrastructure/storage.py:41-46 | `html`→`html`, `markdown`→`md`, anything else→`txt` |
| Storage.OutputFilename | src/newtone_translate/infrastructure/storage.py:48-56 | with a non-empty input name, its stem then `_translated_<lang>`; otherwise `translated_<lang>_<timestamp>`; then `.` and the extension |
| Storage.SavePath | src/newtone_translate/infrastructure/storage.py:37-58 | the path ends with `.` and the format's extension |
| Storage.SavePathShape | src/newtone_translate/infrastructure/storage.py:37-58 | for a one-component format, the path is `data/output/<format>/<file name>`: the directory is named after the format, not the extension |
| Storage.SavePathOfFile | src/newtone_translate/infrastructure/storage.py:49-58 | with an input name the file is named after its last component's stem |
| Storage.SavePathExample | src/newtone_translate/infrastructure/storage.py:37-58 | `docs/report.v2.txt` as Markdown for `de` lands at `data/output/markdown/report.v2_translated_de.md` |
| TranslationService.NotesFor | src/newtone_translate/application/translation_service.py:106-110 | one note; the unresolved note iff the probe occurs, else `<Format> preserved` |
| TranslationService.Notes | src/newtone_translate/application/translation_service.py:106-110 | the same with the probe `⟦SEG_` |
| TranslationService.NotesAsWritten | src/newtone_translate/application/translation_service.py:106-110 | the same with the probe as spelled in the source, `âŸ¦SEG_` |
| TranslationService.PreservedIsNotUnresolved | src/newtone_translate/application/translation_service.py:108-110 | the two notes can never be confused |
| TranslationService.MarkerFlagged | src/newtone_translate/application/translation_service.py:106-108 | an output holding a segment marker is flagged |
| TranslationService.AppliedAmong | src/newtone_translate/application/translation_service.py:112-115 | the keys whose target occurs ignoring case, in key order |
| TranslationService.AppliedTerms | src/newtone_translate/application/translation_service.py:112-115 | none without a glossary; otherwise exactly the keys whose target occurs ignoring case, as a subsequence of the glossary order |
| TranslationService.AppliedTermsIgnoreCase | src/newtone_translate/application/translation_service.py:114 | upper-casing the output does not change the applied terms |
| TranslationService.EmptyTermApplies | src/newtone_translate/application/translation_service.py:113-115 | an empty target always counts as applied |
| TranslationService.Translate | src/newtone_translate/application/translation_service.py:30-100 | one note, flagging exactly an output with `⟦SEG_` (the corrected probe); the applied terms; a path with the extension of the format detected on the frozen text |
| TranslationService.TranslateAsWritten | src/newtone_translate/application/translation_service.py:30-110 | the result as the code computes it: one note, flagging exactly an output with `âŸ¦SEG_`, and every other field as in `Translate` |
| TranslationService.TranslateAsWrittenAgrees | src/newtone_translate/application/translation_service.py:106-110 | when the output holds neither probe, the code as written and the corrected workflow give the same result |
| TranslationService.TranslateReportsProvider | src/newtone_translate/application/translation_service.py:58-100 | usage and detected language are the provider's for the segments the detected format sends |
| TranslationService.TranslateWithMock | src/newtone_translate/application/translation_service.py:44-100 | with the mock and nothing to freeze, a non-HTML text becomes the mock text with usage `{10, 15}`, `en`, the preserved note and the save path |
| TranslationService.TranslateUnanswered | src/newtone_translate/application/translation_service.py:44-69 | a provider that answers nothing gives back the input, when the freeze round trip holds and the text is not HTML |
| TranslationService.TranslateUnansweredHtml | src/newtone_translate/application/translation_service.py:44-69 | for HTML it gives back the restored serialisation of the parsed tree |
| TranslationService.RestoreMockToken | src/newtone_translate/application/translation_service.py:69 | restoring a mock-translated token gives the mock text of its source |
| TranslationService.TagsFrozenBeforeDetection | src/newtone_translate/application/translation_service.py:44-51 | `<img src=x>` is HTML as input but is frozen to a token first, so it takes the text path with the note `Text preserved` |
| TranslationService.UnresolvedExample | tests/unit/test_application_services.py:228-235 | `⟦SEG_123⟧` in the output gives the unresolved note and no applied terms |
| TranslationService.UnresolvedMissedAsWritten | src/newtone_translate/application/translation_service.py:107 | with the probe as written, the same output gives `Html preserved` |
| TranslationService.GlossaryExample | tests/unit/test_application_services.py:212-226 | of `luxury`, `premium`, `handbag`, the first two are applied |
| TranslationService.AppliedFirstTwo | src/newtone_translate/application/translation_service.py:112-115 | two applied keys and one not yield the two, in order |
| Prototype.MockResult | simple_translate_example.py:32-35 | `[MOCK <LANG>] ` followed by the text unchanged |
| Prototype.DetectFormat | simple_translate_example.py:52-68 | `html` iff a tag; else `markdown` iff a heading, bold, italic or link; else `text` |
| Prototype.DetectionAgrees | simple_translate_example.py:52-68 | the prototype's `markdown` is the package's, and its `text` is never the package's `html` |
| Prototype.DetectionOrderDiffers | simple_translate_example.py:55-56 | a heading with markup is `html` here but `markdown` in the package |
| Prototype.PlaceholderInjective | simple_translate_example.py:168-184 | the kind and the number can be read back from a placeholder |
| Prototype.ProtectPass | simple_translate_example.py:167-171 | each match gets the next number under its kind, in order |
| Prototype.ProtectPassOne | simple_translate_example.py:170 | a match replaces every occurrence |
| Prototype.ProtectItems | simple_translate_example.py:161-188 | URLs are found on the original, emails and prices on the partly protected text; one counter from 1 runs across the three kinds |
| Prototype.StagesLayout | simple_translate_example.py:163-188 | three passes in a row give that layout |
| Prototype.LayoutDistinct | simple_translate_example.py:168-184 | the placeholders are distinct |
| Prototype.DictOf | simple_translate_example.py:169-185 | assigning distinct keys lists them in order with their values |
| Prototype.DictOfItems | simple_translate_example.py:169-195 | items give back the pairs |
| Prototype.ProtectPlaceholders | simple_translate_example.py:154-189 | the returned dict has that layout |
| Prototype.ProtectNothing | simple_translate_example.py:161-189 | no match leaves the text and an empty dict |
| Prototype.ProtectOneRoundTrip | simple_translate_example.py:154-197 | one URL and nothing else: restore undoes protect |
| Prototype.ReplaceAllUndo | simple_translate_example.py:170-196 | replacing a match by a `⟦…` placeholder and back is the identity on a `⟦`-free text |
| Prototype.TranslateSegments | simple_translate_example.py:200-236 | up to five segments: one call on the `\n---\n` join, the reply cut on `---` at each leftmost separator, no piece holding `---`; more: one call each, same length |
| Prototype.SplitJoined | simple_translate_example.py:209-221 | splitting the join gives back the segments, padded by the newlines around `---` |
| Prototype.EchoBatch | simple_translate_example.py:208-221 | an echoing service gives the padded segments |
| Prototype.SeparatorInSegment | simple_translate_example.py:221 | a segment holding `---` comes back as two |
| Prototype.Strip | simple_translate_example.py:87 | the input with only whitespace removed before and after it; empty iff the input is blank, otherwise starting and ending with a non-space |
| Prototype.Kept | simple_translate_example.py:86-88 | the positions of non-blank strings, increasing |
| Prototype.KeptComplete | simple_translate_example.py:86-88 | every non-blank string is kept |
| Prototype.Originals | simple_translate_example.py:87-93 | the stripped texts of the kept strings |
| Prototype.Protections | simple_translate_example.py:90 | each kept text protected |
| Prototype.Texts | simple_translate_example.py:103 | the protected texts, in order |
| Prototype.Restored | simple_translate_example.py:108-113 | one restored translation per pair of reply and segment |
| Prototype.ReplacedAll | simple_translate_example.py:107-114 | kept string `i` becomes output `i` when there is one, all other strings stay |
| Prototype.NewStrings | simple_translate_example.py:71-114 | the strings after the loop, as many as before |
| Prototype.NewStringsReplace | simple_translate_example.py:86-114 | blank strings stay; kept string `k` becomes the restored `k`-th translation when there is one, otherwise stays |
| Prototype.TranslateContent | simple_translate_example.py:10-49 | without a key, the mock result; with one, the HTML path iff a tag, else the whole text with the Markdown or plain prompt |
| Prototype.NoKeyIsMock | simple_translate_example.py:32-35 | an absent or empty key gives the mock result |
| Prototype.EchoWholeRoundTrip | simple_translate_example.py:119-197 | an echoing service gives back a text with one URL |
| Prototype.EchoHtmlPads | simple_translate_example.py:101-114 | an echoing service returns each kept string stripped and padded by the separator's newlines |

## Left out

- HTML parsing and rendering (html5lib, `html.parser`, `str(node)`) are
  parameters: the tree and the node renderer.
- Python's `re` is not modelled. EMAIL, SKU, CURRENCY and MARKDOWN_LINK
  matches, and the prototype's URL, EMAIL and PRICE matches, come from an
  `Engine` or `Matchers`.
- Do-not-translate terms are matched as literal substrings. The source uses
  them as regular expressions, unescaped.
- The OpenAI client, its retry, the prompts and JSON decoding are left out.
  A call is `Failed` or `Answered` with a usage and an optional decoded
  reply.
- Environment variables, provider selection, logging and file writes are
  left out. `FileStorage.read_file` and `makedirs` are left out too.
- The clock is left out. The timestamp is a parameter.
- `str.strip`, `upper`, `lower`, `isspace` and `isdigit` are ASCII-only.
  Python's Unicode tables are not modelled.
- Usage counts are opaque pass-through values.
- The prototype's network calls are a `Chat` function. Its
  `BeautifulSoup(html, 'html.parser')` string list and re-rendering are a
  `Soup` parameter.
- TranslationService.Translate: its notes use the corrected probe `⟦SEG_`,
  not the code's `âŸ¦SEG_`, so an output with a marker gets the unresolved
  note where the code gives `<Format> preserved`. The code as written is
  `TranslationService.TranslateAsWritten`.
- Placeholders.Restore: states only the empty-mapping identity. What it
  does with a non-empty mapping is carried by `RestoreItems`, `RestoreTwo`
  and `RoundTrip`.
- Prototype.ProtectOneRoundTrip: proves the round trip for one URL and no
  other match only. Several matches of different kinds are not proved.
- Providers.OpenAITranslate: the exact mapping for translatable ids is
  stated by the separate lemmas `ReplyWins`, `MissingBackfilled` and
  `ExtraIdsKept`, not in its own contract.
- ContentProcessing.ProcessHtml: states usage and language only. Its text
  is covered by `HtmlUnanswered` and the `HtmlDocument` lemmas.
- The test with overlapping do-not-translate terms
  (tests/unit/test_placeholder_manager.py:128-139) is not reproduced as an
  example.
- That tag names and attribute values come through unchanged is not proved
  as such. Only element names and child counts are
  stated (`HtmlDocument.ApplyNode`).

## Findings

| source | as written | input that shows it | evidently intended | confidence | as-written member | corrected member |
|---|---|---|---|---|---|---|
| src/newtone_translate/application/translation_service.py:107 | the probe is `âŸ¦SEG_`, the UTF-8 bytes of `⟦SEG_` read as Windows-1252 | `Some text with ⟦SEG_123⟧ unresolved marker.` gets `Html preserved` (tests/unit/test_application_services.py:228-235 expects the unresolved note) | probe for `⟦SEG_`, which every segment marker begins with | not executed | TranslationService.UnresolvedMissedAsWritten | TranslationService.UnresolvedExample |

=== FILE: content_processor.dfy ===
/** `ContentProcessor`: the dispatch on the detected format, the single
    segment sent for Markdown and plain text, and the HTML path with its
    reconciliation of the provider's mapping. The provider is a function
    parameter; for the HTML path the tree html5lib builds and the rendering
    of a node are parameters too. */
module ContentProcessing {
  import opened Wrappers
  import opened Text
  import opened Dicts
  import opened Models
  import opened HtmlDocument
  import opened Providers

  /** `provider.translate_segments(segments, target_lang, source_lang,
      brand_guide, glossary)`. */
  type Provider = (seq<Segment>, String, String, Dict, Dict) -> Outcome

  /** What `process` returns: the text, the usage, the detected language. */
  datatype Processed = Processed(text: String, usage: Usage, detected: String)

  /** `d or {}`. */
  function OrEmpty(d: Option<Dict>): (r: Dict)
    ensures d.None? ==> r == Empty
    ensures d.Some? ==> r == d.value
  {
    d.GetOr(Empty)
  }

  const WholeId: String := "t1"
  const HtmlFormat: String := "html"
  const SourceAuto: String := "auto"

  /** `_process_markdown` and `_process_text`, which do the same: the whole
      text as segment `t1`, answered by the provider's `t1` if there is one. */
  function ProcessWhole(frozen: String, provider: Provider, lang: String,
                        brandGuide: Option<Dict>, glossary: Option<Dict>): (r: Processed)
    ensures var o := provider([Segment("t1", frozen)], lang, "auto", OrEmpty(brandGuide), OrEmpty(glossary));
      && (Has(o.translations, "t1") ==> r.text == o.translations.entries["t1"])
      && (!Has(o.translations, "t1") ==> r.text == frozen)
      && r.usage == o.usage && r.detected == o.detected
  {
    var o := provider([Segment(WholeId, frozen)], lang, SourceAuto, OrEmpty(brandGuide), OrEmpty(glossary));
    Processed(Get(o.translations, WholeId).GetOr(frozen), o.usage, o.detected)
  }

  // ---------------------------------------------------------------------------
  // The reconciliation of the HTML path
  // ---------------------------------------------------------------------------

  /** `missing`: the ids of the segments that are not keys, in order. */
  function Missing(tr: Dict, segs: seq<Segment>): (ids: seq<String>)
    ensures forall k :: k in ids <==> k in Ids(segs) && !Has(tr, k)
    decreases |segs|
  {
    if |segs| == 0 then []
    else
      assert Ids(segs) == [segs[0].id] + Ids(segs[1..]);
      (if Has(tr, segs[0].id) then [] else [segs[0].id]) + Missing(tr, segs[1..])
  }

  /** `next(s["text"] for s in segs if s["id"] == id)`: the text of the first
      segment with that id. */
  function FirstText(segs: seq<Segment>, id: String): (t: String)
    requires id in Ids(segs)
    ensures exists j :: (0 <= j < |segs| && segs[j].id == id && segs[j].text == t
      && forall i :: 0 <= i < j ==> segs[i].id != id)
    decreases |segs|
  {
    if segs[0].id == id then segs[0].text
    else
      IdsTail(segs, id);
      var t := FirstText(segs[1..], id);
      FirstTextTail(segs, id, t);
      t
  }

  lemma IdsTail(segs: seq<Segment>, id: String)
    requires id in Ids(segs) && segs[0].id != id
    ensures id in Ids(segs[1..])
  {
    assert Ids(segs) == [segs[0].id] + Ids(segs[1..]);
  }

  /** The first segment with the id after the head is the first overall. */
  lemma FirstTextTail(segs: seq<Segment>, id: String, t: String)
    requires |segs| > 0 && segs[0].id != id
    requires var tail := segs[1..];
      exists j :: (0 <= j < |tail| && tail[j].id == id && tail[j].text == t
        && forall i :: 0 <= i < j ==> tail[i].id != id)
    ensures exists j :: (0 <= j < |segs| && segs[j].id == id && segs[j].text == t
      && forall i :: 0 <= i < j ==> segs[i].id != id)
  {
    var tail := segs[1..];
    var j :| 0 <= j < |tail| && tail[j].id == id && tail[j].text == t
      && forall i :: 0 <= i < j ==> tail[i].id != id;
    assert segs[j + 1] == tail[j];
    assert forall i :: 1 <= i < j + 1 ==> segs[i] == tail[i - 1];
  }

  /** `for mid in missing: translations[mid] = src_txt`. */
  function FillMissing(tr: Dict, missing: seq<String>, segs: seq<Segment>): (r: Dict)
    requires forall k :: k in missing ==> k in Ids(segs)
    ensures forall k :: Has(r, k) <==> Has(tr, k) || k in missing
    ensures forall k :: k in missing ==> Get(r, k) == Some(FirstText(segs, k))
    ensures forall k :: k !in missing ==> Get(r, k) == Get(tr, k)
    decreases |missing|
  {
    if |missing| == 0 then tr
    else
      assert forall k :: k in missing <==> k == missing[0] || k in missing[1..];
      var r := FillMissing(Put(tr, missing[0], FirstText(segs, missing[0])), missing[1..], segs);
      r
  }

  /** The reconciliation of `_process_html`: every segment id becomes a key,
      a missing id mapping to the text of its first segment. */
  function Reconcile(tr: Dict, segs: seq<Segment>): (r: Dict)
    ensures forall k :: Has(r, k) <==> Has(tr, k) || k in Ids(segs)
    ensures forall k :: Has(tr, k) ==> Get(r, k) == Get(tr, k)
    ensures forall k :: !Has(tr, k) && k in Ids(segs) ==> Get(r, k) == Some(FirstText(segs, k))
  {
    FillMissing(tr, Missing(tr, segs), segs)
  }

  /** The reconciliation agrees, key for key, with the provider's own
      back-fill of missing ids. */
  lemma ReconcileIsBackfill(tr: Dict, segs: seq<Segment>, k: String)
    ensures Get(Reconcile(tr, segs), k) == Get(Backfill(tr, segs), k)
  {
    if !Has(tr, k) && k in Ids(segs) {
      var t := FirstText(segs, k);
      var j :| 0 <= j < |segs| && segs[j].id == k && segs[j].text == t
        && forall i :: 0 <= i < j ==> segs[i].id != k;
    }
  }

  /** With distinct ids, the reconciled mapping holds every segment's own
      text unless the provider answered for it. */
  lemma ReconcileOwnText(tr: Dict, segs: seq<Segment>, j: nat)
    requires DistinctIds(segs) && j < |segs| && !Has(tr, segs[j].id)
    ensures Get(Reconcile(tr, segs), segs[j].id) == Some(segs[j].text)
  {
    assert Ids(segs)[j] == segs[j].id;
    var t := FirstText(segs, segs[j].id);
    var i :| 0 <= i < |segs| && segs[i].id == segs[j].id && segs[i].text == t
      && forall m :: 0 <= m < i ==> segs[m].id != segs[j].id;
    assert i == j;
  }

  // ---------------------------------------------------------------------------
  // The HTML path and the dispatch
  // ---------------------------------------------------------------------------

  /** The pieces of `_process_html` before serialisation. */
  datatype HtmlRun = HtmlRun(parsed: Parsed, extracted: Extracted, reply: Outcome, translations: Dict)

  function RunHtml(frozen: String, soup: seq<Node>, provider: Provider, lang: String,
                   brandGuide: Option<Dict>, glossary: Option<Dict>): (run: HtmlRun)
    ensures run.parsed == Parse(frozen, soup) && run.extracted == Extract(run.parsed.nodes)
    ensures run.reply == provider(run.extracted.segments, lang, "auto", OrEmpty(brandGuide), OrEmpty(glossary))
    ensures forall k :: Has(run.translations, k) <==> Has(run.reply.translations, k) || k in Ids(run.extracted.segments)
  {
    var p := Parse(frozen, soup);
    var ex := Extract(p.nodes);
    var o := provider(ex.segments, lang, SourceAuto, OrEmpty(brandGuide), OrEmpty(glossary));
    HtmlRun(p, ex, o, Reconcile(o.translations, ex.segments))
  }

  /** `_process_html`: parse, extract, translate, reconcile, apply,
      serialise; usage and detected language as the provider reported. */
  function ProcessHtml(frozen: String, soup: seq<Node>, render: Node -> String, provider: Provider,
                       lang: String, brandGuide: Option<Dict>, glossary: Option<Dict>): (r: Processed)
    ensures var o := provider(Extract(Parse(frozen, soup).nodes).segments, lang, "auto",
                              OrEmpty(brandGuide), OrEmpty(glossary));
      r.usage == o.usage && r.detected == o.detected
  {
    var run := RunHtml(frozen, soup, provider, lang, brandGuide, glossary);
    Processed(Serialize(run.parsed, Apply(run.extracted.nodes, run.translations), render),
              run.reply.usage, run.reply.detected)
  }

  /** `process`: `html` takes the HTML path, every other format the
      whole-text path. */
  function Process(frozen: String, format: String, soup: seq<Node>, render: Node -> String,
                   provider: Provider, lang: String, brandGuide: Option<Dict>, glossary: Option<Dict>): (r: Processed)
    ensures format == "html" ==> r == ProcessHtml(frozen, soup, render, provider, lang, brandGuide, glossary)
    ensures format != "html" ==> r == ProcessWhole(frozen, provider, lang, brandGuide, glossary)
  {
    if format == HtmlFormat then ProcessHtml(frozen, soup, render, provider, lang, brandGuide, glossary)
    else ProcessWhole(frozen, provider, lang, brandGuide, glossary)
  }

  // ---------------------------------------------------------------------------
  // Properties
  // ---------------------------------------------------------------------------

  /** An absent brand guide or glossary reaches the provider as `{}`. */
  lemma AbsentGuidesAreEmpty(frozen: String, format: String, soup: seq<Node>, render: Node -> String,
                             provider: Provider, lang: String)
    ensures Process(frozen, format, soup, render, provider, lang, None, None)
      == Process(frozen, format, soup, render, provider, lang, Some(Empty), Some(Empty))
  {
  }

  /** The mock provider turns a Markdown or plain text into its prefixed
      form, with the mock's usage and language. */
  lemma WholeWithMock(frozen: String, lang: String, b: Option<Dict>, g: Option<Dict>)
    ensures ProcessWhole(frozen, MockTranslate, lang, b, g)
      == Processed(MockText(lang, frozen), Usage(10, 15), "en")
  {
    var o := MockTranslate([Segment(WholeId, frozen)], lang, SourceAuto, OrEmpty(b), OrEmpty(g));
    assert [Segment(WholeId, frozen)][0].id == WholeId;
  }

  /** A provider that answers nothing leaves a Markdown or plain text as it
      was. */
  lemma WholeUnanswered(frozen: String, provider: Provider, lang: String, b: Option<Dict>, g: Option<Dict>)
    requires !Has(provider([Segment("t1", frozen)], lang, "auto", OrEmpty(b), OrEmpty(g)).translations, "t1")
    ensures ProcessWhole(frozen, provider, lang, b, g).text == frozen
  {
  }

  /** A provider that answers nothing leaves an HTML tree as it was before
      extraction, when none of its texts holds a `⟦`: every id is reconciled
      to its own text and application undoes the extraction. */
  lemma HtmlUnanswered(frozen: String, soup: seq<Node>, render: Node -> String, provider: Provider,
                       lang: String, b: Option<Dict>, g: Option<Dict>)
    requires Unmarked(Leaves(Parse(frozen, soup).nodes, DocumentName))
    requires provider(Extract(Parse(frozen, soup).nodes).segments, lang, "auto", OrEmpty(b), OrEmpty(g)).translations == Empty
    ensures ProcessHtml(frozen, soup, render, provider, lang, b, g).text
      == Serialize(Parse(frozen, soup), Parse(frozen, soup).nodes, render)
  {
    var run := RunHtml(frozen, soup, provider, lang, b, g);
    var segs := run.extracted.segments;
    ExtractDistinct(run.parsed.nodes);
    forall x | x in segs ensures Get(run.translations, x.id) == Some(x.text) {
      var j :| 0 <= j < |segs| && segs[j] == x;
      ReconcileOwnText(Empty, segs, j);
    }
    ApplyExtractNodes(run.parsed.nodes, DocumentName, 0, run.translations);
  }
}

=== FILE: dicts.dfy ===
/** Python's insertion-ordered `dict[str, str]`: a key order without
    repetitions next to a finite map over exactly those keys. Iteration
    follows `order`; assigning an existing key keeps its position. */
module Dicts {
  import opened Wrappers
  import opened Text

  datatype RawDict = RawDict(order: seq<String>, entries: map<String, String>)

  ghost predicate Valid(d: RawDict) {
    && (forall i, j :: 0 <= i < j < |d.order| ==> d.order[i] != d.order[j])
    && (forall k :: k in d.entries <==> k in d.order)
  }

  type Dict = d: RawDict | Valid(d) witness RawDict([], map[])

  /** `{}`. */
  const Empty: Dict := RawDict([], map[])

  /** One `(key, value)` item of a dict, as produced by `items()`. */
  datatype Pair = Pair(key: String, value: String)

  /** `k in d`. */
  predicate Has(d: Dict, k: String) {
    k in d.entries
  }

  /** `d.get(k)`. */
  function Get(d: Dict, k: String): Option<String> {
    if k in d.entries then Some(d.entries[k]) else None
  }

  /** `k in d.values()`. */
  predicate HasValue(d: Dict, v: String) {
    v in d.entries.Values
  }

  /** `d[k] = v`: the value of `k` becomes `v`, every other key keeps its
      value, and the key order only grows by `k` at the end when `k` is new. */
  function Put(d: Dict, k: String, v: String): (r: Dict)
    ensures Get(r, k) == Some(v)
    ensures forall k' :: k' != k ==> Get(r, k') == Get(d, k')
    ensures Has(d, k) ==> r.order == d.order
    ensures !Has(d, k) ==> r.order == d.order + [k]
  {
    if k in d.entries then
      RawDict(d.order, d.entries[k := v])
    else
      var r := RawDict(d.order + [k], d.entries[k := v]);
      assert forall k' :: k' in r.entries <==> k' in r.order by {
        forall k' ensures k' in r.entries <==> k' in r.order {
          assert k' in r.order <==> k' in d.order || k' == k;
        }
      }
      r
  }

  /** `d.update(e)`: every item of `e`, in `e`'s order, is assigned into `d`. */
  function Update(d: Dict, e: Dict): (r: Dict)
    ensures forall k :: Get(r, k) == if Has(e, k) then Get(e, k) else Get(d, k)
  {
    UpdateFrom(d, e, 0)
  }

  function UpdateFrom(d: Dict, e: Dict, i: nat): (r: Dict)
    requires i <= |e.order|
    ensures forall k :: Get(r, k) == if k in e.order[i..] then Get(e, k) else Get(d, k)
    decreases |e.order| - i
  {
    if i == |e.order| then d
    else
      var k := e.order[i];
      assert e.order[i..] == [k] + e.order[i + 1..];
      UpdateFrom(Put(d, k, e.entries[k]), e, i + 1)
  }

  /** The items of `d` in iteration order. */
  function Items(d: Dict): (ps: seq<Pair>)
    ensures |ps| == |d.order|
    ensures forall i :: 0 <= i < |ps| ==> ps[i] == Pair(d.order[i], d.entries[d.order[i]])
  {
    seq(|d.order|, i requires 0 <= i < |d.order| => Pair(d.order[i], d.entries[d.order[i]]))
  }
}

=== FILE: format_detection.dfy ===
/** `FormatService.detect_format`: the text is Markdown if any Markdown
    pattern is found, otherwise HTML if its `<…>` tags look like markup,
    otherwise plain text. Every regular expression involved is stated here
    as an exact left-to-right check; `re.MULTILINE` makes `^` match at the
    start of the text and after every newline. */
module FormatDetection {
  import opened Text
  import opened Scanners

  // ---------------------------------------------------------------------------
  // Scanning helpers
  // ---------------------------------------------------------------------------

  /** The length of the run of `c` starting at `i`. */
  function RunOf(t: String, i: nat, c: char): (n: nat)
    requires i <= |t|
    ensures i + n <= |t|
    ensures forall m :: i <= m < i + n ==> t[m] == c
    ensures i + n == |t| || t[i + n] != c
    decreases |t| - i
  {
    if i < |t| && t[i] == c then 1 + RunOf(t, i + 1, c) else 0
  }

  /** Where `^` matches under `re.MULTILINE`. */
  predicate LineStart(t: String, i: int) {
    0 <= i <= |t| && (i == 0 || t[i - 1] == '\n')
  }

  // ---------------------------------------------------------------------------
  // The Markdown patterns, each anchored at one index
  // ---------------------------------------------------------------------------

  /** `^#+\s+`. */
  predicate HeadingAt(t: String, i: int) {
    LineStart(t, i) && var n := RunOf(t, i, '#'); n > 0 && i + n < |t| && IsSpace(t[i + n])
  }

  /** `^\*\s+`. */
  predicate BulletAt(t: String, i: int) {
    LineStart(t, i) && i + 1 < |t| && t[i] == '*' && IsSpace(t[i + 1])
  }

  /** `^\d+\.\s+`. */
  predicate NumberedAt(t: String, i: int) {
    LineStart(t, i) && var n := DigitRun(t, i);
    n > 0 && i + n + 1 < |t| && t[i + n] == '.' && IsSpace(t[i + n + 1])
  }

  /** `^\>\s+`. */
  predicate QuoteAt(t: String, i: int) {
    LineStart(t, i) && i + 1 < |t| && t[i] == '>' && IsSpace(t[i + 1])
  }

  /** `\[([^\]]+)\]\(([^)]+)\)`: a non-empty label up to the first `]`, then
      `(`, then a non-empty target up to the first `)`. */
  predicate LinkAt(t: String, i: int) {
    0 <= i < |t| && t[i] == '[' &&
    var j := UpTo(t, i + 1, ']');
    j > i + 1 && j + 1 < |t| && t[j + 1] == '(' &&
    var k := UpTo(t, j + 2, ')');
    k > j + 2 && k < |t|
  }

  /** `\*\*([^*]+)\*\*`. */
  predicate BoldAt(t: String, i: int) {
    0 <= i && i + 1 < |t| && t[i] == '*' && t[i + 1] == '*' &&
    var k := UpTo(t, i + 2, '*');
    k > i + 2 && k + 1 < |t| && t[k + 1] == '*'
  }

  /** `\*([^*]+)\*`. */
  predicate ItalicAt(t: String, i: int) {
    0 <= i < |t| && t[i] == '*' &&
    var k := UpTo(t, i + 1, '*');
    k > i + 1 && k < |t|
  }

  predicate SignalAt(t: String, i: int) {
    HeadingAt(t, i) || BulletAt(t, i) || NumberedAt(t, i) || QuoteAt(t, i)
    || LinkAt(t, i) || BoldAt(t, i) || ItalicAt(t, i)
  }

  /** `_is_markdown_text`: some pattern is found somewhere. */
  predicate IsMarkdownText(t: String) {
    exists i :: 0 <= i <= |t| && SignalAt(t, i)
  }

  /** Every bold match holds an italic match one character later, so the
      bold pattern never decides the classification on its own. */
  lemma BoldIsItalic(t: String, i: int)
    requires BoldAt(t, i)
    ensures ItalicAt(t, i + 1)
  {
  }

  /** Each Markdown pattern starts with a character that is not whitespace. */
  lemma SignalNotBlank(t: String, i: int)
    requires SignalAt(t, i)
    ensures i < |t| && !IsSpace(t[i])
  {
    if HeadingAt(t, i) {
      assert RunOf(t, i, '#') > 0;
    } else if NumberedAt(t, i) {
      assert DigitRun(t, i) > 0;
    }
  }

  // ---------------------------------------------------------------------------
  // The HTML test
  // ---------------------------------------------------------------------------

  /** `common_html_elements`. */
  const CommonElements: seq<String> :=
    ["html", "head", "body", "div", "p", "span", "a", "img", "ul", "ol", "li",
     "h1", "h2", "h3", "h4", "h5", "h6"]

  predicate HasOpening(tags: seq<String>) {
    exists k :: 0 <= k < |tags| && !StartsWith(tags[k], "</")
  }

  predicate HasClosing(tags: seq<String>) {
    exists k :: 0 <= k < |tags| && StartsWith(tags[k], "</")
  }

  predicate HasSelfClosing(tags: seq<String>) {
    exists k :: 0 <= k < |tags| && EndsWith(tags[k], "/>")
  }

  /** Some tag contains a common element name, ignoring case. */
  predicate HasElementName(tags: seq<String>) {
    exists k, m :: 0 <= k < |tags| && 0 <= m < |CommonElements| && Occurs(Lower(tags[k]), CommonElements[m])
  }

  predicate HasAttribute(tags: seq<String>) {
    exists k :: 0 <= k < |tags| && '=' in tags[k]
  }

  /** `_is_html_text`: there is a tag, and either an opening tag together
      with a closing or self-closing one, or an attribute together with a
      common element name. */
  predicate IsHtmlText(t: String) {
    var tags := TagScan(t);
    |tags| > 0 &&
    ((HasOpening(tags) && (HasClosing(tags) || HasSelfClosing(tags)))
     || (HasAttribute(tags) && HasElementName(tags)))
  }

  // ---------------------------------------------------------------------------
  // detect_format
  // ---------------------------------------------------------------------------

  const MarkdownName: String := "markdown"
  const HtmlName: String := "html"
  const TextName: String := "text"

  /** `detect_format`: one of the three names, Markdown taking precedence
      over HTML. */
  function DetectFormat(t: String): (r: String)
    ensures r == MarkdownName || r == HtmlName || r == TextName
    ensures r == MarkdownName <==> IsMarkdownText(t)
    ensures r == HtmlName <==> !IsMarkdownText(t) && IsHtmlText(t)
  {
    if IsMarkdownText(t) then MarkdownName
    else if IsHtmlText(t) then HtmlName
    else TextName
  }

  /** Text without any `<…>` tag is never classified as HTML. */
  lemma NoTagNotHtml(t: String)
    requires !HasTag(t)
    ensures DetectFormat(t) != HtmlName
  {
  }

  /** The empty text and whitespace-only text are plain text. */
  lemma BlankIsText(t: String)
    requires IsBlank(t)
    ensures DetectFormat(t) == TextName
  {
    if IsMarkdownText(t) {
      var i :| 0 <= i <= |t| && SignalAt(t, i);
      SignalNotBlank(t, i);
      assert false;
    }
    forall i | 0 <= i < |t| ensures !TagStartsAt(t, i) {
      assert IsSpace(t[i]);
    }
  }

  /** Markdown wins over markup: a text with any Markdown signal is
      Markdown whatever tags it carries. */
  lemma MarkdownBeatsHtml(t: String, i: int)
    requires 0 <= i <= |t| && SignalAt(t, i)
    ensures DetectFormat(t) == MarkdownName
  {
  }

  /** An opening tag with a closing or self-closing tag makes a non-Markdown
      text HTML. */
  lemma OpenAndCloseIsHtml(t: String, a: int, b: int)
    requires !IsMarkdownText(t)
    requires 0 <= a < |TagScan(t)| && 0 <= b < |TagScan(t)|
    requires !StartsWith(TagScan(t)[a], "</")
    requires StartsWith(TagScan(t)[b], "</") || EndsWith(TagScan(t)[b], "/>")
    ensures DetectFormat(t) == HtmlName
  {
  }

  /** A tag with `=` and a tag naming a common element make a non-Markdown
      text HTML even without any closing tag. */
  lemma AttributeIsHtml(t: String, a: int, b: int, m: int)
    requires !IsMarkdownText(t)
    requires 0 <= a < |TagScan(t)| && 0 <= b < |TagScan(t)| && 0 <= m < |CommonElements|
    requires '=' in TagScan(t)[a]
    requires Occurs(Lower(TagScan(t)[b]), CommonElements[m])
    ensures DetectFormat(t) == HtmlName
  {
  }

  // ---------------------------------------------------------------------------
  // The line-anchored signals fire at the start of any line
  // ---------------------------------------------------------------------------

  /** The index right after a newline is a line start, and the text that
      follows it decides the anchored patterns there. */
  lemma AfterNewline(a: String, x: String, b: String)
    ensures LineStart(a + "\n" + x + b, |a| + 1)
    ensures forall m :: 0 <= m < |x| ==> (a + "\n" + x + b)[|a| + 1 + m] == x[m]
  {
  }

  lemma HeadingOnAnyLine(a: String, b: String)
    ensures HeadingAt(a + "\n" + "# " + b, |a| + 1)
    ensures DetectFormat(a + "\n" + "# " + b) == MarkdownName
  {
    var t := a + "\n" + "# " + b;
    AfterNewline(a, "# ", b);
    assert RunOf(t, |a| + 2, '#') == 0;
    assert RunOf(t, |a| + 1, '#') == 1;
    assert SignalAt(t, |a| + 1);
  }

  lemma BulletOnAnyLine(a: String, b: String)
    ensures BulletAt(a + "\n" + "* " + b, |a| + 1)
    ensures DetectFormat(a + "\n" + "* " + b) == MarkdownName
  {
    var t := a + "\n" + "* " + b;
    AfterNewline(a, "* ", b);
    assert SignalAt(t, |a| + 1);
  }

  lemma NumberedOnAnyLine(a: String, b: String)
    ensures NumberedAt(a + "\n" + "1. " + b, |a| + 1)
    ensures DetectFormat(a + "\n" + "1. " + b) == MarkdownName
  {
    var t := a + "\n" + "1. " + b;
    AfterNewline(a, "1. ", b);
    assert DigitRun(t, |a| + 2) == 0;
    assert DigitRun(t, |a| + 1) == 1;
    assert SignalAt(t, |a| + 1);
  }

  lemma QuoteOnAnyLine(a: String, b: String)
    ensures QuoteAt(a + "\n" + "> " + b, |a| + 1)
    ensures DetectFormat(a + "\n" + "> " + b) == MarkdownName
  {
    var t := a + "\n" + "> " + b;
    AfterNewline(a, "> ", b);
    assert SignalAt(t, |a| + 1);
  }

  /** The anchored patterns do not fire in the middle of a line. */
  lemma AnchoredOnlyAtLineStart(t: String, i: int)
    requires 0 < i <= |t| && t[i - 1] != '\n'
    ensures !HeadingAt(t, i) && !BulletAt(t, i) && !NumberedAt(t, i) && !QuoteAt(t, i)
  {
  }
  // ---------------------------------------------------------------------------
  // Worked cases
  // ---------------------------------------------------------------------------

  /** A one-line text free of `#`, `*` and `[` that starts with neither a
      digit nor `>` has no Markdown signal. */
  lemma NoMarkdown(t: String)
    requires '#' !in t && '*' !in t && '[' !in t && '\n' !in t
    requires |t| > 0 ==> t[0] != '>' && !IsDigit(t[0])
    ensures !IsMarkdownText(t)
  {
    forall i | 0 <= i <= |t| ensures !SignalAt(t, i) {
      if 0 < i < |t| {
        assert t[i - 1] in t;
        assert t[i] in t;
      } else if i == 0 < |t| {
        assert t[0] in t;
      }
    }
  }

  lemma NotHtmlTags(t: String)
    requires t == "< not html >"
    ensures TagScan(t) == [t]
  {
    TagScanHit(t, 0, 11);
    assert t[0..12] == t;
  }

  /** `"< not html >"`: one opening tag, nothing closing and no `=`. */
  lemma NotHtmlExample(t: String)
    requires t == "< not html >"
    ensures DetectFormat(t) == TextName
  {
    NoMarkdown(t);
    NotHtmlTags(t);
    NotHtmlShape(t);
    LoneTagIsText(t, t);
  }

  lemma NotHtmlShape(t: String)
    requires t == "< not html >"
    ensures !StartsWith(t, "</") && !EndsWith(t, "/>") && '=' !in t
  {
    assert t[..2][1] == ' ' != "</"[1];
    assert t[10..][0] == ' ' != "/>"[0];
    assert forall j :: 0 <= j < |t| ==> t[j] != '=';
  }

  /** A non-Markdown text whose only tag neither closes nor carries `=` is
      plain text. */
  lemma LoneTagIsText(t: String, m: String)
    requires !IsMarkdownText(t) && TagScan(t) == [m]
    requires !StartsWith(m, "</") && !EndsWith(m, "/>") && '=' !in m
    ensures DetectFormat(t) == TextName
  {
    var tags := TagScan(t);
    assert !HasClosing(tags) && !HasSelfClosing(tags) && !HasAttribute(tags);
  }

  lemma HtmlTagsTail(t: String)
    requires t == "<p>Hi</p>"
    ensures TagScanFrom(t, 5) == ["</p>"]
  {
    TagScanHit(t, 5, 8);
    assert TagScanFrom(t, 9) == [];
    assert t[5..9] == "</p>";
  }

  lemma HtmlTagsMiddle(t: String)
    requires t == "<p>Hi</p>"
    ensures TagScanFrom(t, 3) == ["</p>"]
  {
    TagScanSkip(t, 3);
    TagScanSkip(t, 4);
    HtmlTagsTail(t);
  }

  lemma HtmlTagsHead(t: String)
    requires t == "<p>Hi</p>"
    ensures TagScanFrom(t, 0) == ["<p>"] + TagScanFrom(t, 3)
  {
    TagScanHit(t, 0, 2);
    assert t[0..3] == "<p>";
  }

  lemma HtmlTags(t: String)
    requires t == "<p>Hi</p>"
    ensures TagScan(t) == ["<p>", "</p>"]
  {
    HtmlTagsHead(t);
    HtmlTagsMiddle(t);
  }

  /** `"<p>Hi</p>"`: an opening and a closing tag. */
  lemma HtmlExample(t: String)
    requires t == "<p>Hi</p>"
    ensures DetectFormat(t) == HtmlName
  {
    NoMarkdownP(t);
    HtmlTags(t);
    assert !StartsWith("<p>", "</") && StartsWith("</p>", "</");
    PairIsHtml(t, "<p>", "</p>");
  }

  lemma NoMarkdownP(t: String)
    requires t == "<p>Hi</p>"
    ensures !IsMarkdownText(t)
  {
    NoMarkdown(t);
  }

  /** A non-Markdown text whose tags are an opening and a closing one is
      HTML. */
  lemma PairIsHtml(t: String, a: String, b: String)
    requires !IsMarkdownText(t) && TagScan(t) == [a, b]
    requires !StartsWith(a, "</") && StartsWith(b, "</")
    ensures DetectFormat(t) == HtmlName
  {
    OpenAndCloseIsHtml(t, 0, 1);
  }

  lemma AttributeTags(t: String)
    requires t == "<img src=x>"
    ensures TagScan(t) == [t]
  {
    TagScanHit(t, 0, 10);
    assert t[0..11] == t;
  }

  /** `"<img src=x>"`: no closing tag, but an attribute and a common element
      name. */
  lemma AttributeExample(t: String)
    requires t == "<img src=x>"
    ensures DetectFormat(t) == HtmlName
  {
    NoMarkdownImg(t);
    AttributeTags(t);
    ImgShape(t);
    AttributeIsHtml(t, 0, 0, 7);
  }

  lemma NoMarkdownImg(t: String)
    requires t == "<img src=x>"
    ensures !IsMarkdownText(t)
  {
    NoMarkdown(t);
  }

  lemma ImgShape(t: String)
    requires t == "<img src=x>"
    ensures '=' in t && Occurs(Lower(t), CommonElements[7])
  {
    assert t[8] == '=';
    assert Lower(t)[1..4] == "img";
    assert OccursAt(Lower(t), CommonElements[7], 1);
  }

  /** `"# Hi\n<p>x</p>"`: a heading makes it Markdown despite the markup. */
  lemma HeadingWithMarkupExample()
    ensures DetectFormat("# Hi\n<p>x</p>") == MarkdownName
  {
    var t := "# Hi\n<p>x</p>";
    assert RunOf(t, 1, '#') == 0;
    assert RunOf(t, 0, '#') == 1;
    MarkdownBeatsHtml(t, 0);
  }

  lemma EmptyExample()
    ensures DetectFormat("") == TextName
  {
    BlankIsText("");
  }
}

=== FILE: html_document.dfy ===
/** `HTMLParser`: what it records about the raw input (the first doctype and
    whether the input is a fragment), the numbering of the translatable text
    nodes with their replacement by segment markers, the application of the
    translations to the markers, and the outline of serialisation. The tree
    html5lib builds is an input; rendering a node to markup is a parameter. */
module HtmlDocument {
  import opened Wrappers
  import opened Text
  import opened Dicts
  import opened Scanners
  import opened Models
  import Placeholders

  // ---------------------------------------------------------------------------
  // The document tree
  // ---------------------------------------------------------------------------

  /** The kinds of string node: plain text, and the special strings the
      extraction skips. */
  datatype Kind = Plain | CommentString | DoctypeString | InstructionString | DeclarationString

  /** An element with its children, or a string node. Attributes belong to
      the element's rendering. */
  datatype Node = Element(name: String, children: seq<Node>) | Str(kind: Kind, text: String)

  // ---------------------------------------------------------------------------
  // parse: doctype and fragment flag, from the raw text
  // ---------------------------------------------------------------------------

  /** `<!DOCTYPE[^>]*>`, ignoring case, matches at `i`. */
  predicate DoctypeAt(t: String, i: int) {
    0 <= i && i + 9 <= |t| && Lower(t[i..i + 9]) == "<!doctype" && UpTo(t, i + 9, '>') < |t|
  }

  /** The leftmost doctype match at or after `i`, or -1. */
  function DoctypeIndex(t: String, i: nat): (j: int)
    requires i <= |t|
    ensures j == -1 || (i <= j < |t| && DoctypeAt(t, j))
    ensures forall m :: i <= m && (j == -1 || m < j) ==> !DoctypeAt(t, m)
    decreases |t| - i
  {
    if i == |t| then -1
    else if DoctypeAt(t, i) then i
    else DoctypeIndex(t, i + 1)
  }

  /** `self.doctype`: the first doctype of the raw text, verbatim, up to
      and including its `>`. */
  function Doctype(t: String): (r: Option<String>)
    ensures r.None? <==> forall m :: 0 <= m ==> !DoctypeAt(t, m)
    ensures r.Some? ==> (|r.value| >= 10 && Lower(r.value[..9]) == "<!doctype"
      && r.value[|r.value| - 1] == '>' && Occurs(t, r.value))
  {
    var j := DoctypeIndex(t, 0);
    if j < 0 then None
    else
      var k := UpTo(t, j + 9, '>');
      var d := t[j..k + 1];
      assert d[..9] == t[j..j + 9];
      assert OccursAt(t, d, j);
      Some(d)
  }

  /** `<name[^>]*>`, ignoring case, matches at `i`. */
  predicate OpenTagAt(t: String, i: int, name: String) {
    0 <= i && i + 1 + |name| <= |t| && Lower(t[i..i + 1 + |name|]) == "<" + name
    && UpTo(t, i + 1 + |name|, '>') < |t|
  }

  predicate HasOpenTag(t: String, name: String) {
    exists i :: 0 <= i < |t| && OpenTagAt(t, i, name)
  }

  /** `is_fragment`: the raw text has neither an `<html…>` nor a `<body…>`
      tag. */
  predicate IsFragment(t: String) {
    !HasOpenTag(t, "html") && !HasOpenTag(t, "body")
  }

  /** What `parse` leaves behind: the recorded doctype and fragment flag, and
      the tree without its top-level doctype nodes. */
  datatype Parsed = Parsed(doctype: Option<String>, isFragment: bool, nodes: seq<Node>)

  predicate IsDoctypeNode(n: Node) {
    n.Str? && n.kind == DoctypeString
  }

  /** The top-level nodes that are not doctypes, in order. */
  function DropDoctypes(ns: seq<Node>): (r: seq<Node>)
    ensures forall k :: 0 <= k < |r| ==> !IsDoctypeNode(r[k]) && r[k] in ns
    ensures forall n :: n in ns && !IsDoctypeNode(n) ==> n in r
    decreases |ns|
  {
    if |ns| == 0 then []
    else if IsDoctypeNode(ns[0]) then DropDoctypes(ns[1..])
    else [ns[0]] + DropDoctypes(ns[1..])
  }

  /** `parse(html)`, given the tree html5lib builds for `html`. */
  function Parse(html: String, soup: seq<Node>): (p: Parsed)
    ensures p.doctype == Doctype(html) && (p.isFragment <==> IsFragment(html))
    ensures forall k :: 0 <= k < |p.nodes| ==> !IsDoctypeNode(p.nodes[k])
  {
    Parsed(Doctype(html), IsFragment(html), DropDoctypes(soup))
  }

  // ---------------------------------------------------------------------------
  // extract_segments
  // ---------------------------------------------------------------------------

  /** `f"n{counter}"`. */
  function SegId(n: nat): String {
    "n" + NatToString(n)
  }

  /** `f"⟦SEG_{seg_id}⟧"`. */
  function Marker(id: String): String {
    [Placeholders.Open] + "SEG_" + id + [Placeholders.Close]
  }

  /** The name of the parent of a top-level node: the document itself. */
  const DocumentName: String := "[document]"

  /** A string node is translated when it is plain text, not whitespace
      only, and its direct parent is neither `script` nor `style`. */
  predicate Kept(parent: String, k: Kind, s: String) {
    k == Plain && !IsBlank(s) && parent != "script" && parent != "style"
  }

  datatype Extracted = Extracted(segments: seq<Segment>, nodes: seq<Node>)
  datatype ExtractedNode = ExtractedNode(segments: seq<Segment>, node: Node)

  /** The extraction over one node; `count` segments were numbered before it. */
  function ExtractNode(n: Node, parent: String, count: nat): ExtractedNode
    decreases n, 0
  {
    match n
    case Str(k, s) =>
      if Kept(parent, k, s) then
        var id := SegId(count + 1);
        ExtractedNode([Segment(id, s)], Str(Plain, Marker(id)))
      else
        ExtractedNode([], n)
    case Element(name, cs) =>
      var r := ExtractNodes(cs, name, count);
      ExtractedNode(r.segments, Element(name, r.nodes))
  }

  function ExtractNodes(ns: seq<Node>, parent: String, count: nat): (r: Extracted)
    ensures |r.nodes| == |ns|
    decreases ns, 1
  {
    if |ns| == 0 then Extracted([], [])
    else
      var a := ExtractNode(ns[0], parent, count);
      var b := ExtractNodes(ns[1..], parent, count + |a.segments|);
      Extracted(a.segments + b.segments, [a.node] + b.nodes)
  }

  /** `extract_segments(soup)`: the segments, and the tree with every kept
      node replaced by its marker. */
  function Extract(nodes: seq<Node>): Extracted {
    ExtractNodes(nodes, DocumentName, 0)
  }

  // ---------------------------------------------------------------------------
  // The reference reading of extraction: filter the string nodes, then number
  // ---------------------------------------------------------------------------

  /** One string node of `find_all(string=True)` with the name of its parent. */
  datatype Leaf = Leaf(parent: String, kind: Kind, text: String)

  /** Every string node in document order. */
  function LeavesOf(n: Node, parent: String): seq<Leaf>
    decreases n, 0
  {
    match n
    case Str(k, s) => [Leaf(parent, k, s)]
    case Element(name, cs) => Leaves(cs, name)
  }

  function Leaves(ns: seq<Node>, parent: String): seq<Leaf>
    decreases ns, 1
  {
    if |ns| == 0 then [] else LeavesOf(ns[0], parent) + Leaves(ns[1..], parent)
  }

  /** The texts of the kept leaves, in order. */
  function KeptTexts(ls: seq<Leaf>): seq<String>
    decreases |ls|
  {
    if |ls| == 0 then []
    else if Kept(ls[0].parent, ls[0].kind, ls[0].text) then [ls[0].text] + KeptTexts(ls[1..])
    else KeptTexts(ls[1..])
  }

  /** Texts numbered from `count + 1`. */
  function Numbered(texts: seq<String>, count: nat): (segs: seq<Segment>)
    ensures |segs| == |texts|
    ensures forall j :: 0 <= j < |texts| ==> segs[j] == Segment(SegId(count + j + 1), texts[j])
  {
    seq(|texts|, j requires 0 <= j < |texts| => Segment(SegId(count + j + 1), texts[j]))
  }

  lemma {:induction false} KeptTextsAppend(a: seq<Leaf>, b: seq<Leaf>)
    ensures KeptTexts(a + b) == KeptTexts(a) + KeptTexts(b)
    decreases |a|
  {
    if |a| > 0 {
      assert (a + b)[0] == a[0];
      assert (a + b)[1..] == a[1..] + b;
      KeptTextsAppend(a[1..], b);
    } else {
      assert a + b == b;
    }
  }

  lemma NumberedAppend(x: seq<String>, y: seq<String>, count: nat)
    ensures Numbered(x + y, count) == Numbered(x, count) + Numbered(y, count + |x|)
  {
  }

  /** Extraction numbers exactly the kept string nodes, in document order:
      the k-th segment has id `n<count + k>` and the k-th kept text. */
  lemma {:induction false} ExtractNodeNumbers(n: Node, parent: String, count: nat)
    ensures ExtractNode(n, parent, count).segments == Numbered(KeptTexts(LeavesOf(n, parent)), count)
    decreases n, 0
  {
    match n
    case Str(k, s) =>
      assert LeavesOf(n, parent)[1..] == [];
    case Element(name, cs) =>
      ExtractNodesNumbers(cs, name, count);
  }

  lemma {:induction false} ExtractNodesNumbers(ns: seq<Node>, parent: String, count: nat)
    ensures ExtractNodes(ns, parent, count).segments == Numbered(KeptTexts(Leaves(ns, parent)), count)
    decreases ns, 1
  {
    if |ns| > 0 {
      var a := ExtractNode(ns[0], parent, count);
      ExtractNodeNumbers(ns[0], parent, count);
      ExtractNodesNumbers(ns[1..], parent, count + |a.segments|);
      KeptTextsAppend(LeavesOf(ns[0], parent), Leaves(ns[1..], parent));
      NumberedAppend(KeptTexts(LeavesOf(ns[0], parent)), KeptTexts(Leaves(ns[1..], parent)), count);
    }
  }

  /** The segments of a document are `n1, n2, …` over its kept texts. */
  lemma ExtractIds(nodes: seq<Node>)
    ensures |Extract(nodes).segments| == |KeptTexts(Leaves(nodes, DocumentName))|
    ensures forall j :: 0 <= j < |Extract(nodes).segments| ==>
      Extract(nodes).segments[j] == Segment(SegId(j + 1), KeptTexts(Leaves(nodes, DocumentName))[j])
  {
    ExtractNodesNumbers(nodes, DocumentName, 0);
  }

  // ---------------------------------------------------------------------------
  // apply_translations
  // ---------------------------------------------------------------------------

  /** One exact pass: a string node whose whole text is the marker of
      `p.key` becomes a plain string holding `p.value`. */
  function Exact(n: Node, p: Pair): Node {
    if n.Str? && n.text == Marker(p.key) then Str(Plain, p.value) else n
  }

  /** The first phase: one exact pass per translation, in the dict's order. */
  function ExactPasses(n: Node, ps: seq<Pair>): (r: Node)
    ensures n.Str? ==> r.Str?
    decreases |ps|
  {
    if |ps| == 0 then n else ExactPasses(Exact(n, ps[0]), ps[1..])
  }

  /** `⟦SEG_n`, the fixed part of `⟦SEG_(n\d+)⟧` before the digits. */
  const SegPrefix: String := [Placeholders.Open] + "SEG_n"

  /** The number of digits of a marker match at `i`, or 0 when none starts
      there. */
  function SegMatchLen(s: String, i: nat): (d: nat)
    requires i <= |s|
    ensures d > 0 ==> (OccursAt(s, SegPrefix, i) && i + 6 + d < |s| && s[i + 6 + d] == Placeholders.Close
      && forall m :: i + 6 <= m < i + 6 + d ==> IsDigit(s[m]))
  {
    if OccursAt(s, SegPrefix, i) then
      var d := DigitRun(s, i + 6);
      if d > 0 && i + 6 + d < |s| && s[i + 6 + d] == Placeholders.Close then d else 0
    else 0
  }

  /** `pattern.findall(s[i:])`: the ids of the non-overlapping marker
      matches, leftmost first. */
  function SegScanFrom(s: String, i: nat): (ids: seq<String>)
    requires i <= |s|
    ensures forall j :: 0 <= j < |ids| ==> |ids[j]| >= 2 && ids[j][0] == 'n' && AllDigits(ids[j][1..])
    decreases |s| - i
  {
    if i == |s| then []
    else
      var d := SegMatchLen(s, i);
      if d > 0 then
        var id := s[i + 5..i + 6 + d];
        assert id[0] == SegPrefix[5];
        assert forall m :: 1 <= m < |id| ==> id[m] == s[i + 5 + m];
        [id] + SegScanFrom(s, i + 7 + d)
      else
        SegScanFrom(s, i + 1)
  }

  /** A match spanning `s[i..e + 1]` is the marker of `s[i + 5..e]`. */
  lemma MarkerAt(s: String, i: nat, e: nat)
    requires i + 6 <= e < |s| && OccursAt(s, SegPrefix, i) && s[e] == Placeholders.Close
    ensures s[i..e + 1] == Marker(s[i + 5..e])
  {
    assert s[i..i + 5] == SegPrefix[..5];
    assert s[i..e + 1] == s[i..i + 5] + s[i + 5..e] + [s[e]];
  }

  lemma SegScanHit(s: String, i: nat, d: nat)
    requires i < |s| && d > 0 && SegMatchLen(s, i) == d
    ensures SegScanFrom(s, i) == [s[i + 5..i + 6 + d]] + SegScanFrom(s, i + 7 + d)
  {
  }

  function SegScan(s: String): seq<String> {
    SegScanFrom(s, 0)
  }

  /** The second phase on one text: for each id found, in order, every
      occurrence of its marker is replaced when the id has a translation. */
  function Substitute(s: String, ids: seq<String>, tr: Dict): String
    decreases |ids|
  {
    if |ids| == 0 then s
    else
      var s' := if Has(tr, ids[0]) then ReplaceAll(s, Marker(ids[0]), tr.entries[ids[0]]) else s;
      Substitute(s', ids[1..], tr)
  }

  /** Both phases on one string node. The second phase rewrites, and turns
      into a plain string, every node in which the pattern finds a match. */
  function ApplyString(k: Kind, s: String, tr: Dict): (r: Node)
    ensures r.Str?
  {
    var n := ExactPasses(Str(k, s), Items(tr));
    var ids := SegScan(n.text);
    if |ids| > 0 then Str(Plain, Substitute(n.text, ids, tr)) else n
  }

  function ApplyNode(n: Node, tr: Dict): (r: Node)
    ensures n.Element? ==> r.Element? && r.name == n.name && |r.children| == |n.children|
    decreases n, 0
  {
    match n
    case Str(k, s) => ApplyString(k, s, tr)
    case Element(name, cs) => Element(name, ApplyNodes(cs, tr))
  }

  function ApplyNodes(ns: seq<Node>, tr: Dict): (r: seq<Node>)
    ensures |r| == |ns|
    decreases ns, 1
  {
    if |ns| == 0 then [] else [ApplyNode(ns[0], tr)] + ApplyNodes(ns[1..], tr)
  }

  /** `apply_translations(soup, translations)`. */
  function Apply(nodes: seq<Node>, tr: Dict): seq<Node> {
    ApplyNodes(nodes, tr)
  }

  // ---------------------------------------------------------------------------
  // Properties of apply_translations
  // ---------------------------------------------------------------------------

  /** Markers of different ids differ. */
  lemma MarkerInjective(a: String, b: String)
    requires Marker(a) == Marker(b)
    ensures a == b
  {
    assert a == Marker(a)[5..|Marker(a)| - 1];
    assert b == Marker(b)[5..|Marker(b)| - 1];
  }

  lemma MarkerHasOpen(id: String)
    ensures Placeholders.Open in Marker(id)
  {
    assert Marker(id)[0] == Placeholders.Open;
  }

  /** Exact passes leave a node alone when its text holds no `⟦`. */
  lemma {:induction false} ExactPassesFree(n: Node, ps: seq<Pair>)
    requires n.Str? && Placeholders.Open !in n.text
    ensures ExactPasses(n, ps) == n
    decreases |ps|
  {
    if |ps| > 0 {
      MarkerHasOpen(ps[0].key);
      ExactPassesFree(Exact(n, ps[0]), ps[1..]);
    }
  }

  /** Exact passes leave a marker alone when no pass is for its id. */
  lemma {:induction false} ExactPassesMiss(k: Kind, id: String, ps: seq<Pair>)
    requires forall j :: 0 <= j < |ps| ==> ps[j].key != id
    ensures ExactPasses(Str(k, Marker(id)), ps) == Str(k, Marker(id))
    decreases |ps|
  {
    if |ps| > 0 {
      if Marker(ps[0].key) == Marker(id) {
        MarkerInjective(ps[0].key, id);
        assert false;
      }
      ExactPassesMiss(k, id, ps[1..]);
    }
  }

  /** The pass for its id turns a marker into its translation, which later
      passes leave alone when it holds no `⟦`. */
  lemma {:induction false} ExactPassesHit(k: Kind, id: String, v: String, ps: seq<Pair>, i: nat)
    requires i < |ps| && ps[i] == Pair(id, v) && Placeholders.Open !in v
    requires forall j :: 0 <= j < i ==> ps[j].key != id
    ensures ExactPasses(Str(k, Marker(id)), ps) == Str(Plain, v)
    decreases |ps|
  {
    if i == 0 {
      ExactPassesFree(Str(Plain, v), ps[1..]);
    } else {
      if Marker(ps[0].key) == Marker(id) {
        MarkerInjective(ps[0].key, id);
        assert false;
      }
      ExactPassesHit(k, id, v, ps[1..], i - 1);
    }
  }

  /** The pattern finds nothing in a text without `⟦`. */
  lemma {:induction false} SegScanFree(s: String, i: nat)
    requires i <= |s| && Placeholders.Open !in s
    ensures SegScanFrom(s, i) == []
    decreases |s| - i
  {
    if i < |s| {
      assert s[i] in s;
      assert !OccursAt(s, SegPrefix, i) by {
        if i + 6 <= |s| {
          assert s[i..i + 6][0] != SegPrefix[0];
        }
      }
      SegScanFree(s, i + 1);
    }
  }

  lemma {:induction false} DigitRunIs(t: String, i: nat, n: nat)
    requires i + n <= |t|
    requires forall m :: i <= m < i + n ==> IsDigit(t[m])
    requires i + n == |t| || !IsDigit(t[i + n])
    ensures DigitRun(t, i) == n
    decreases n
  {
    if n > 0 {
      DigitRunIs(t, i + 1, n - 1);
    }
  }

  /** The marker of a segment id: the fixed prefix, the digits, `⟧`. */
  lemma MarkerOfSegId(c: nat)
    ensures Marker(SegId(c)) == SegPrefix + NatToString(c) + [Placeholders.Close]
  {
  }

  lemma OccursAtParts(s: String, i: nat, a: String, b: String, e: char)
    requires OccursAt(s, a + b + [e], i)
    ensures OccursAt(s, a, i) && s[i + |a|..i + |a| + |b|] == b && s[i + |a| + |b|] == e
  {
    var m := a + b + [e];
    forall j | 0 <= j < |m| ensures s[i + j] == m[j] {
      assert s[i..i + |m|][j] == s[i + j];
    }
    assert s[i..i + |a|] == a by {
      forall j | 0 <= j < |a| ensures s[i..i + |a|][j] == a[j] {
        assert m[j] == a[j];
      }
    }
    assert s[i + |a|..i + |a| + |b|] == b by {
      forall j | 0 <= j < |b| ensures s[i + |a|..i + |a| + |b|][j] == b[j] {
        assert m[|a| + j] == b[j];
      }
    }
    assert m[|a| + |b|] == e;
  }

  /** The pattern matches the marker of a segment id wherever it occurs,
      reads back that id, and resumes after the marker. */
  lemma MarkerScanAt(s: String, i: nat, c: nat)
    requires OccursAt(s, Marker(SegId(c)), i)
    ensures SegScanFrom(s, i) == [SegId(c)] + SegScanFrom(s, i + |Marker(SegId(c))|)
  {
    var digits := NatToString(c);
    MarkerOfSegId(c);
    DigitsMatch(s, i, digits);
    SegScanHit(s, i, |digits|);
  }

  /** Behind the fixed prefix, a run of digits closed by `⟧` is a match of
      that many digits, whose id is `n` and the digits. */
  lemma DigitsMatch(s: String, i: nat, digits: String)
    requires |digits| > 0 && AllDigits(digits)
    requires OccursAt(s, SegPrefix + digits + [Placeholders.Close], i)
    ensures i < |s| && SegMatchLen(s, i) == |digits|
    ensures s[i + 5..i + 6 + |digits|] == "n" + digits
  {
    var d := |digits|;
    OccursAtParts(s, i, SegPrefix, digits, Placeholders.Close);
    assert forall j :: i + 6 <= j < i + 6 + d ==> s[j] == digits[j - i - 6];
    DigitRunIs(s, i + 6, d);
    assert s[i + 5] == SegPrefix[5] == 'n' by {
      assert s[i..i + 6][5] == s[i + 5];
    }
    assert s[i + 5..i + 6 + d] == [s[i + 5]] + s[i + 6..i + 6 + d];
  }

  /** The pattern finds exactly the id in the marker of a segment id. */
  lemma MarkerScan(c: nat)
    ensures SegScan(Marker(SegId(c))) == [SegId(c)]
  {
    var m := Marker(SegId(c));
    MarkerScanAt(m, 0, c);
    assert SegScanFrom(m, |m|) == [];
  }

  /** Substitution does nothing for ids without a translation. */
  lemma {:induction false} SubstituteMissing(s: String, ids: seq<String>, tr: Dict)
    requires forall j :: 0 <= j < |ids| ==> !Has(tr, ids[j])
    ensures Substitute(s, ids, tr) == s
    decreases |ids|
  {
    if |ids| > 0 {
      SubstituteMissing(s, ids[1..], tr);
    }
  }

  /** A string node without `⟦` comes through unchanged, kind included. */
  lemma ApplyUnmarked(k: Kind, s: String, tr: Dict)
    requires Placeholders.Open !in s
    ensures ApplyString(k, s, tr) == Str(k, s)
  {
    ExactPassesFree(Str(k, s), Items(tr));
    SegScanFree(s, 0);
  }

  /** A node that is exactly the marker of a translated id becomes a plain
      string holding the translation, when the translation holds no `⟦`. */
  lemma ApplyKnownMarker(k: Kind, id: String, tr: Dict)
    requires Has(tr, id) && Placeholders.Open !in tr.entries[id]
    ensures ApplyString(k, Marker(id), tr) == Str(Plain, tr.entries[id])
  {
    var ps := Items(tr);
    var i :| 0 <= i < |tr.order| && tr.order[i] == id;
    assert forall j :: 0 <= j < i ==> ps[j].key != id;
    ExactPassesHit(k, id, tr.entries[id], ps, i);
    SegScanFree(tr.entries[id], 0);
  }

  /** A marker with no translation stays in place, as a plain string. */
  lemma ApplyUnknownMarker(k: Kind, c: nat, tr: Dict)
    requires !Has(tr, SegId(c))
    ensures ApplyString(k, Marker(SegId(c)), tr) == Str(Plain, Marker(SegId(c)))
  {
    var ps := Items(tr);
    ExactPassesMiss(k, SegId(c), ps);
    MarkerScan(c);
    SubstituteMissing(Marker(SegId(c)), [SegId(c)], tr);
  }

  // ---------------------------------------------------------------------------
  // Extraction followed by application restores the tree
  // ---------------------------------------------------------------------------

  /** No string node of the tree holds a `⟦`. */
  predicate Unmarked(ls: seq<Leaf>) {
    forall l :: l in ls ==> Placeholders.Open !in l.text
  }

  /** The translations hold, for every segment, its own text. */
  predicate Covers(tr: Dict, segs: seq<Segment>) {
    forall g :: g in segs ==> Get(tr, g.id) == Some(g.text)
  }

  lemma {:induction false} ApplyExtractNode(n: Node, parent: String, count: nat, tr: Dict)
    requires Unmarked(LeavesOf(n, parent))
    requires Covers(tr, ExtractNode(n, parent, count).segments)
    ensures ApplyNode(ExtractNode(n, parent, count).node, tr) == n
    decreases n, 0
  {
    match n
    case Str(k, s) =>
      assert Leaf(parent, k, s) in LeavesOf(n, parent);
      if Kept(parent, k, s) {
        assert Segment(SegId(count + 1), s) in ExtractNode(n, parent, count).segments;
        ApplyKnownMarker(Plain, SegId(count + 1), tr);
      } else {
        ApplyUnmarked(k, s, tr);
      }
    case Element(name, cs) =>
      ApplyExtractNodes(cs, name, count, tr);
  }

  lemma {:induction false} ApplyExtractNodes(ns: seq<Node>, parent: String, count: nat, tr: Dict)
    requires Unmarked(Leaves(ns, parent))
    requires Covers(tr, ExtractNodes(ns, parent, count).segments)
    ensures ApplyNodes(ExtractNodes(ns, parent, count).nodes, tr) == ns
    decreases ns, 1
  {
    if |ns| > 0 {
      var a := ExtractNode(ns[0], parent, count);
      var b := ExtractNodes(ns[1..], parent, count + |a.segments|);
      ApplyExtractNode(ns[0], parent, count, tr);
      ApplyExtractNodes(ns[1..], parent, count + |a.segments|, tr);
      var r := ExtractNodes(ns, parent, count).nodes;
      assert r == [a.node] + b.nodes;
      assert r[0] == a.node && r[1..] == b.nodes;
      assert ns == [ns[0]] + ns[1..];
    }
  }

  lemma SegIdInjective(a: nat, b: nat)
    requires SegId(a) == SegId(b)
    ensures a == b
  {
    assert NatToString(a) == SegId(a)[1..];
    assert NatToString(b) == SegId(b)[1..];
    NatToStringInjective(a, b);
  }

  /** The segments of a document carry distinct ids. */
  lemma ExtractDistinct(nodes: seq<Node>)
    ensures DistinctIds(Extract(nodes).segments)
  {
    var segs := Extract(nodes).segments;
    ExtractIds(nodes);
    forall i, j | 0 <= i < j < |segs| ensures segs[i].id != segs[j].id {
      if segs[i].id == segs[j].id {
        SegIdInjective(i + 1, j + 1);
      }
    }
  }

  /** With every segment translated to itself, application undoes the
      extraction, provided no text of the document holds a `⟦`. */
  lemma ApplyAfterExtract(nodes: seq<Node>)
    requires Unmarked(Leaves(nodes, DocumentName))
    ensures Apply(Extract(nodes).nodes, MapSegments(Extract(nodes).segments, s => s)) == nodes
  {
    var segs := Extract(nodes).segments;
    var tr := MapSegments(segs, s => s);
    ExtractDistinct(nodes);
    forall g | g in segs ensures Get(tr, g.id) == Some(g.text) {
      var j :| 0 <= j < |segs| && segs[j] == g;
    }
    ApplyExtractNodes(nodes, DocumentName, 0, tr);
  }

  // ---------------------------------------------------------------------------
  // serialize
  // ---------------------------------------------------------------------------

  /** The nodes of a tree in document order: each element before its
      descendants, siblings left to right. */
  function PreorderOne(n: Node): seq<Node>
    decreases n, 1
  {
    match n
    case Str(_, _) => [n]
    case Element(_, cs) => [n] + Preorder(cs)
  }

  function Preorder(ns: seq<Node>): seq<Node>
    decreases ns, 0
  {
    if |ns| == 0 then [] else PreorderOne(ns[0]) + Preorder(ns[1..])
  }

  /** An element called `name`. */
  predicate Named(n: Node, name: String) {
    n.Element? && n.name == name
  }

  predicate NoneNamed(xs: seq<Node>, name: String) {
    forall k :: 0 <= k < |xs| ==> !Named(xs[k], name)
  }

  /** `k` is the first position of `xs` holding an element called `name`. */
  predicate FirstNamedAt(xs: seq<Node>, name: String, k: int) {
    0 <= k < |xs| && Named(xs[k], name) && forall j :: 0 <= j < k ==> !Named(xs[j], name)
  }

  /** The first named node of `a` is the first of `a + b`. */
  lemma FirstInFront(a: seq<Node>, b: seq<Node>, name: String, k: int)
    requires FirstNamedAt(a, name, k)
    ensures FirstNamedAt(a + b, name, k) && (a + b)[k] == a[k]
  {
  }

  /** When `a` has none, the first named node of `b` is the first of `a + b`. */
  lemma FirstBehind(a: seq<Node>, b: seq<Node>, name: String, k: int)
    requires NoneNamed(a, name) && FirstNamedAt(b, name, k)
    ensures FirstNamedAt(a + b, name, |a| + k) && (a + b)[|a| + k] == b[k]
  {
    assert forall j :: |a| <= j < |a| + k ==> (a + b)[j] == b[j - |a|];
  }

  lemma NoneBoth(a: seq<Node>, b: seq<Node>, name: String)
    ensures NoneNamed(a + b, name) <==> NoneNamed(a, name) && NoneNamed(b, name)
  {
    if NoneNamed(a, name) && NoneNamed(b, name) {
      assert forall j :: |a| <= j < |a + b| ==> (a + b)[j] == b[j - |a|];
    }
    if NoneNamed(a + b, name) {
      assert forall j :: 0 <= j < |a| ==> a[j] == (a + b)[j];
      assert forall j :: 0 <= j < |b| ==> b[j] == (a + b)[|a| + j];
    }
  }

  /** `soup.find(name)`: the first element with that name in document
      order, or `None` exactly when the tree has none. */
  function FindIn(n: Node, name: String): (r: Option<Node>)
    ensures r.Some? ==> r.value.Element? && r.value.name == name
    ensures r.None? <==> NoneNamed(PreorderOne(n), name)
    ensures r.Some? ==> exists k :: FirstNamedAt(PreorderOne(n), name, k) && PreorderOne(n)[k] == r.value
    decreases n, 0
  {
    match n
    case Str(_, _) => None
    case Element(m, cs) =>
      if m == name then
        assert FirstNamedAt(PreorderOne(n), name, 0);
        Some(n)
      else
        var r := FindInAll(cs, name);
        assert !Named(n, name);
        FindInStep(n, cs, name, r);
        r
  }

  /** An element not called `name` passes the search on to its children. */
  lemma FindInStep(n: Node, cs: seq<Node>, name: String, r: Option<Node>)
    requires n.Element? && n.children == cs && !Named(n, name)
    requires r.None? <==> NoneNamed(Preorder(cs), name)
    requires r.Some? ==> exists k :: FirstNamedAt(Preorder(cs), name, k) && Preorder(cs)[k] == r.value
    ensures r.None? <==> NoneNamed(PreorderOne(n), name)
    ensures r.Some? ==> exists k :: FirstNamedAt(PreorderOne(n), name, k) && PreorderOne(n)[k] == r.value
  {
    assert PreorderOne(n) == [n] + Preorder(cs);
    NoneBoth([n], Preorder(cs), name);
    if r.Some? {
      var k :| FirstNamedAt(Preorder(cs), name, k) && Preorder(cs)[k] == r.value;
      FirstBehind([n], Preorder(cs), name, k);
    }
  }

  function FindInAll(ns: seq<Node>, name: String): (r: Option<Node>)
    ensures r.Some? ==> r.value.Element? && r.value.name == name
    ensures r.None? <==> NoneNamed(Preorder(ns), name)
    ensures r.Some? ==> exists k :: FirstNamedAt(Preorder(ns), name, k) && Preorder(ns)[k] == r.value
    decreases ns, 1
  {
    if |ns| == 0 then None
    else
      var h := FindIn(ns[0], name);
      var t := FindInAll(ns[1..], name);
      FindInAllStep(ns, name, h, t);
      if h.Some? then h else t
  }

  /** The first tree's match wins; otherwise the rest is searched. */
  lemma FindInAllStep(ns: seq<Node>, name: String, h: Option<Node>, t: Option<Node>)
    requires |ns| > 0
    requires h.None? <==> NoneNamed(PreorderOne(ns[0]), name)
    requires h.Some? ==> exists k :: FirstNamedAt(PreorderOne(ns[0]), name, k) && PreorderOne(ns[0])[k] == h.value
    requires t.None? <==> NoneNamed(Preorder(ns[1..]), name)
    requires t.Some? ==> exists k :: FirstNamedAt(Preorder(ns[1..]), name, k) && Preorder(ns[1..])[k] == t.value
    ensures var r := if h.Some? then h else t;
      (r.None? <==> NoneNamed(Preorder(ns), name))
      && (r.Some? ==> exists k :: FirstNamedAt(Preorder(ns), name, k) && Preorder(ns)[k] == r.value)
  {
    var a, b := PreorderOne(ns[0]), Preorder(ns[1..]);
    assert Preorder(ns) == a + b;
    NoneBoth(a, b, name);
    if h.Some? {
      var k :| FirstNamedAt(a, name, k) && a[k] == h.value;
      FirstInFront(a, b, name, k);
    } else if t.Some? {
      var k :| FirstNamedAt(b, name, k) && b[k] == t.value;
      FirstBehind(a, b, name, k);
    }
  }

  /** The markup of a node sequence: the renderings of its nodes, joined
      without a separator. */
  function RenderAll(ns: seq<Node>, render: Node -> String): String
    decreases |ns|
  {
    if |ns| == 0 then [] else render(ns[0]) + RenderAll(ns[1..], render)
  }

  /** What is serialised besides the doctype: for a fragment, the children
      of `body`; for a document, the `html` element; the whole tree when the
      element sought is not there. */
  function Content(isFragment: bool, nodes: seq<Node>, render: Node -> String): String {
    if isFragment then
      var body := FindInAll(nodes, "body");
      if body.Some? then RenderAll(body.value.children, render) else RenderAll(nodes, render)
    else
      var html := FindInAll(nodes, "html");
      if html.Some? then render(html.value) else RenderAll(nodes, render)
  }

  /** `serialize(soup)`: the content, preceded by the recorded doctype and a
      line break when a non-empty doctype was recorded. Its contract only
      splits off the doctype; `SerializeFragment` and `SerializeDocument`
      tie the content to the shape of the tree. */
  function Serialize(p: Parsed, nodes: seq<Node>, render: Node -> String): (out: String)
    ensures (p.doctype.None? || p.doctype.value == []) ==> out == Content(p.isFragment, nodes, render)
    ensures p.doctype.Some? && p.doctype.value != [] ==>
      StartsWith(out, p.doctype.value + "\n")
      && out[|p.doctype.value| + 1..] == Content(p.isFragment, nodes, render)
  {
    var content := Content(p.isFragment, nodes, render);
    if p.doctype.Some? && |p.doctype.value| > 0 then
      var out := p.doctype.value + "\n" + content;
      assert out[..|p.doctype.value| + 1] == p.doctype.value + "\n";
      out
    else content
  }

  // ---------------------------------------------------------------------------
  // Properties of parse and serialize
  // ---------------------------------------------------------------------------

  /** An element at the front of the tree is the one found for its name. */
  lemma FindFirst(name: String, cs: seq<Node>, rest: seq<Node>)
    ensures FindInAll([Element(name, cs)] + rest, name) == Some(Element(name, cs))
  {
    assert ([Element(name, cs)] + rest)[0] == Element(name, cs);
  }

  /** A parsed document starts with its doctype and a line break exactly
      when the raw text holds a doctype. */
  lemma SerializeDoctype(html: String, soup: seq<Node>, nodes: seq<Node>, render: Node -> String)
    ensures Doctype(html).Some? ==>
      StartsWith(Serialize(Parse(html, soup), nodes, render), Doctype(html).value + "\n")
    ensures Doctype(html).None? ==>
      Serialize(Parse(html, soup), nodes, render) == Content(IsFragment(html), nodes, render)
  {
  }

  /** The tree html5lib builds for a fragment, `html(head(…), body(…))`
      with no `body` inside the head, serialises to the body's children
      alone. */
  lemma SerializeFragment(html: String, soup: seq<Node>, head: seq<Node>, body: seq<Node>, render: Node -> String)
    requires IsFragment(html) && Doctype(html).None?
    requires FindInAll(head, "body").None?
    ensures Serialize(Parse(html, soup), [Element("html", [Element("head", head), Element("body", body)])], render)
      == RenderAll(body, render)
  {
    var top := [Element("head", head), Element("body", body)];
    assert FindIn(Element("head", head), "body").None?;
    assert top[1..] == [Element("body", body)];
    assert FindInAll(top[1..], "body") == Some(Element("body", body));
    assert FindInAll(top, "body") == Some(Element("body", body));
    assert FindIn(Element("html", top), "body") == Some(Element("body", body));
  }

  /** A complete document serialises its `html` element, whatever follows
      it at the top level. */
  lemma SerializeDocument(html: String, soup: seq<Node>, cs: seq<Node>, rest: seq<Node>, render: Node -> String)
    requires !IsFragment(html) && Doctype(html).None?
    ensures Serialize(Parse(html, soup), [Element("html", cs)] + rest, render) == render(Element("html", cs))
  {
    FindFirst("html", cs, rest);
  }
}

=== FILE: html_examples.dfy ===
/** Worked cases of `HTMLParser`: the doctype and fragment checks on raw
    text, the extraction filters, and a node holding two markers. */
module HtmlExamples {
  import opened Wrappers
  import opened Text
  import opened Dicts
  import opened Models
  import opened Scanners
  import opened HtmlDocument
  import Placeholders

  /** A tag match starts with `<` and the lower-cased first letter of the
      name. */
  lemma OpenTagHead(t: String, i: int, name: String)
    requires |name| > 0 && OpenTagAt(t, i, name)
    ensures t[i] == '<' && ToLowerChar(t[i + 1]) == name[0]
  {
    assert Lower(t[i..i + 1 + |name|])[0] == ToLowerChar(t[i]);
    assert Lower(t[i..i + 1 + |name|])[1] == ToLowerChar(t[i + 1]);
  }

  /** The doctype is found whatever its case and kept as written. */
  lemma DoctypeExample(t: String)
    requires t == "<!DOCTYPE html><p>Hi</p>"
    ensures Doctype(t) == Some("<!DOCTYPE html>")
  {
    assert t[0..9] == "<!DOCTYPE";
    UpToIs(t, 9, '>', 14);
    assert DoctypeAt(t, 0);
    assert t[0..15] == "<!DOCTYPE html>";
  }

  /** A bare paragraph is a fragment. */
  lemma FragmentExample(t: String)
    requires t == "<p>Hi</p>"
    ensures IsFragment(t)
  {
    forall i | 0 <= i < |t| ensures !OpenTagAt(t, i, "html") && !OpenTagAt(t, i, "body") {
      if OpenTagAt(t, i, "html") {
        OpenTagHead(t, i, "html");
        assert false;
      }
      if OpenTagAt(t, i, "body") {
        OpenTagHead(t, i, "body");
        assert false;
      }
    }
  }

  /** `<body` with no closing `>` is not a tag, so the text is a fragment. */
  lemma UnclosedBodyExample(t: String)
    requires t == "<body"
    ensures IsFragment(t)
  {
    assert !OpenTagAt(t, 0, "body");
  }

  /** The `html` tag is recognised whatever its case. */
  lemma UpperHtmlExample(t: String)
    requires t == "<HTML lang=en>"
    ensures !IsFragment(t)
  {
    assert t[0..5] == "<HTML";
    UpToIs(t, 5, '>', 13);
    assert OpenTagAt(t, 0, "html");
  }

  lemma ExtractKeptLeaf()
    ensures ExtractNode(Str(Plain, "Hi"), "p", 0).segments == [Segment(SegId(1), "Hi")]
  {
    assert !IsSpace("Hi"[0]);
  }

  lemma ExtractSkippedLeaves(count: nat)
    ensures ExtractNode(Element("script", [Str(Plain, "x")]), "p", count).segments == []
    ensures ExtractNode(Str(CommentString, "c"), "p", count).segments == []
    ensures ExtractNode(Str(Plain, "  "), "p", count).segments == []
  {
    assert ExtractNodes([Str(Plain, "x")], "script", count).segments == [];
  }

  /** Extraction keeps the paragraph text and skips the script body, the
      comment and the whitespace-only node. */
  lemma ExtractExample(cs: seq<Node>)
    requires cs == [Str(Plain, "Hi"), Element("script", [Str(Plain, "x")]), Str(CommentString, "c"), Str(Plain, "  ")]
    ensures Extract([Element("p", cs)]).segments == [Segment(SegId(1), "Hi")]
  {
    ExtractKeptLeaf();
    ExtractSkippedLeaves(1);
    assert ExtractNodes(cs[3..], "p", 1).segments == [];
    assert ExtractNodes(cs[2..], "p", 1).segments == [];
    assert ExtractNodes(cs[1..], "p", 1).segments == [];
    assert ExtractNodes(cs, "p", 0).segments == [Segment(SegId(1), "Hi")];
    var top := [Element("p", cs)];
    assert ExtractNode(top[0], DocumentName, 0).segments == [Segment(SegId(1), "Hi")];
    assert ExtractNodes(top[1..], DocumentName, 1).segments == [];
  }

  lemma TwoMarkersScan(s: String)
    requires s == Marker(SegId(1)) + " " + Marker(SegId(2))
    ensures SegScan(s) == [SegId(1), SegId(2)]
  {
    var m1, m2 := Marker(SegId(1)), Marker(SegId(2));
    MarkerOfSegId(1);
    MarkerOfSegId(2);
    assert |m1| == 8 && |m2| == 8 && |s| == 17;
    assert s[..8] == m1 && s[9..] == m2 && s[8] == ' ';
    assert OccursAt(s, m1, 0);
    assert OccursAt(s, m2, 9);
    MarkerScanAt(s, 0, 1);
    assert SegMatchLen(s, 8) == 0;
    assert SegScanFrom(s, 8) == SegScanFrom(s, 9);
    MarkerScanAt(s, 9, 2);
    assert SegScanFrom(s, 17) == [];
  }

  lemma SecondMarkerMisses(rest: String)
    requires rest == " " + Marker(SegId(2))
    ensures !Occurs(rest, Marker(SegId(1)))
  {
    var m1 := Marker(SegId(1));
    MarkerOfSegId(1);
    MarkerOfSegId(2);
    assert |m1| == 8 && |rest| == 9;
    forall i | 0 <= i <= |rest| - |m1| ensures !OccursAt(rest, m1, i) {
      if i == 0 {
        assert rest[0] != m1[0];
      } else {
        assert rest[1..9][6] != m1[6];
      }
    }
  }

  lemma TwoMarkersReplace(s: String)
    requires s == Marker(SegId(1)) + " " + Marker(SegId(2))
    ensures ReplaceAll(s, Marker(SegId(1)), "A") == "A " + Marker(SegId(2))
  {
    var rest := " " + Marker(SegId(2));
    assert s == Marker(SegId(1)) + rest;
    SecondMarkerMisses(rest);
    ReplaceAllLeading(Marker(SegId(1)), rest, "A");
  }

  lemma ReplaceAllLeading(p: String, rest: String, rep: String)
    requires |p| > 0 && !Occurs(rest, p)
    ensures ReplaceAll(p + rest, p, rep) == rep + rest
  {
    assert OccursAt(p + rest, p, 0);
    assert (p + rest)[|p|..] == rest;
  }

  /** In a node with two markers, the translated one is replaced and the
      untranslated one stays literal. */
  lemma TwoMarkersExample(s: String)
    requires s == Marker(SegId(1)) + " " + Marker(SegId(2))
    ensures ApplyString(Plain, s, Put(Empty, SegId(1), "A")) == Str(Plain, "A " + Marker(SegId(2)))
  {
    var tr := Put(Empty, SegId(1), "A");
    TwoMarkersExact(s, tr);
    TwoMarkersScan(s);
    TwoMarkersSubstitute(s, tr);
    ApplyStringIs(Plain, s, tr, [SegId(1), SegId(2)], "A " + Marker(SegId(2)));
  }

  /** A string node the exact passes leave alone and in which the pattern
      finds `ids` becomes the plain string of its substitution. */
  lemma ApplyStringIs(k: Kind, s: String, tr: Dict, ids: seq<String>, out: String)
    requires ExactPasses(Str(k, s), Items(tr)) == Str(k, s)
    requires SegScan(s) == ids && |ids| > 0 && Substitute(s, ids, tr) == out
    ensures ApplyString(k, s, tr) == Str(Plain, out)
  {
  }

  lemma TwoMarkersExact(s: String, tr: Dict)
    requires s == Marker(SegId(1)) + " " + Marker(SegId(2)) && tr == Put(Empty, SegId(1), "A")
    ensures ExactPasses(Str(Plain, s), Items(tr)) == Str(Plain, s)
  {
    MarkerOfSegId(1);
    assert |Marker(SegId(1))| == 8 && |s| == 17;
    assert Items(tr) == [Pair(SegId(1), "A")];
    assert Exact(Str(Plain, s), Pair(SegId(1), "A")) == Str(Plain, s);
  }

  lemma TwoMarkersSubstitute(s: String, tr: Dict)
    requires s == Marker(SegId(1)) + " " + Marker(SegId(2)) && tr == Put(Empty, SegId(1), "A")
    ensures Substitute(s, [SegId(1), SegId(2)], tr) == "A " + Marker(SegId(2))
  {
    assert SegId(1) != SegId(2) by { assert SegId(1)[1] != SegId(2)[1]; }
    assert Has(tr, SegId(1)) && tr.entries[SegId(1)] == "A" && !Has(tr, SegId(2));
    SubstituteFirstOnly(s, SegId(1), SegId(2), tr);
    TwoMarkersReplace(s);
  }

  /** Of two ids, only the first has a translation. */
  lemma SubstituteFirstOnly(s: String, a: String, b: String, tr: Dict)
    requires Has(tr, a) && !Has(tr, b)
    ensures Substitute(s, [a, b], tr) == ReplaceAll(s, Marker(a), tr.entries[a])
  {
    var x := ReplaceAll(s, Marker(a), tr.entries[a]);
    assert [a, b][1..] == [b] && [b][1..] == [];
    assert Substitute(s, [a, b], tr) == Substitute(x, [b], tr);
    assert Substitute(x, [b], tr) == Substitute(x, [], tr);
  }
}

=== FILE: models.dfy ===
/** The domain records of the translation pipeline: the request with its
    construction-time validation, the result, and the segment and usage
    records the providers exchange. */
module Models {
  import opened Wrappers
  import opened Text
  import opened Dicts

  /** One unit of text handed to a provider: `{"id": …, "text": …}`. */
  datatype Segment = Segment(id: String, text: String)

  /** Token counts reported by a provider: `{"input": …, "output": …}`. */
  datatype Usage = Usage(input: int, output: int)

  /** The ids of a segment list, in order. */
  function Ids(segs: seq<Segment>): (ids: seq<String>)
    ensures |ids| == |segs|
    ensures forall j :: 0 <= j < |segs| ==> ids[j] == segs[j].id
  {
    seq(|segs|, j requires 0 <= j < |segs| => segs[j].id)
  }

  lemma IdsSnoc(segs: seq<Segment>)
    requires |segs| > 0
    ensures forall k :: k in Ids(segs) <==> k in Ids(segs[..|segs| - 1]) || k == segs[|segs| - 1].id
  {
    var init := segs[..|segs| - 1];
    assert Ids(segs) == Ids(init) + [segs[|segs| - 1].id];
  }

  /** `{s["id"]: f(s["text"]) for s in segs}`, built by assigning one
      segment after the other: every id is a key, and an id's value comes
      from its last segment. It sits with the segment record because three
      places build this dict: the mock provider, the OpenAI provider's
      punctuation and reply mappings, and the `{id: text}` mapping the HTML
      segmenter's inverse lemma applies, which does not depend on the
      providers. */
  function MapSegments(segs: seq<Segment>, f: String -> String): (d: Dict)
    ensures forall k :: Has(d, k) <==> k in Ids(segs)
    ensures forall j :: 0 <= j < |segs| && (forall m :: j < m < |segs| ==> segs[m].id != segs[j].id) ==>
      Get(d, segs[j].id) == Some(f(segs[j].text))
    decreases |segs|
  {
    if |segs| == 0 then Empty
    else
      var front := MapSegments(segs[..|segs| - 1], f);
      MapSegmentsStep(segs, f, front);
      Put(front, segs[|segs| - 1].id, f(segs[|segs| - 1].text))
  }

  /** Assigning the last segment after all the others. */
  lemma MapSegmentsStep(segs: seq<Segment>, f: String -> String, front: Dict)
    requires |segs| > 0
    requires forall k :: Has(front, k) <==> k in Ids(segs[..|segs| - 1])
    requires var init := segs[..|segs| - 1];
      forall j :: 0 <= j < |init| && (forall m :: j < m < |init| ==> init[m].id != init[j].id) ==>
        Get(front, init[j].id) == Some(f(init[j].text))
    ensures var d := Put(front, segs[|segs| - 1].id, f(segs[|segs| - 1].text));
      && (forall k :: Has(d, k) <==> k in Ids(segs))
      && (forall j :: 0 <= j < |segs| && (forall m :: j < m < |segs| ==> segs[m].id != segs[j].id) ==>
            Get(d, segs[j].id) == Some(f(segs[j].text)))
  {
    var init := segs[..|segs| - 1];
    var last := segs[|segs| - 1];
    var d := Put(front, last.id, f(last.text));
    IdsSnoc(segs);
    assert forall k :: Has(d, k) <==> Has(front, k) || k == last.id by {
      forall k ensures Has(d, k) <==> Has(front, k) || k == last.id {
        assert Has(d, k) <==> Get(d, k).Some?;
        assert Has(front, k) <==> Get(front, k).Some?;
      }
    }
    forall j | 0 <= j < |segs| && (forall m :: j < m < |segs| ==> segs[m].id != segs[j].id)
      ensures Get(d, segs[j].id) == Some(f(segs[j].text))
    {
      if j < |init| {
        assert init[j] == segs[j];
        assert forall m :: j < m < |init| ==> init[m] == segs[m];
        assert segs[j].id != last.id;
      }
    }
  }

  /** An id belongs to a segment list exactly when some segment carries it. */
  lemma IdsMember(segs: seq<Segment>, k: String)
    ensures k in Ids(segs) <==> exists g :: g in segs && g.id == k
  {
    if k in Ids(segs) {
      var j :| 0 <= j < |segs| && Ids(segs)[j] == k;
      assert segs[j] in segs;
    }
    if exists g :: g in segs && g.id == k {
      var g :| g in segs && g.id == k;
      var j :| 0 <= j < |segs| && segs[j] == g;
      assert Ids(segs)[j] == k;
    }
  }

  lemma IdsContain(segs: seq<Segment>)
    ensures forall g :: g in segs ==> g.id in Ids(segs)
  {
    forall g | g in segs ensures g.id in Ids(segs) {
      IdsMember(segs, g.id);
    }
  }

  /** When every segment with id `k` carries the text `t`, the mapping holds
      `f(t)` at `k`, whatever the duplicates. */
  lemma {:induction false} MapSegmentsUniform(segs: seq<Segment>, f: String -> String, k: String, t: String)
    requires k in Ids(segs)
    requires forall g :: g in segs && g.id == k ==> g.text == t
    ensures Get(MapSegments(segs, f), k) == Some(f(t))
    decreases |segs|
  {
    var init := segs[..|segs| - 1];
    var last := segs[|segs| - 1];
    if last.id != k {
      IdsSnoc(segs);
      assert forall g :: g in init ==> g in segs;
      MapSegmentsUniform(init, f, k, t);
    } else {
      assert last in segs;
    }
  }

  /** No two segments share an id. */
  predicate DistinctIds(segs: seq<Segment>) {
    forall i, j :: 0 <= i < j < |segs| ==> segs[i].id != segs[j].id
  }

  /** `TranslationRequest`. The brand guide is kept as an opaque string
      dictionary: nothing in the pipeline looks inside it. */
  datatype TranslationRequest = TranslationRequest(
    text: String,
    targetLang: String,
    glossary: Option<Dict>,
    dntTerms: Option<seq<String>>,
    brandGuide: Option<Dict>,
    inputFilename: Option<String>)

  /** `TranslationResult`. */
  datatype TranslationResult = TranslationResult(
    translatedText: String,
    detectedLanguage: String,
    notes: seq<String>,
    appliedTerms: seq<String>,
    usage: Usage,
    outputFilepath: String)

  const TextEmpty: String := "Text cannot be empty"
  const LangRequired: String := "Target language is required"

  /** The default of `target_lang`. */
  const DefaultLang: String := "fr"

  /** What a constructed request is guaranteed to satisfy. */
  predicate WellFormed(r: TranslationRequest) {
    !IsBlank(r.text) && |r.targetLang| > 0
  }

  /** Construction followed by `__post_init__`: a whitespace-only text is
      refused first, then an empty target language; anything else is kept
      field for field. */
  function NewRequest(text: String, targetLang: String, glossary: Option<Dict>,
                      dntTerms: Option<seq<String>>, brandGuide: Option<Dict>,
                      inputFilename: Option<String>): (r: Result<TranslationRequest, String>)
    ensures r.Ok? <==> !IsBlank(text) && |targetLang| > 0
    ensures IsBlank(text) ==> r == Err(TextEmpty)
    ensures !IsBlank(text) && |targetLang| == 0 ==> r == Err(LangRequired)
    ensures r.Ok? ==> WellFormed(r.value) && r.value.text == text && r.value.targetLang == targetLang
    ensures r.Ok? ==> (r.value.glossary == glossary && r.value.dntTerms == dntTerms
      && r.value.brandGuide == brandGuide && r.value.inputFilename == inputFilename)
  {
    if IsBlank(text) then Err(TextEmpty)
    else if |targetLang| == 0 then Err(LangRequired)
    else Ok(TranslationRequest(text, targetLang, glossary, dntTerms, brandGuide, inputFilename))
  }

  /** `TranslationRequest(text)` with every other field left at its default:
      target `fr`, no glossary, terms, brand guide or file name. */
  function Request(text: String): (r: Result<TranslationRequest, String>)
    ensures IsBlank(text) ==> r == Err(TextEmpty)
    ensures !IsBlank(text) ==> r.Ok? && r.value.targetLang == "fr" && r.value.text == text
    ensures r.Ok? ==> (r.value.glossary.None? && r.value.dntTerms.None?
      && r.value.brandGuide.None? && r.value.inputFilename.None?)
  {
    NewRequest(text, DefaultLang, None, None, None, None)
  }

  /** Every well-formed request is one the constructor accepts unchanged,
      so validation refuses exactly the ill-formed ones. */
  lemma ConstructWellFormed(q: TranslationRequest)
    ensures WellFormed(q) <==>
      NewRequest(q.text, q.targetLang, q.glossary, q.dntTerms, q.brandGuide, q.inputFilename) == Ok(q)
  {
  }

  /** With both a blank text and an empty target, the text error wins. */
  lemma TextCheckedFirst(text: String)
    requires IsBlank(text)
    ensures forall g, d, b, f :: NewRequest(text, "", g, d, b, f) == Err(TextEmpty)
  {
  }

  /** `"   "` is refused as empty text; `"Hello"` with an empty target is
      refused for the missing language. */
  lemma ValidationExamples()
    ensures Request("   ") == Err(TextEmpty)
    ensures NewRequest("Hello", "", None, None, None, None) == Err(LangRequired)
    ensures Request("Hello").Ok?
  {
    assert !IsSpace("Hello"[0]);
  }
}

=== FILE: placeholder_examples.dfy ===
/** Worked cases of `freeze_all` and `restore_all`: the texts that freeze to
    themselves, and the two ways the round trip breaks when its precondition
    fails. */
module PlaceholderExamples {
  import opened Text
  import opened Dicts
  import opened Scanners
  import opened Placeholders
  import opened PlaceholderRoundTrip
  import FormatDetection

  /** An engine whose regular-expression rules never match. */
  const Quiet: Engine := Engine(_ => [], _ => [], _ => [], _ => [])

  /** Passes whose rules all find nothing in the text leave the state alone. */
  lemma {:induction false} PassesQuiet(e: Engine, st: Frozen, rules: seq<Rule>)
    requires forall k :: 0 <= k < |rules| ==> Matches(e, rules[k], st.text) == []
    ensures Passes(e, st, rules) == st
    decreases |rules|
  {
    if |rules| > 0 {
      assert forall k :: 0 <= k < |rules[1..]| ==> rules[1..][k] == rules[k + 1];
      PassesQuiet(e, st, rules[1..]);
    }
  }

  /** When no link and no rule or do-not-translate term matches, the text
      freezes to itself with an empty map, and restores to itself. */
  lemma FreezeNothing(e: Engine, T: String, dnt: seq<String>)
    requires e.links(T) == []
    requires forall k :: 0 <= k < |Rules(dnt)| ==> Matches(e, Rules(dnt)[k], T) == []
    ensures Freeze(e, T, dnt) == Freezing(T, Empty)
    ensures Restore(T, Empty) == T
  {
    PassesQuiet(e, Frozen(T, []), Rules(dnt));
    FreezeParts(e, T, dnt);
  }

  lemma NothingInEmpty(m: String)
    requires Occurs("", m)
    ensures m == []
  {
    var i :| 0 <= i <= |""| - |m| && OccursAt("", m, i);
  }

  /** A sound engine finds nothing in the empty text, so `""` with no terms
      freezes to `("", {})` and restores to `""`. */
  lemma FreezeEmpty(e: Engine)
    requires Sound(e)
    ensures Freeze(e, "", []) == Freezing("", Empty)
    ensures Restore("", Empty) == ""
  {
    assert !Occurs("", "@") && !Occurs("", "/");
    assert e.email("") == [] by {
      if |e.email("")| > 0 { NothingInEmpty(e.email("")[0]); assert false; }
    }
    assert e.sku("") == [] by {
      if |e.sku("")| > 0 { NothingInEmpty(e.sku("")[0]); assert false; }
    }
    assert e.currency("") == [] by {
      if |e.currency("")| > 0 { NothingInEmpty(e.currency("")[0]); assert false; }
    }
    assert e.links("") == [] by {
      if |e.links("")| > 0 {
        var l := e.links("")[0];
        NothingInEmpty("[" + l.caption + "](" + l.url + ")");
        assert false;
      }
    }
    RulesNone();
    FreezeNothing(e, "", []);
  }

  /** Do-not-translate matching is case-sensitive: the term `ab` is found in
      `ab` but not in `AB`, though `AB` contains it ignoring case. */
  lemma DntCaseSensitive()
    ensures LiteralScan("ab", "ab") == ["ab"]
    ensures LiteralScan("AB", "ab") == []
    ensures OccursIgnoreCase("AB", "ab")
  {
    assert OccursAt("ab", "ab", 0);
    assert "ab"[2..] == [];
    assert !Occurs("AB", "ab") by {
      assert "AB"[0..2][0] == 'A';
    }
    assert Lower("AB") == "ab";
    assert Lower("ab") == "ab";
    assert OccursAt(Lower("AB"), Lower("ab"), 0);
  }

  /** Minting a source that is already mapped, any number of times, changes
      nothing. */
  lemma {:induction false} MintAllKnown(st: Frozen, ms: seq<String>, x: String)
    requires x in st.sources
    requires forall k :: 0 <= k < |ms| ==> ms[k] == x
    ensures MintAll(st, ms) == st
    decreases |ms|
  {
    if |ms| > 0 {
      MintAllKnown(st, ms[1..], x);
    }
  }

  /** A do-not-translate pass over matches that are all `x`: one mint. */
  lemma MintAllSame(st: Frozen, ms: seq<String>, x: String)
    requires |ms| > 0 && x !in st.sources
    requires forall k :: 0 <= k < |ms| ==> ms[k] == x
    ensures MintAll(st, ms) == Mint(st, x, "", "")
  {
    var m := Mint(st, x, "", "");
    MintAllKnown(m, ms[1..], x);
  }

  /** Minting a new source with no context around it: its leftmost
      occurrence becomes the next token. */
  lemma MintPlain(st: Frozen, src: String)
    requires src !in st.sources
    ensures Mint(st, src, "", "") == Frozen(ReplaceFirst(st.text, src, Token(|st.sources| + 1)), st.sources + [src])
  {
    assert "" + src + "" == src;
    assert "" + Token(|st.sources| + 1) + "" == Token(|st.sources| + 1);
  }

  lemma RulesNone()
    ensures Rules([]) == [Url, Email, Sku, Currency, HtmlTag]
  {
    var rs := Rules([]);
    assert rs == rs[..5];
  }

  lemma RulesTwo(a: String, b: String)
    ensures Rules([a, b]) == [Url, Email, Sku, Currency, HtmlTag, Dnt(a), Dnt(b)]
  {
    var rs := Rules([a, b]);
    assert rs[5..] == [Dnt(a), Dnt(b)] by {
      assert rs[5] == Dnt(a) && rs[6] == Dnt(b);
    }
    assert rs == rs[..5] + rs[5..];
  }

  lemma NoSlash(t: String)
    requires forall i :: 0 <= i < |t| ==> t[i] != '/'
    ensures UrlScan(t) == []
  {
    forall i | 0 <= i <= |t| - 1 ensures !OccursAt(t, "/", i) {
      assert t[i..i + 1][0] == t[i];
    }
  }

  lemma NoAngle(t: String)
    requires forall i :: 0 <= i < |t| ==> t[i] != '<'
    ensures TagScan(t) == []
  {
  }

  /** `Token(1)` spelled out. */
  lemma TokenOne()
    ensures Token(1) == [Open, 'P', 'H', '_', '1', Close]
  {
    assert NatToString(1) == "1";
  }

  lemma TokenTwo()
    ensures Token(2) == [Open, 'P', 'H', '_', '2', Close]
  {
    assert NatToString(2) == "2";
  }

  /** The four characters every token starts with. */
  const Head: String := [Open, 'P', 'H', '_']

  /** Restoring `Token(n)` where the text starts with `Head` followed by a
      token bracket. */
  lemma SkipHead(u: String, n: nat, rep: String)
    requires |u| > 0 && u[0] == Open
    ensures ReplaceAll(Head + u, Token(n), rep) == Head + ReplaceAll(u, Token(n), rep)
  {
    TokenShape(n);
    var w := Head + u;
    forall i | 0 <= i < |Head| ensures !OccursAt(w, Token(n), i) {
      if i + |Token(n)| <= |w| {
        if i == 0 {
          assert w[i..i + |Token(n)|][4] == Open;
          assert Token(n)[4] != Open;
        } else {
          assert w[i..i + |Token(n)|][0] == w[i] != Open;
        }
      }
    }
    ReplaceAllSkip(Head, u, Token(n), rep);
  }

  /** A string shorter than the pattern has nothing to rewrite. */
  lemma ReplaceAllShort(s: String, p: String, rep: String)
    requires 0 < |p| && |s| < |p|
    ensures ReplaceAll(s, p, rep) == s
  {
  }

  /** A rule with no match in the current text is a no-op pass. */
  lemma PassSkip(e: Engine, st: Frozen, rs: seq<Rule>, k: nat)
    requires k < |rs| && Matches(e, rs[k], st.text) == []
    ensures Passes(e, st, rs[k..]) == Passes(e, st, rs[k + 1..])
  {
    assert rs[k..][0] == rs[k] && rs[k..][1..] == rs[k + 1..];
  }

  /** A rule whose matches are all `x`, with `x` not yet mapped: one mint. */
  lemma PassOne(e: Engine, st: Frozen, rs: seq<Rule>, k: nat, x: String)
    requires k < |rs| && |Matches(e, rs[k], st.text)| > 0 && x !in st.sources
    requires forall j :: 0 <= j < |Matches(e, rs[k], st.text)| ==> Matches(e, rs[k], st.text)[j] == x
    ensures Passes(e, st, rs[k..]) == Passes(e, Mint(st, x, "", ""), rs[k + 1..])
  {
    assert rs[k..][0] == rs[k] && rs[k..][1..] == rs[k + 1..];
    MintAllSame(st, Matches(e, rs[k], st.text), x);
  }

  /** The quiet engine's own rules are no-op passes. */
  lemma QuietSkip(st: Frozen, rs: seq<Rule>, k: nat)
    requires k < |rs| && (rs[k] == Email || rs[k] == Sku || rs[k] == Currency)
    ensures Passes(Quiet, st, rs[k..]) == Passes(Quiet, st, rs[k + 1..])
  {
    PassSkip(Quiet, st, rs, k);
  }

  /** The tag pass over a text that is one tag. */
  lemma PassTag(e: Engine, st: Frozen, rs: seq<Rule>, k: nat, x: String)
    requires k < |rs| && rs[k] == HtmlTag && st.text == x && TagScan(x) == [x] && x !in st.sources
    ensures Passes(e, st, rs[k..]) == Passes(e, Mint(st, x, "", ""), rs[k + 1..])
  {
    PassOne(e, st, rs, k, x);
  }

  lemma MintA()
    ensures Mint(Frozen("a1", []), "a", "", "") == Frozen(Token(1) + "1", ["a"])
  {
    MintPlain(Frozen("a1", []), "a");
    assert OccursAt("a1", "a", 0);
    ReplaceFirstHere("a1", "a", Token(1));
    assert "a1"[1..] == "1";
  }

  lemma ScanA()
    ensures forall j :: 0 <= j < |LiteralScan("a1", "a")| ==> LiteralScan("a1", "a")[j] == "a"
    ensures |LiteralScan("a1", "a")| > 0
  {
    assert OccursAt("a1", "a", 0);
  }

  /** The rules for the terms `a` and `1`. */
  const RulesA1: seq<Rule> := [Url, Email, Sku, Currency, HtmlTag, Dnt("a"), Dnt("1")]

  /** The text `a1` after the term `a`: `⟦PH_1⟧1`. */
  lemma DntFirstTerm()
    ensures Passes(Quiet, Frozen("a1", []), Rules(["a", "1"]))
      == Passes(Quiet, Frozen(Token(1) + "1", ["a"]), Rules(["a", "1"])[6..])
  {
    RulesTwo("a", "1");
    DntFirstSteps(Rules(["a", "1"]));
  }

  lemma DntFirstSteps(rs: seq<Rule>)
    requires rs == RulesA1
    ensures Passes(Quiet, Frozen("a1", []), rs) == Passes(Quiet, Frozen(Token(1) + "1", ["a"]), rs[6..])
  {
    var st0 := Frozen("a1", []);
    assert rs[0..] == rs;
    A1Quiet(st0, rs);
    DntPassA(st0, rs);
  }

  lemma A1NoMatches(t: String, rs: seq<Rule>)
    requires t == "a1" && rs == RulesPlain
    ensures forall k :: 0 <= k < 5 ==> Matches(Quiet, rs[k], t) == []
  {
    NoSlash(t);
    NoAngle(t);
  }

  /** Rules that find nothing are no-op passes. */
  lemma {:induction false} PassesSkip(e: Engine, st: Frozen, rs: seq<Rule>, k: nat, n: nat)
    requires k <= n <= |rs|
    requires forall j :: k <= j < n ==> Matches(e, rs[j], st.text) == []
    ensures Passes(e, st, rs[k..]) == Passes(e, st, rs[n..])
    decreases n - k
  {
    if k < n {
      PassSkip(e, st, rs, k);
      PassesSkip(e, st, rs, k + 1, n);
    }
  }

  /** The five fixed rules find nothing in `a1`. */
  lemma A1Quiet(st0: Frozen, rs: seq<Rule>)
    requires st0 == Frozen("a1", []) && |rs| > 5 && rs[..5] == RulesPlain
    ensures Passes(Quiet, st0, rs[0..]) == Passes(Quiet, st0, rs[5..])
  {
    A1NoMatches(st0.text, rs[..5]);
    assert forall k :: 0 <= k < 5 ==> rs[k] == rs[..5][k];
    PassesSkip(Quiet, st0, rs, 0, 5);
  }

  lemma DntPassA(st0: Frozen, rs: seq<Rule>)
    requires st0 == Frozen("a1", []) && rs == RulesA1
    ensures Passes(Quiet, st0, rs[5..]) == Passes(Quiet, Frozen(Token(1) + "1", ["a"]), rs[6..])
  {
    ScanA();
    assert Matches(Quiet, rs[5], st0.text) == LiteralScan("a1", "a");
    PassOne(Quiet, st0, rs, 5, "a");
    MintA();
  }

  lemma ScanOne()
    ensures forall j :: 0 <= j < |LiteralScan(Head + ['1', Close, '1'], "1")| ==>
      LiteralScan(Head + ['1', Close, '1'], "1")[j] == "1"
    ensures |LiteralScan(Head + ['1', Close, '1'], "1")| > 0
  {
    assert OccursAt(Head + ['1', Close, '1'], "1", 4);
  }

  lemma MintOne()
    ensures Mint(Frozen(Head + ['1', Close, '1'], ["a"]), "1", "", "")
      == Frozen(Head + Token(2) + [Close, '1'], ["a", "1"])
  {
    var u := ['1', Close, '1'];
    forall i | 0 <= i < |Head| ensures !OccursAt(Head + u, "1", i) {
      assert (Head + u)[i..i + 1][0] == Head[i];
    }
    assert OccursAt(u, "1", 0);
    MintBehind(Head, u, "1", ["a"]);
    assert u[1..] == [Close, '1'];
  }

  /** The first mint of a source that first occurs right after a prefix. */
  lemma MintBehind(h: String, u: String, p: String, srcs: seq<String>)
    requires |p| > 0 && p !in srcs && OccursAt(u, p, 0)
    requires forall i :: 0 <= i < |h| ==> !OccursAt(h + u, p, i)
    ensures Mint(Frozen(h + u, srcs), p, "", "") == Frozen(h + Token(|srcs| + 1) + u[|p|..], srcs + [p])
  {
    MintPlain(Frozen(h + u, srcs), p);
    ReplaceBehind(h, u, p, Token(|srcs| + 1));
  }

  lemma ReplaceBehind(h: String, u: String, p: String, t: String)
    requires |p| > 0 && OccursAt(u, p, 0)
    requires forall i :: 0 <= i < |h| ==> !OccursAt(h + u, p, i)
    ensures ReplaceFirst(h + u, p, t) == h + t + u[|p|..]
  {
    ReplaceFirstSkip(h, u, p, t);
    ReplaceFirstHere(u, p, t);
    assert h + (t + u[|p|..]) == h + t + u[|p|..];
  }

  /** The term `1` then rewrites the digit of `⟦PH_1⟧`. */
  lemma DntSecondTerm()
    ensures Passes(Quiet, Frozen(Head + ['1', Close, '1'], ["a"]), Rules(["a", "1"])[6..])
      == Frozen(Head + Token(2) + [Close, '1'], ["a", "1"])
  {
    RulesTwo("a", "1");
    DntSecondSteps(Rules(["a", "1"]));
  }

  lemma DntSecondSteps(rs: seq<Rule>)
    requires rs == RulesA1
    ensures Passes(Quiet, Frozen(Head + ['1', Close, '1'], ["a"]), rs[6..])
      == Frozen(Head + Token(2) + [Close, '1'], ["a", "1"])
  {
    var st1 := Frozen(Head + ['1', Close, '1'], ["a"]);
    ScanOne();
    PassOne(Quiet, st1, rs, 6, "1");
    MintOne();
    assert rs[7..] == [];
  }

  /** Restoring with a two-token map: first token, then second. */
  lemma RestoreTwo(x: String, a: String, b: String)
    ensures Restore(x, ToDict([a, b])) == ReplaceAll(ReplaceAll(x, Token(1), a), Token(2), b)
  {
    var S := [a, b];
    var d := ToDict(S);
    assert |d.order| == 2;
    var ps := Items(d);
    assert ps[0] == Pair(d.order[0], d.entries[d.order[0]]);
    assert ps[1] == Pair(d.order[1], d.entries[d.order[1]]);
    assert d.order[0] == Token(1) && d.entries[Token(1)] == S[0];
    assert d.order[1] == Token(2) && d.entries[Token(2)] == S[1];
    var y := ReplaceAll(x, Token(1), a);
    assert RestoreItems(x, ps) == RestoreItems(y, ps[1..]);
    assert RestoreItems(y, ps[1..]) == RestoreItems(ReplaceAll(y, Token(2), b), ps[1..][1..]);
    assert ps[1..][1..] == [];
  }

  lemma DntRestoreFirst()
    ensures ReplaceAll(Head + Token(2) + [Close, '1'], Token(1), "a") == Head + Token(2) + [Close, '1']
  {
    var v := Token(2) + [Close, '1'];
    TokenShape(2);
    SkipHead(v, 1, "a");
    TokenNotInToken(2, [Close, '1'], 1);
    ReplaceAllSkip(Token(2), [Close, '1'], Token(1), "a");
    ReplaceAllShort([Close, '1'], Token(1), "a");
    assert Head + Token(2) + [Close, '1'] == Head + v;
  }

  lemma DntRestoreSecond()
    ensures ReplaceAll(Head + Token(2) + [Close, '1'], Token(2), "1") == Token(1) + "1"
  {
    var v := Token(2) + [Close, '1'];
    TokenShape(2);
    SkipHead(v, 2, "1");
    ReplaceAllHere(2, [Close, '1'], "1");
    ReplaceAllShort([Close, '1'], Token(2), "1");
    assert Head + Token(2) + [Close, '1'] == Head + v;
    TokenOne();
  }

  /** Restoring `⟦PH_⟦PH_2⟧⟧1`: the first token is gone, the second brings
      back `1`. */
  lemma DntRestore()
    ensures Restore(Head + Token(2) + [Close, '1'], ToDict(["a", "1"])) == Token(1) + "1"
  {
    RestoreTwo(Head + Token(2) + [Close, '1'], "a", "1");
    DntRestoreFirst();
    DntRestoreSecond();
  }

  /** The do-not-translate term `1` finds the digit inside `⟦PH_1⟧`: freezing
      `a1` with the terms `a` and `1` rewrites the first token into
      `⟦PH_⟦PH_2⟧⟧`, and restoring gives `⟦PH_1⟧1` back instead of `a1`. The
      text is bracket-free; what fails is that the source `1` is made of
      token characters only. */
  lemma DntInsideToken()
    ensures !Protectable("1")
    ensures Freeze(Quiet, "a1", ["a", "1"]).text == Head + Token(2) + [Close, '1']
    ensures Restore(Freeze(Quiet, "a1", ["a", "1"]).text, Freeze(Quiet, "a1", ["a", "1"]).mapping)
      == Token(1) + "1"
  {
    FreezeParts(Quiet, "a1", ["a", "1"]);
    DntFreeze();
    DntRestore();
    assert "1"[0] == '1' && TokenChar("1"[0]);
  }

  /** `freeze_all` returns the final text and the token map of the final
      sources. */
  lemma FreezeParts(e: Engine, T: String, dnt: seq<String>)
    ensures Freeze(e, T, dnt) == Freezing(FreezeState(e, T, dnt).text, ToDict(FreezeState(e, T, dnt).sources))
  {
  }

  lemma TokenOneText()
    ensures Token(1) + "1" == Head + ['1', Close, '1']
  {
    TokenOne();
  }

  lemma DntFreeze()
    ensures FreezeState(Quiet, "a1", ["a", "1"]) == Frozen(Head + Token(2) + [Close, '1'], ["a", "1"])
  {
    assert LinkPass(Frozen("a1", []), Quiet.links("a1")) == Frozen("a1", []);
    DntFirstTerm();
    TokenOneText();
    DntSecondTerm();
  }

  // ---------------------------------------------------------------------------
  // A URL inside a tag
  // ---------------------------------------------------------------------------

  /** The tag of the second counterexample, before and after its URL is
      frozen. */
  const LinkTag: String := "<http://x>"

  function TagWithToken(): String {
    "<" + Token(1) + ">"
  }

  lemma UrlScanLinkTagHead()
    ensures UrlMatchLen(LinkTag, 0) == 0
    ensures UrlMatchLen(LinkTag, 1) == 8
    ensures UrlMatchLen(LinkTag, 9) == 0
  {
    var t := LinkTag;
    NotAt(t, "https://", 0, 0);
    NotAt(t, "http://", 0, 0);
    NotAt(t, "https://", 1, 4);
    assert OccursAt(t, "http://", 1);
    assert Run(t, 9, false) == 0;
    assert Run(t, 8, false) == 1;
    NotAt(t, "href=\"", 3, 0);
  }

  /** A text does not hold `p` at `i` when one of its characters differs. */
  lemma NotAt(s: String, p: String, i: nat, k: nat)
    requires k < |p| && i + k < |s| && s[i + k] != p[k]
    ensures !OccursAt(s, p, i)
  {
    if i + |p| <= |s| {
      assert s[i..i + |p|][k] == s[i + k];
    }
  }

  /** `re.finditer(URL, "<http://x>")` yields `http://x`. */
  lemma UrlScanLinkTag()
    ensures UrlScan(LinkTag) == ["http://x"]
  {
    var t := LinkTag;
    UrlScanLinkTagHead();
    assert UrlScanFrom(t, 10) == [];
    assert UrlScanFrom(t, 9) == [];
    assert t[1..9] == "http://x";
    assert UrlScanFrom(t, 1) == ["http://x"];
  }

  /** Rewriting `p` right after a first character that cannot start it. */
  lemma ReplaceFirstAfter(c: char, u: String, p: String, rep: String)
    requires |p| > 0 && p[0] != c && OccursAt(u, p, 0)
    ensures ReplaceFirst([c] + u, p, rep) == [c] + rep + u[|p|..]
  {
    assert ([c] + u)[0..|p|][0] == c;
    ReplaceFirstSkip([c], u, p, rep);
    ReplaceFirstHere(u, p, rep);
  }

  lemma LinkTagParts()
    ensures LinkTag == ['<'] + "http://x>"
    ensures OccursAt("http://x>", "http://x", 0)
    ensures "http://x>"[8..] == ">"
  {
  }

  lemma MintUrl()
    ensures Mint(Frozen(LinkTag, []), "http://x", "", "") == Frozen(TagWithToken(), ["http://x"])
  {
    LinkTagParts();
    MintAfterChar('<', "http://x>", "http://x");
    assert ['<'] + Token(1) + "http://x>"[8..] == TagWithToken();
  }

  /** The first mint of a source that starts right after the first
      character. */
  lemma MintAfterChar(c: char, u: String, p: String)
    requires |p| > 0 && p[0] != c && OccursAt(u, p, 0)
    ensures Mint(Frozen([c] + u, []), p, "", "") == Frozen([c] + Token(1) + u[|p|..], [p])
  {
    assert !OccursAt([c] + u, p, 0) by {
      assert ([c] + u)[0..|p|][0] == c;
    }
    MintBehind([c], u, p, []);
  }

  /** `re.finditer(r'<[^>]+>', "<⟦PH_1⟧>")` yields the whole text. */
  lemma TagScanTagWithToken()
    ensures TagScan(TagWithToken()) == [TagWithToken()]
  {
    var t := TagWithToken();
    TokenShape(1);
    assert forall m :: 0 < m < |t| - 1 ==> t[m] == Token(1)[m - 1];
    TagScanHit(t, 0, |t| - 1);
    assert t[0..|t|] == t;
    assert TagScanFrom(t, |t|) == [];
  }

  lemma MintTag()
    ensures Mint(Frozen(TagWithToken(), ["http://x"]), TagWithToken(), "", "")
      == Frozen(Token(2), ["http://x", TagWithToken()])
  {
    var t := TagWithToken();
    assert t[0] == '<';
    MintAfterUrl(t);
  }

  /** A text starting with `<` is not the URL, so it is minted as `Token(2)`. */
  lemma MintAfterUrl(t: String)
    requires |t| > 0 && t[0] == '<'
    ensures Mint(Frozen(t, ["http://x"]), t, "", "") == Frozen(Token(2), ["http://x", t])
  {
    assert t != "http://x" by { assert "http://x"[0] == 'h'; }
    MintWhole(t, ["http://x"]);
  }

  /** Minting a new source that is the whole text: the text becomes the
      next token. */
  lemma MintWhole(t: String, srcs: seq<String>)
    requires t !in srcs
    ensures Mint(Frozen(t, srcs), t, "", "") == Frozen(Token(|srcs| + 1), srcs + [t])
  {
    MintPlain(Frozen(t, srcs), t);
    assert OccursAt(t, t, 0);
    ReplaceFirstHere(t, t, Token(|srcs| + 1));
    assert t[|t|..] == [];
    assert Token(|srcs| + 1) + [] == Token(|srcs| + 1);
  }

  lemma TagFreeze(T: String)
    requires T == LinkTag
    ensures FreezeState(Quiet, T, []) == Frozen(Token(2), ["http://x", TagWithToken()])
  {
    var st0 := Frozen(T, []);
    assert LinkPass(st0, Quiet.links(T)) == st0;
    RulesNone();
    TagUrlStep(T, Rules([]));
    TagQuietSteps(Rules([]));
    TagTagStep(Rules([]));
  }

  lemma TagUrlStep(T: String, rs: seq<Rule>)
    requires T == LinkTag && rs == RulesPlain
    ensures Passes(Quiet, Frozen(T, []), rs) == Passes(Quiet, Frozen(TagWithToken(), ["http://x"]), rs[1..])
  {
    assert rs[0..] == rs;
    UrlScanLinkTag();
    PassOne(Quiet, Frozen(T, []), rs, 0, "http://x");
    MintUrl();
  }

  lemma TagQuietSteps(rs: seq<Rule>)
    requires rs == RulesPlain
    ensures var st1 := Frozen(TagWithToken(), ["http://x"]);
      Passes(Quiet, st1, rs[1..]) == Passes(Quiet, st1, rs[4..])
  {
    var st1 := Frozen(TagWithToken(), ["http://x"]);
    QuietSkip(st1, rs, 1);
    QuietSkip(st1, rs, 2);
    QuietSkip(st1, rs, 3);
  }

  lemma TagTagStep(rs: seq<Rule>)
    requires rs == RulesPlain
    ensures Passes(Quiet, Frozen(TagWithToken(), ["http://x"]), rs[4..])
      == Frozen(Token(2), ["http://x", TagWithToken()])
  {
    var st1 := Frozen(TagWithToken(), ["http://x"]);
    TagScanTagWithToken();
    assert TagWithToken() !in st1.sources by { assert TagWithToken()[0] != 'h'; }
    PassTag(Quiet, st1, rs, 4, TagWithToken());
    MintTag();
    assert rs[5..] == [];
  }

  lemma TagRestoreFirst()
    ensures ReplaceAll(Token(2), Token(1), "http://x") == Token(2)
  {
    TokenNotInToken(2, [], 1);
    assert Token(2) + [] == Token(2);
    ReplaceAllSkip(Token(2), [], Token(1), "http://x");
  }

  lemma TagRestoreSecond()
    ensures ReplaceAll(Token(2), Token(2), TagWithToken()) == TagWithToken()
  {
    assert Token(2) + [] == Token(2);
    ReplaceAllHere(2, [], TagWithToken());
  }

  lemma TagRestore()
    ensures Restore(Token(2), ToDict(["http://x", TagWithToken()])) == TagWithToken()
  {
    RestoreTwo(Token(2), "http://x", TagWithToken());
    TagRestoreFirst();
    TagRestoreSecond();
  }

  lemma TagNotPlain()
    ensures !Plain(TagWithToken())
  {
    assert TagWithToken()[1] == Open;
  }

  lemma TagRestored(T: String)
    requires T == LinkTag
    ensures Restore(Freeze(Quiet, T, []).text, Freeze(Quiet, T, []).mapping) == TagWithToken()
  {
    FreezeParts(Quiet, T, []);
    TagFreeze(T);
    TagRestore();
  }

  /** HTML_TAG runs after URL, so in `<http://x>` the URL is frozen first and
      the tag is then stored with the token inside: the value `<⟦PH_1⟧>`
      holds an earlier key, restoring in insertion order never revisits it,
      and `<⟦PH_1⟧>` comes back. */
  lemma UrlInsideTag(T: String)
    requires T == LinkTag
    ensures !Plain(TagWithToken())
    ensures Restore(Freeze(Quiet, T, []).text, Freeze(Quiet, T, []).mapping) == TagWithToken()
    ensures TagWithToken() != T
  {
    TagNotPlain();
    TagRestored(T);
    TagDiffers(T);
  }

  lemma TagDiffers(T: String)
    requires T == LinkTag
    ensures TagWithToken() != T
  {
    assert TagWithToken()[1] == Open;
    assert T[1] == 'h';
  }

  lemma MintImg(T: String)
    requires T == "<img src=x>"
    ensures Mint(Frozen(T, []), T, "", "") == Frozen(Token(1), [T])
  {
    MintWhole(T, []);
  }

  /** A raw tag is frozen like any other protected span: `<img src=x>`
      becomes the single token `⟦PH_1⟧`. */
  lemma ImgFreeze(T: String)
    requires T == "<img src=x>"
    ensures FreezeState(Quiet, T, []) == Frozen(Token(1), [T])
  {
    var st0 := Frozen(T, []);
    assert LinkPass(st0, Quiet.links(T)) == st0;
    RulesNone();
    ImgSteps(T, Rules([]));
  }

  /** The rules without terms. */
  const RulesPlain: seq<Rule> := [Url, Email, Sku, Currency, HtmlTag]

  lemma ImgSteps(T: String, rs: seq<Rule>)
    requires T == "<img src=x>" && rs == RulesPlain
    ensures Passes(Quiet, Frozen(T, []), rs) == Frozen(Token(1), [T])
  {
    var st0 := Frozen(T, []);
    assert rs[0..] == rs;
    ImgNoMatches(T, rs);
    PassesSkip(Quiet, st0, rs, 0, 4);
    ImgTagStep(T, rs);
  }

  lemma ImgNoMatches(T: String, rs: seq<Rule>)
    requires T == "<img src=x>" && rs == RulesPlain
    ensures forall k :: 0 <= k < 4 ==> Matches(Quiet, rs[k], T) == []
  {
    NoSlash(T);
  }

  lemma ImgTagStep(T: String, rs: seq<Rule>)
    requires T == "<img src=x>" && rs == RulesPlain
    ensures Passes(Quiet, Frozen(T, []), rs[4..]) == Frozen(Token(1), [T])
  {
    FormatDetection.AttributeTags(T);
    PassTag(Quiet, Frozen(T, []), rs, 4, T);
    MintImg(T);
    assert rs[5..] == [];
  }

  /** Restoring with a one-token map. */
  lemma RestoreOne(x: String, a: String)
    ensures Restore(x, ToDict([a])) == ReplaceAll(x, Token(1), a)
  {
    var d := ToDict([a]);
    var ps := Items(d);
    assert ps[0] == Pair(d.order[0], d.entries[d.order[0]]);
    assert RestoreItems(x, ps) == RestoreItems(ReplaceAll(x, Token(1), a), ps[1..]);
    assert ps[1..] == [];
  }
}

=== FILE: placeholder_roundtrip.dfy ===
/** When restoring a frozen text gives the original back.

    `restore_all(freeze_all(T, D))` is not the identity in general: a value
    can contain an earlier token (an HTML tag holding a URL token) or can
    itself occur inside a token (a do-not-translate term `1` hits the digit
    of `⟦PH_1⟧`). It is the identity when `T` has no token brackets and every
    mapped value is `Protectable`: free of brackets, and empty or holding a
    character that cannot appear inside a token.

    The proof reads the current text as a sequence of chunks, literal text
    and tokens, and tracks two readings of it: `RenderC` (what the text is)
    and `ExpandC` (what it restores to). */
module PlaceholderRoundTrip {
  import opened Text
  import opened Dicts
  import opened Placeholders

  /** No token bracket in `s`. */
  predicate Plain(s: String) {
    forall i :: 0 <= i < |s| ==> s[i] != Open && s[i] != Close
  }

  /** A source that can be frozen and restored without touching a token. */
  predicate Protectable(s: String) {
    Plain(s) && (|s| == 0 || exists i :: 0 <= i < |s| && !TokenChar(s[i]))
  }

  predicate AllProtectable(s: seq<String>) {
    forall i :: 0 <= i < |s| ==> Protectable(s[i])
  }

  // ---------------------------------------------------------------------------
  // Search lemmas
  // ---------------------------------------------------------------------------

  /** Replacing the empty pattern once inserts in front. */
  lemma ReplaceFirstEmpty(w: String, rep: String)
    ensures ReplaceFirst(w, [], rep) == rep + w
  {
    assert w[0..] == w;
  }

  /** Restoring a token that starts the text. */
  lemma ReplaceAllHere(n: nat, u: String, rep: String)
    ensures ReplaceAll(Token(n) + u, Token(n), rep) == rep + ReplaceAll(u, Token(n), rep)
  {
    TokenShape(n);
    var t := Token(n);
    assert (t + u)[..|t|] == t;
    assert (t + u)[|t|..] == u;
  }

  /** A token is never a prefix of another token followed by anything. */
  lemma TokenPrefixFree(a: nat, b: nat, u: String)
    requires OccursAt(Token(b) + u, Token(a), 0)
    ensures a == b
  {
    TokenShape(a);
    TokenShape(b);
    var ta, tb := Token(a), Token(b);
    var w := tb + u;
    assert ta == w[..|ta|];
    forall k | 0 < k < |tb| - 1 ensures w[k] != Close {
      assert w[k] == tb[k];
    }
    forall k | 0 < k < |ta| - 1 ensures w[k] != Close {
      assert w[k] == ta[k];
    }
    assert w[|ta| - 1] == ta[|ta| - 1] == Close;
    assert w[|tb| - 1] == tb[|tb| - 1] == Close;
    assert |ta| == |tb|;
    assert ta == tb;
    TokenInjective(a, b);
  }

  /** A bracket-free pattern cannot start in a bracket-free `s` and run into a
      following `⟦`. */
  lemma NoStartInLit(s: String, u: String, p: String)
    requires Plain(p) && !Occurs(s, p)
    requires |u| == 0 || u[0] == Open
    ensures forall i :: 0 <= i < |s| ==> !OccursAt(s + u, p, i)
  {
    forall i | 0 <= i < |s| ensures !OccursAt(s + u, p, i) {
      if i + |p| <= |s| {
        assert (s + u)[i..i + |p|] == s[i..i + |p|];
        assert OccursAt(s + u, p, i) ==> OccursAt(s, p, i);
      } else if i + |p| <= |s + u| {
        assert (s + u)[i..i + |p|][|s| - i] == (s + u)[|s|] == Open;
      }
    }
  }

  /** A non-empty protectable pattern cannot start inside a token. */
  lemma NoStartInToken(n: nat, u: String, p: String)
    requires Protectable(p) && |p| > 0
    ensures forall i :: 0 <= i < |Token(n)| ==> !OccursAt(Token(n) + u, p, i)
  {
    TokenShape(n);
    var t := Token(n);
    forall i | 0 <= i < |t| ensures !OccursAt(t + u, p, i) {
      if i + |p| > |t + u| {
      } else if i == 0 || i == |t| - 1 {
        assert (t + u)[i..i + |p|][0] == t[i];
      } else if i + |p| <= |t| - 1 {
        var j :| 0 <= j < |p| && !TokenChar(p[j]);
        assert (t + u)[i..i + |p|][j] == t[i + j];
        assert TokenChar(t[i + j]);
      } else {
        assert (t + u)[i..i + |p|][|t| - 1 - i] == t[|t| - 1];
      }
    }
  }

  /** A token cannot start inside bracket-free text. */
  lemma TokenNotInLit(s: String, u: String, m: nat)
    requires Plain(s)
    ensures forall i :: 0 <= i < |s| ==> !OccursAt(s + u, Token(m), i)
  {
    TokenShape(m);
    forall i | 0 <= i < |s| ensures !OccursAt(s + u, Token(m), i) {
      if i + |Token(m)| <= |s + u| {
        assert (s + u)[i..i + |Token(m)|][0] == s[i];
      }
    }
  }

  /** A token cannot start inside a different token. */
  lemma TokenNotInToken(n: nat, u: String, m: nat)
    requires n != m
    ensures forall i :: 0 <= i < |Token(n)| ==> !OccursAt(Token(n) + u, Token(m), i)
  {
    TokenShape(n);
    TokenShape(m);
    forall i | 0 <= i < |Token(n)| ensures !OccursAt(Token(n) + u, Token(m), i) {
      if i == 0 {
        if OccursAt(Token(n) + u, Token(m), 0) { TokenPrefixFree(m, n, u); }
      } else {
        if i + |Token(m)| <= |Token(n) + u| {
          assert (Token(n) + u)[i..i + |Token(m)|][0] == Token(n)[i];
        }
      }
    }
  }

  // ---------------------------------------------------------------------------
  // Chunks
  // ---------------------------------------------------------------------------

  datatype Chunk = Lit(s: String) | Ph(n: nat)

  function RenderPiece(c: Chunk): String {
    match c
    case Lit(s) => s
    case Ph(n) => Token(n)
  }

  /** The text the chunks stand for. */
  function RenderC(cs: seq<Chunk>): String
    decreases |cs|
  {
    if |cs| == 0 then [] else RenderPiece(cs[0]) + RenderC(cs[1..])
  }

  /** The value a token number restores to under sources `S`. */
  function Value(S: seq<String>, n: nat): String {
    if 1 <= n <= |S| then S[n - 1] else Token(n)
  }

  function ExpandPiece(c: Chunk, S: seq<String>): String {
    match c
    case Lit(s) => s
    case Ph(n) => Value(S, n)
  }

  /** The text the chunks restore to under sources `S`. */
  function ExpandC(cs: seq<Chunk>, S: seq<String>): String
    decreases |cs|
  {
    if |cs| == 0 then [] else ExpandPiece(cs[0], S) + ExpandC(cs[1..], S)
  }

  lemma Cons(c: Chunk, cs: seq<Chunk>, S: seq<String>)
    ensures RenderC([c] + cs) == RenderPiece(c) + RenderC(cs)
    ensures ExpandC([c] + cs, S) == ExpandPiece(c, S) + ExpandC(cs, S)
  {
    assert ([c] + cs)[1..] == cs;
  }

  lemma Regroup(x: String, y: String, z: String, w: String)
    ensures x + (y + (z + w)) == x + y + z + w
  {
  }

  /** Three chunks in front: the shape a mint leaves behind. */
  lemma Cons3(a: String, n: nat, b: String, cs: seq<Chunk>, S: seq<String>)
    ensures RenderC([Lit(a), Ph(n), Lit(b)] + cs) == a + Token(n) + b + RenderC(cs)
    ensures ExpandC([Lit(a), Ph(n), Lit(b)] + cs, S) == a + Value(S, n) + b + ExpandC(cs, S)
  {
    var c1 := [Lit(b)] + cs;
    var c2 := [Ph(n)] + c1;
    Cons(Lit(b), cs, S);
    Cons(Ph(n), c1, S);
    Cons(Lit(a), c2, S);
    assert [Lit(a), Ph(n), Lit(b)] + cs == [Lit(a)] + c2;
    Regroup(a, Token(n), b, RenderC(cs));
    Regroup(a, Value(S, n), b, ExpandC(cs, S));
  }

  predicate LitsPlain(cs: seq<Chunk>) {
    forall i :: 0 <= i < |cs| && cs[i].Lit? ==> Plain(cs[i].s)
  }

  predicate PhsIn(cs: seq<Chunk>, m: nat) {
    forall i :: 0 <= i < |cs| && cs[i].Ph? ==> 1 <= cs[i].n <= m
  }

  lemma {:induction false} ExpandExtend(cs: seq<Chunk>, S: seq<String>, x: String)
    requires PhsIn(cs, |S|)
    ensures ExpandC(cs, S + [x]) == ExpandC(cs, S)
    decreases |cs|
  {
    if |cs| > 0 {
      ExpandExtend(cs[1..], S, x);
    }
  }

  lemma PlainConcat(a: String, b: String)
    requires Plain(a) && Plain(b)
    ensures Plain(a + b)
  {
    assert forall i :: |a| <= i < |a + b| ==> (a + b)[i] == b[i - |a|];
  }

  lemma PlainSlice(s: String, i: int, j: int)
    requires Plain(s) && 0 <= i <= j <= |s|
    ensures Plain(s[i..j])
  {
    assert forall k :: 0 <= k < j - i ==> s[i..j][k] == s[i + k];
  }

  lemma ConsPreds(c: Chunk, cs: seq<Chunk>, m: nat)
    ensures LitsPlain([c] + cs) <==> (c.Lit? ==> Plain(c.s)) && LitsPlain(cs)
    ensures PhsIn([c] + cs, m) <==> (c.Ph? ==> 1 <= c.n <= m) && PhsIn(cs, m)
  {
    var w := [c] + cs;
    assert w[0] == c;
    assert forall i :: 0 <= i < |cs| ==> w[i + 1] == cs[i];
  }

  lemma Regroup5(x: String, pre: String, t: String, post: String, y: String, r: String)
    ensures x + (pre + t + post) + (y + r) == (x + pre) + t + (post + y) + r
  {
  }

  lemma Regroup4(x: String, p: String, y: String, r: String)
    ensures (x + p + y) + r == x + p + (y + r)
  {
  }

  /** The mint when the leftmost occurrence lies in the first, literal chunk:
      the literal splits around the new token. */
  lemma MintInLit(s: String, rest: seq<Chunk>, pre: String, src: String, post: String,
                  n: nat, S: seq<String>) returns (cs': seq<Chunk>)
    requires Plain(s) && LitsPlain(rest) && PhsIn(rest, |S|)
    requires Plain(pre) && Plain(post) && 1 <= n <= |S| && S[n - 1] == src
    requires Find(s, pre + src + post) >= 0
    ensures LitsPlain(cs') && PhsIn(cs', |S|)
    ensures RenderC(cs') == ReplaceFirst(RenderC([Lit(s)] + rest), pre + src + post, pre + Token(n) + post)
    ensures ExpandC(cs', S) == ExpandC([Lit(s)] + rest, S)
  {
    var p := pre + src + post;
    var f := Find(s, p);
    ReplaceFirstInPrefix(s, RenderC(rest), p, pre + Token(n) + post);
    var x, y := s[..f], s[f + |p|..];
    PlainSlice(s, 0, f);
    PlainSlice(s, f + |p|, |s|);
    cs' := [Lit(x + pre), Ph(n), Lit(post + y)] + rest;
    Cons(Lit(s), rest, S);
    SplitLitRender(x, pre, post, y, n, rest);
    SplitLitExpand(x, pre, src, post, y, n, rest, S);
    SplitLitPreds(x, pre, post, y, n, rest, |S|);
  }

  lemma SplitLitRender(x: String, pre: String, post: String, y: String, n: nat, rest: seq<Chunk>)
    ensures RenderC([Lit(x + pre), Ph(n), Lit(post + y)] + rest)
      == x + (pre + Token(n) + post) + (y + RenderC(rest))
  {
    Cons3(x + pre, n, post + y, rest, []);
    Regroup5(x, pre, Token(n), post, y, RenderC(rest));
  }

  lemma SplitLitExpand(x: String, pre: String, src: String, post: String, y: String, n: nat,
                       rest: seq<Chunk>, S: seq<String>)
    requires 1 <= n <= |S| && S[n - 1] == src
    ensures ExpandC([Lit(x + pre), Ph(n), Lit(post + y)] + rest, S)
      == (x + (pre + src + post) + y) + ExpandC(rest, S)
  {
    Cons3(x + pre, n, post + y, rest, S);
    Regroup5(x, pre, src, post, y, ExpandC(rest, S));
    Regroup4(x, pre + src + post, y, ExpandC(rest, S));
  }

  lemma SplitLitPreds(x: String, pre: String, post: String, y: String, n: nat, rest: seq<Chunk>, m: nat)
    requires Plain(x) && Plain(pre) && Plain(post) && Plain(y) && 1 <= n <= m
    requires LitsPlain(rest) && PhsIn(rest, m)
    ensures LitsPlain([Lit(x + pre), Ph(n), Lit(post + y)] + rest)
    ensures PhsIn([Lit(x + pre), Ph(n), Lit(post + y)] + rest, m)
  {
    PlainConcat(x, pre);
    PlainConcat(post, y);
    var c1 := [Lit(post + y)] + rest;
    var c2 := [Ph(n)] + c1;
    ConsPreds(Lit(post + y), rest, m);
    ConsPreds(Ph(n), c1, m);
    ConsPreds(Lit(x + pre), c2, m);
    assert [Lit(x + pre), Ph(n), Lit(post + y)] + rest == [Lit(x + pre)] + c2;
  }

  /** A first chunk in which the pattern cannot start is left alone. */
  lemma SkipChunk(c: Chunk, rest: seq<Chunk>, tail: seq<Chunk>, p: String, rep: String, S: seq<String>)
    requires forall i :: 0 <= i < |RenderPiece(c)| ==> !OccursAt(RenderPiece(c) + RenderC(rest), p, i)
    requires RenderC(tail) == ReplaceFirst(RenderC(rest), p, rep)
    requires ExpandC(tail, S) == ExpandC(rest, S)
    ensures RenderC([c] + tail) == ReplaceFirst(RenderC([c] + rest), p, rep)
    ensures ExpandC([c] + tail, S) == ExpandC([c] + rest, S)
  {
    Cons(c, tail, S);
    Cons(c, rest, S);
    ReplaceFirstSkip(RenderPiece(c), RenderC(rest), p, rep);
  }

  /** Two adjacent literals read as one. */
  lemma MergeLits(s: String, t: String, more: seq<Chunk>, S: seq<String>)
    ensures RenderC([Lit(s), Lit(t)] + more) == RenderC([Lit(s + t)] + more)
    ensures ExpandC([Lit(s), Lit(t)] + more, S) == ExpandC([Lit(s + t)] + more, S)
  {
    var c1 := [Lit(t)] + more;
    Cons(Lit(t), more, S);
    Cons(Lit(s), c1, S);
    Cons(Lit(s + t), more, S);
    assert [Lit(s), Lit(t)] + more == [Lit(s)] + c1;
    Assoc(s, t, RenderC(more));
    Assoc(s, t, ExpandC(more, S));
  }

  /** Minting the empty source: the token goes in front. */
  lemma MintEmpty(cs: seq<Chunk>, n: nat, S: seq<String>) returns (cs': seq<Chunk>)
    requires LitsPlain(cs) && PhsIn(cs, |S|)
    requires 1 <= n <= |S| && S[n - 1] == []
    ensures LitsPlain(cs') && PhsIn(cs', |S|)
    ensures RenderC(cs') == ReplaceFirst(RenderC(cs), [], Token(n))
    ensures ExpandC(cs', S) == ExpandC(cs, S)
  {
    ReplaceFirstEmpty(RenderC(cs), Token(n));
    cs' := [Ph(n)] + cs;
    Cons(Ph(n), cs, S);
    ConsPreds(Ph(n), cs, |S|);
  }

  /** Freezing one more source against a chunked text: the chunks after the
      mint, with the same restored reading. */
  lemma {:induction false} MintChunks(cs: seq<Chunk>, pre: String, src: String, post: String,
                                      n: nat, S: seq<String>) returns (cs': seq<Chunk>)
    requires LitsPlain(cs) && PhsIn(cs, |S|)
    requires Protectable(pre + src + post) && Plain(pre) && Plain(post)
    requires 1 <= n <= |S| && S[n - 1] == src
    ensures LitsPlain(cs') && PhsIn(cs', |S|)
    ensures RenderC(cs') == ReplaceFirst(RenderC(cs), pre + src + post, pre + Token(n) + post)
    ensures ExpandC(cs', S) == ExpandC(cs, S)
    decreases |cs|, 1
  {
    var p := pre + src + post;
    if |p| == 0 {
      assert src == [] && pre + Token(n) + post == Token(n);
      cs' := MintEmpty(cs, n, S);
    } else if |cs| == 0 {
      cs' := cs;
    } else {
      var rest := cs[1..];
      assert cs == [cs[0]] + rest;
      ConsPreds(cs[0], rest, |S|);
      match cs[0]
      case Lit(s) =>
        cs' := MintLit(s, rest, pre, src, post, n, S);
      case Ph(j) =>
        NoStartInToken(j, RenderC(rest), p);
        var tail := MintChunks(rest, pre, src, post, n, S);
        SkipChunk(Ph(j), rest, tail, p, pre + Token(n) + post, S);
        ConsPreds(Ph(j), tail, |S|);
        cs' := [Ph(j)] + tail;
    }
  }

  /** `MintChunks` when the first chunk is the literal `s`. */
  lemma {:induction false} MintLit(s: String, rest: seq<Chunk>, pre: String, src: String, post: String,
                                   n: nat, S: seq<String>) returns (cs': seq<Chunk>)
    requires Plain(s) && LitsPlain(rest) && PhsIn(rest, |S|)
    requires Protectable(pre + src + post) && Plain(pre) && Plain(post) && |pre + src + post| > 0
    requires 1 <= n <= |S| && S[n - 1] == src
    ensures LitsPlain(cs') && PhsIn(cs', |S|)
    ensures RenderC(cs') == ReplaceFirst(RenderC([Lit(s)] + rest), pre + src + post, pre + Token(n) + post)
    ensures ExpandC(cs', S) == ExpandC([Lit(s)] + rest, S)
    decreases |rest| + 1, 0
  {
    var p := pre + src + post;
    var rep := pre + Token(n) + post;
    if Find(s, p) >= 0 {
      cs' := MintInLit(s, rest, pre, src, post, n, S);
    } else if |rest| == 0 {
      cs' := [Lit(s)] + rest;
      Cons(Lit(s), rest, S);
      assert RenderC(cs') == s + [] == s;
    } else {
      var more := rest[1..];
      assert rest == [rest[0]] + more;
      ConsPreds(rest[0], more, |S|);
      match rest[0]
      case Lit(t) =>
        assert [Lit(s)] + rest == [Lit(s), Lit(t)] + more;
        MergeLits(s, t, more, S);
        PlainConcat(s, t);
        ConsPreds(Lit(s + t), more, |S|);
        cs' := MintChunks([Lit(s + t)] + more, pre, src, post, n, S);
      case Ph(j) =>
        TokenShape(j);
        Cons(Ph(j), more, S);
        NoStartInLit(s, RenderC(rest), p);
        var tail := MintChunks(rest, pre, src, post, n, S);
        SkipChunk(Lit(s), rest, tail, p, rep, S);
        ConsPreds(Lit(s), tail, |S|);
        cs' := [Lit(s)] + tail;
    }
  }

  // ---------------------------------------------------------------------------
  // The freeze invariant
  // ---------------------------------------------------------------------------

  /** `cs` is a chunk reading of the state `st` of a freeze of `T`. */
  predicate Repr(cs: seq<Chunk>, st: Frozen, T: String) {
    LitsPlain(cs) && PhsIn(cs, |st.sources|) && RenderC(cs) == st.text && ExpandC(cs, st.sources) == T
  }

  lemma PhsInGrow(cs: seq<Chunk>, m: nat, m': nat)
    requires PhsIn(cs, m) && m <= m'
    ensures PhsIn(cs, m')
  {
  }

  /** `(url)` can be frozen when the URL is bracket-free. */
  lemma ParenProtectable(url: String)
    requires Plain(url)
    ensures Protectable("(" + url + ")")
  {
    var p := "(" + url + ")";
    assert p[0] == '(' && !TokenChar(p[0]);
    PlainConcat("(", url);
    PlainConcat("(" + url, ")");
  }

  /** One mint keeps a chunk reading. */
  lemma MintRepr(st: Frozen, src: String, pre: String, post: String, cs: seq<Chunk>, T: String)
    returns (cs': seq<Chunk>)
    requires Repr(cs, st, T)
    requires Protectable(pre + src + post) && Plain(pre) && Plain(post)
    ensures Repr(cs', Mint(st, src, pre, post), T)
  {
    if src in st.sources {
      cs' := cs;
    } else {
      var S := st.sources + [src];
      ExpandExtend(cs, st.sources, src);
      PhsInGrow(cs, |st.sources|, |S|);
      cs' := MintChunks(cs, pre, src, post, |S|, S);
    }
  }

  /** The link pre-pass keeps a chunk reading. */
  lemma {:induction false} LinkPassRepr(st: Frozen, links: seq<Link>, cs: seq<Chunk>, T: String)
    returns (cs': seq<Chunk>)
    requires Repr(cs, st, T)
    requires forall k :: 0 <= k < |links| ==> Plain(links[k].url)
    ensures Repr(cs', LinkPass(st, links), T)
    decreases |links|
  {
    if |links| == 0 {
      cs' := cs;
    } else {
      ParenProtectable(links[0].url);
      var c1 := MintRepr(st, links[0].url, "(", ")", cs, T);
      assert forall k :: 0 <= k < |links[1..]| ==> links[1..][k] == links[k + 1];
      cs' := LinkPassRepr(Mint(st, links[0].url, "(", ")"), links[1..], c1, T);
    }
  }

  /** The mints of one pattern keep a chunk reading. */
  lemma {:induction false} MintAllRepr(st: Frozen, ms: seq<String>, cs: seq<Chunk>, T: String)
    returns (cs': seq<Chunk>)
    requires Repr(cs, st, T)
    requires forall k :: 0 <= k < |ms| ==> Protectable(ms[k])
    ensures Repr(cs', MintAll(st, ms), T)
    decreases |ms|
  {
    if |ms| == 0 {
      cs' := cs;
    } else {
      assert ms[0] == "" + ms[0] + "";
      var c1 := MintRepr(st, ms[0], "", "", cs, T);
      assert forall k :: 0 <= k < |ms[1..]| ==> ms[1..][k] == ms[k + 1];
      cs' := MintAllRepr(Mint(st, ms[0], "", ""), ms[1..], c1, T);
    }
  }

  /** Every pass keeps a chunk reading, provided every source the passes end
      up storing is protectable. */
  lemma {:induction false} PassesRepr(e: Engine, st: Frozen, rules: seq<Rule>, cs: seq<Chunk>, T: String)
    returns (cs': seq<Chunk>)
    requires Repr(cs, st, T)
    requires AllProtectable(Passes(e, st, rules).sources)
    ensures Repr(cs', Passes(e, st, rules), T)
    decreases |rules|
  {
    if |rules| == 0 {
      cs' := cs;
    } else {
      var ms := Matches(e, rules[0], st.text);
      var m := MintAll(st, ms);
      var fin := Passes(e, m, rules[1..]);
      forall k | 0 <= k < |ms| ensures Protectable(ms[k]) {
        var i :| 0 <= i < |m.sources| && m.sources[i] == ms[k];
        assert fin.sources[i] == fin.sources[..|m.sources|][i];
      }
      var c1 := MintAllRepr(st, ms, cs, T);
      cs' := PassesRepr(e, m, rules[1..], c1, T);
    }
  }

  // ---------------------------------------------------------------------------
  // Restoring chunk by chunk
  // ---------------------------------------------------------------------------

  /** A chunk after the first `k` tokens have been restored. */
  function SubstPiece(c: Chunk, S: seq<String>, k: nat): Chunk {
    if c.Ph? && 1 <= c.n <= k && c.n <= |S| then Lit(S[c.n - 1]) else c
  }

  function Subst(cs: seq<Chunk>, S: seq<String>, k: nat): (r: seq<Chunk>)
    ensures |r| == |cs|
    decreases |cs|
  {
    if |cs| == 0 then [] else [SubstPiece(cs[0], S, k)] + Subst(cs[1..], S, k)
  }

  predicate AllPlain(S: seq<String>) {
    forall i :: 0 <= i < |S| ==> Plain(S[i])
  }

  /** Restoring token `k + 1` in the text read by `Subst(cs, S, k)`. */
  lemma {:induction false} RestoreStep(cs: seq<Chunk>, S: seq<String>, k: nat)
    requires LitsPlain(cs) && AllPlain(S) && k < |S|
    ensures ReplaceAll(RenderC(Subst(cs, S, k)), Token(k + 1), S[k]) == RenderC(Subst(cs, S, k + 1))
    decreases |cs|
  {
    var t := Token(k + 1);
    TokenShape(k + 1);
    if |cs| > 0 {
      var c := cs[0];
      var a, b := SubstPiece(c, S, k), SubstPiece(c, S, k + 1);
      var A, B := Subst(cs[1..], S, k), Subst(cs[1..], S, k + 1);
      assert LitsPlain(cs[1..]) by {
        assert forall i :: 0 <= i < |cs[1..]| ==> cs[1..][i] == cs[i + 1];
      }
      RestoreStep(cs[1..], S, k);
      Cons(a, A, S);
      Cons(b, B, S);
      if c.Ph? && c.n == k + 1 {
        ReplaceAllHere(k + 1, RenderC(A), S[k]);
      } else {
        assert a == b;
        if a.Lit? {
          TokenNotInLit(a.s, RenderC(A), k + 1);
        } else {
          TokenNotInToken(a.n, RenderC(A), k + 1);
        }
        ReplaceAllSkip(RenderPiece(a), RenderC(A), t, S[k]);
      }
    }
  }

  /** Restoring leaves the restored reading alone. */
  lemma {:induction false} SubstExpand(cs: seq<Chunk>, S: seq<String>, k: nat)
    ensures ExpandC(Subst(cs, S, k), S) == ExpandC(cs, S)
    decreases |cs|
  {
    if |cs| > 0 {
      SubstExpand(cs[1..], S, k);
      Cons(SubstPiece(cs[0], S, k), Subst(cs[1..], S, k), S);
    }
  }

  /** Nothing restored yet. */
  lemma {:induction false} SubstNone(cs: seq<Chunk>, S: seq<String>)
    ensures Subst(cs, S, 0) == cs
    decreases |cs|
  {
    if |cs| > 0 {
      SubstNone(cs[1..], S);
    }
  }

  /** Everything restored: the text is its own restored reading. */
  lemma {:induction false} SubstAll(cs: seq<Chunk>, S: seq<String>)
    requires PhsIn(cs, |S|)
    ensures RenderC(Subst(cs, S, |S|)) == ExpandC(cs, S)
    decreases |cs|
  {
    if |cs| > 0 {
      assert PhsIn(cs[1..], |S|) by {
        assert forall i :: 0 <= i < |cs[1..]| ==> cs[1..][i] == cs[i + 1];
      }
      SubstAll(cs[1..], S);
      Cons(SubstPiece(cs[0], S, |S|), Subst(cs[1..], S, |S|), S);
    }
  }

  /** The items of the token map, from position `k` on. */
  lemma ItemsFrom(ps: seq<Pair>, k: nat, x: Pair)
    requires k < |ps| && ps[k] == x
    ensures ps[k..] == [x] + ps[k + 1..]
  {
  }

  lemma {:induction false} RestoreFrom(cs: seq<Chunk>, S: seq<String>, k: nat)
    requires LitsPlain(cs) && PhsIn(cs, |S|) && AllPlain(S) && k <= |S|
    ensures RestoreItems(RenderC(Subst(cs, S, k)), Items(ToDict(S))[k..]) == ExpandC(cs, S)
    decreases |S| - k
  {
    var ps := Items(ToDict(S));
    if k == |S| {
      assert ps[k..] == [];
      SubstAll(cs, S);
    } else {
      var d := ToDict(S);
      assert ps[k] == Pair(d.order[k], d.entries[d.order[k]]);
      ItemsFrom(ps, k, Pair(Token(k + 1), S[k]));
      RestoreStep(cs, S, k);
      RestoreFrom(cs, S, k + 1);
      assert ps[k..][1..] == ps[k + 1..];
    }
  }

  // ---------------------------------------------------------------------------
  // The round trip
  // ---------------------------------------------------------------------------

  lemma ProtectablePlain(S: seq<String>)
    requires AllProtectable(S)
    ensures AllPlain(S)
  {
  }

  /** Before any pass, the text is one literal chunk. */
  lemma ReprStart(T: String)
    requires Plain(T)
    ensures Repr([Lit(T)], Frozen(T, []), T)
  {
    Cons(Lit(T), [], []);
    assert [Lit(T)] + [] == [Lit(T)];
    assert RenderC([Lit(T)]) == T + [];
    assert ExpandC([Lit(T)], []) == T + [];
  }

  /** `restore_all(*freeze_all(T, D)) == T` when `T` has no token brackets
      and every source the freeze stores is protectable. */
  lemma RoundTrip(e: Engine, T: String, dnt: seq<String>)
    requires Plain(T)
    requires AllProtectable(FreezeState(e, T, dnt).sources)
    ensures Restore(Freeze(e, T, dnt).text, Freeze(e, T, dnt).mapping) == T
  {
    var st0 := Frozen(T, []);
    var cs0 := [Lit(T)];
    ReprStart(T);
    var links := e.links(T);
    var l := LinkPass(st0, links);
    var fin := FreezeState(e, T, dnt);
    forall k | 0 <= k < |links| ensures Plain(links[k].url) {
      PrefixKeeps(l.sources, fin.sources, links[k].url);
    }
    var cs1 := LinkPassRepr(st0, links, cs0, T);
    var cs2 := PassesRepr(e, l, Rules(dnt), cs1, T);
    ProtectablePlain(fin.sources);
    SubstNone(cs2, fin.sources);
    RestoreFrom(cs2, fin.sources, 0);
    assert Items(ToDict(fin.sources))[0..] == Items(ToDict(fin.sources));
  }
}

=== FILE: placeholders.dfy ===
/** `PlaceholderManager` (src/newtone_translate/domain/placeholder_manager.py):
    freezing protected spans of a text into numbered tokens `⟦PH_1⟧`,
    `⟦PH_2⟧`, … and restoring them afterwards.

    The rules URL and HTML_TAG are run by the exact scanners of module
    Scanners; EMAIL, SKU, CURRENCY and MARKDOWN_LINK are supplied by an
    `Engine` (the regular-expression engine is not modelled), and a
    do-not-translate term matches itself literally. */
module Placeholders {
  import opened Wrappers
  import opened Text
  import opened Dicts
  import opened Scanners

  // ---------------------------------------------------------------------------
  // Tokens
  // ---------------------------------------------------------------------------

  /** The brackets `⟦` (U+27E6) and `⟧` (U+27E7) around every token. */
  const Open: char := '\U{27E6}'
  const Close: char := '\U{27E7}'

  /** `f"⟦PH_{n}⟧"`. */
  function Token(n: nat): String {
    [Open] + "PH_" + NatToString(n) + [Close]
  }

  /** The characters a token holds between its brackets. */
  predicate TokenChar(c: char) {
    c == 'P' || c == 'H' || c == '_' || IsDigit(c)
  }

  /** A token opens with `⟦`, closes with `⟧`, and holds only `TokenChar`s in
      between. */
  lemma TokenShape(n: nat)
    ensures |Token(n)| >= 5
    ensures Token(n)[0] == Open && Token(n)[|Token(n)| - 1] == Close
    ensures forall i :: 0 < i < |Token(n)| - 1 ==> TokenChar(Token(n)[i])
    ensures Token(n)[4..|Token(n)| - 1] == NatToString(n)
  {
    var t := Token(n);
    var d := NatToString(n);
    assert t == [Open] + ['P', 'H', '_'] + d + [Close];
    forall i | 0 < i < |t| - 1 ensures TokenChar(t[i]) {
      if i >= 4 { assert t[i] == d[i - 4]; }
    }
    assert t[4..|t| - 1] == d;
  }

  /** Distinct numbers give distinct tokens. */
  lemma TokenInjective(a: nat, b: nat)
    requires Token(a) == Token(b)
    ensures a == b
  {
    TokenShape(a);
    TokenShape(b);
    NatToStringInjective(a, b);
  }

  // ---------------------------------------------------------------------------
  // Rules and matchers
  // ---------------------------------------------------------------------------

  /** One match of MARKDOWN_LINK `\[([^\]]+)\]\(([^)]+)\)`: its two groups. */
  datatype Link = Link(caption: String, url: String)

  /** The rules whose matches come from outside the model: for each text, the
      matches of EMAIL, SKU, CURRENCY and MARKDOWN_LINK in `finditer` order. */
  datatype Engine = Engine(
    email: String -> seq<String>,
    sku: String -> seq<String>,
    currency: String -> seq<String>,
    links: String -> seq<Link>)

  /** What every match of each engine rule looks like: it occurs in the text
      searched, an EMAIL match holds `@`, a SKU match starts with `SKU-` and a
      letter or digit, a CURRENCY match is a currency sign and a digit, and a
      link has a non-empty label and URL and occurs as `[caption](url)`. */
  ghost predicate Sound(e: Engine) {
    && (forall t, k :: 0 <= k < |e.email(t)| ==>
          Occurs(t, e.email(t)[k]) && Occurs(e.email(t)[k], "@"))
    && (forall t, k :: 0 <= k < |e.sku(t)| ==>
          Occurs(t, e.sku(t)[k]) && |e.sku(t)[k]| > 4 && StartsWith(e.sku(t)[k], "SKU-"))
    && (forall t, k :: 0 <= k < |e.currency(t)| ==>
          Occurs(t, e.currency(t)[k]) && |e.currency(t)[k]| >= 2 &&
          e.currency(t)[k][0] in CurrencySigns && IsDigit(e.currency(t)[k][1]))
    && (forall t, k :: 0 <= k < |e.links(t)| ==>
          |e.links(t)[k].caption| > 0 && |e.links(t)[k].url| > 0 &&
          Occurs(t, "[" + e.links(t)[k].caption + "](" + e.links(t)[k].url + ")"))
  }

  /** The class `[$€£¥]`. */
  const CurrencySigns: String := "$€£¥"

  /** The patterns of the main loop, in order: the rules other than
      MARKDOWN_LINK in their declaration order, then the caller's
      do-not-translate terms. */
  datatype Rule = Url | Email | Sku | Currency | HtmlTag | Dnt(term: String)

  function Rules(dnt: seq<String>): (rs: seq<Rule>)
    ensures |rs| == 5 + |dnt|
    ensures rs[..5] == [Url, Email, Sku, Currency, HtmlTag]
    ensures forall k :: 0 <= k < |dnt| ==> rs[5 + k] == Dnt(dnt[k])
  {
    [Url, Email, Sku, Currency, HtmlTag] + seq(|dnt|, k requires 0 <= k < |dnt| => Dnt(dnt[k]))
  }

  /** `re.finditer(term, t)` for a term without metacharacters: one copy of
      the term per leftmost non-overlapping occurrence; the empty term
      matches at each of the `|t| + 1` positions. */
  function LiteralScan(t: String, term: String): (ms: seq<String>)
    ensures forall k :: 0 <= k < |ms| ==> ms[k] == term
    ensures |ms| > 0 <==> Occurs(t, term)
    ensures |term| == 0 ==> |ms| == |t| + 1
    ensures |term| > 0 ==> |ms| == |Split(t, term)| - 1
    decreases |t|
  {
    if |term| == 0 then
      assert OccursAt(t, term, 0);
      seq(|t| + 1, _ => term)
    else
      var i := Find(t, term);
      if i < 0 then []
      else
        var rest := LiteralScan(t[i + |term|..], term);
        LiteralScanStep(t, term, i, rest);
        [term] + rest
  }

  /** One copy of the term for its leftmost occurrence, before the copies
      found after it. */
  lemma LiteralScanStep(t: String, term: String, i: int, rest: seq<String>)
    requires |term| > 0 && i >= 0 && i == Find(t, term)
    requires forall k :: 0 <= k < |rest| ==> rest[k] == term
    requires |rest| == |Split(t[i + |term|..], term)| - 1
    ensures var ms := [term] + rest;
      && (forall k :: 0 <= k < |ms| ==> ms[k] == term)
      && Occurs(t, term)
      && |ms| == |Split(t, term)| - 1
  {
    var ms := [term] + rest;
    assert forall k :: 0 < k < |ms| ==> ms[k] == rest[k - 1];
    assert |Split(t, term)| == 1 + |Split(t[i + |term|..], term)|;
  }

  /** The matches of one rule in a text, in `finditer` order. */
  function Matches(e: Engine, r: Rule, t: String): seq<String> {
    match r
    case Url => UrlScan(t)
    case Email => e.email(t)
    case Sku => e.sku(t)
    case Currency => e.currency(t)
    case HtmlTag => TagScan(t)
    case Dnt(term) => LiteralScan(t, term)
  }

  // ---------------------------------------------------------------------------
  // Freezing
  // ---------------------------------------------------------------------------

  /** The state of `freeze_all` between replacements: the current text and
      the sources mapped so far; `sources[i]` is the value of `Token(i + 1)`,
      so `|sources|` is the counter `idx`. */
  datatype Frozen = Frozen(text: String, sources: seq<String>)

  predicate Distinct(s: seq<String>) {
    forall i, j :: 0 <= i < j < |s| ==> s[i] != s[j]
  }

  predicate IsPrefix(a: seq<String>, b: seq<String>) {
    |a| <= |b| && b[..|a|] == a
  }

  lemma PrefixKeeps(a: seq<String>, b: seq<String>, x: String)
    requires IsPrefix(a, b) && x in a
    ensures x in b
  {
    var i :| 0 <= i < |a| && a[i] == x;
    assert b[i] == b[..|a|][i];
  }

  lemma PrefixTrans(a: seq<String>, b: seq<String>, c: seq<String>)
    requires IsPrefix(a, b) && IsPrefix(b, c)
    ensures IsPrefix(a, c)
  {
    assert c[..|a|] == c[..|b|][..|a|];
  }

  /** One mint (`replace_once`, and the body of the link pre-pass, where
      `pre` and `post` are the parentheses around the URL): a source already
      mapped is skipped; otherwise it gets the next token, and the leftmost
      occurrence of `pre + src + post`, if any, is rewritten with the token
      in place of `src`. */
  function Mint(st: Frozen, src: String, pre: String, post: String): (r: Frozen)
    ensures src in st.sources ==> r == st
    ensures src !in st.sources ==> r.sources == st.sources + [src]
    ensures src !in st.sources && !Occurs(st.text, pre + src + post) ==> r.text == st.text
    ensures src !in st.sources && Occurs(st.text, pre + src + post) ==>
      exists i :: FirstAt(st.text, pre + src + post, i) &&
        r.text == st.text[..i] + pre + Token(|st.sources| + 1) + post + st.text[i + |pre + src + post|..]
  {
    if src in st.sources then st
    else
      var p := pre + src + post;
      var r := Frozen(ReplaceFirst(st.text, p, pre + Token(|st.sources| + 1) + post), st.sources + [src]);
      var i := Find(st.text, p);
      if i >= 0 then
        MintText(st.text, p, pre, Token(|st.sources| + 1), post, i);
        r
      else
        r
  }

  /** Rewriting the leftmost occurrence of `p` with `pre + tok + post`. */
  lemma MintText(s: String, p: String, pre: String, tok: String, post: String, i: int)
    requires i == Find(s, p) && i >= 0
    ensures FirstAt(s, p, i)
    ensures ReplaceFirst(s, p, pre + tok + post) == s[..i] + pre + tok + post + s[i + |p|..]
  {
    ReplaceFirstFind(s, p, pre + tok + post);
    var a := s[..i];
    Assoc(a, pre + tok, post);
    Assoc(a, pre, tok);
  }

  /** The MARKDOWN_LINK pre-pass (placeholder_manager.py:59-75): each link
      found in the original text mints its URL between parentheses, so the
      label stays in the text. Afterwards every URL is mapped. */
  function LinkPass(st: Frozen, links: seq<Link>): (r: Frozen)
    ensures IsPrefix(st.sources, r.sources)
    ensures Distinct(st.sources) ==> Distinct(r.sources)
    ensures forall k :: 0 <= k < |links| ==> links[k].url in r.sources
    ensures forall x :: x in r.sources ==> x in st.sources || exists k :: 0 <= k < |links| && links[k].url == x
    decreases |links|
  {
    if |links| == 0 then st
    else
      var m := Mint(st, links[0].url, "(", ")");
      var r := LinkPass(m, links[1..]);
      assert forall k :: 1 <= k < |links| ==> links[k] == links[1..][k - 1];
      PrefixKeeps(m.sources, r.sources, links[0].url);
      PrefixTrans(st.sources, m.sources, r.sources);
      r
  }

  /** The inner `finditer` loop for one pattern (placeholder_manager.py:80-83):
      each match of the snapshot is minted against the current text. */
  function MintAll(st: Frozen, ms: seq<String>): (r: Frozen)
    ensures IsPrefix(st.sources, r.sources)
    ensures Distinct(st.sources) ==> Distinct(r.sources)
    ensures forall k :: 0 <= k < |ms| ==> ms[k] in r.sources
    ensures forall x :: x in r.sources ==> x in st.sources || x in ms
    decreases |ms|
  {
    if |ms| == 0 then st
    else
      var m := Mint(st, ms[0], "", "");
      var r := MintAll(m, ms[1..]);
      assert forall k :: 1 <= k < |ms| ==> ms[k] == ms[1..][k - 1];
      PrefixKeeps(m.sources, r.sources, ms[0]);
      PrefixTrans(st.sources, m.sources, r.sources);
      r
  }

  /** The outer loop over the patterns (placeholder_manager.py:78-83): the
      matches of each rule are computed on the text as it stands when the rule
      starts. */
  function Passes(e: Engine, st: Frozen, rules: seq<Rule>): (r: Frozen)
    ensures IsPrefix(st.sources, r.sources)
    ensures Distinct(st.sources) ==> Distinct(r.sources)
    decreases |rules|
  {
    if |rules| == 0 then st
    else Passes(e, MintAll(st, Matches(e, rules[0], st.text)), rules[1..])
  }

  /** `Token(n)` is none of the tokens numbered below `n`. */
  lemma TokensBefore(order: seq<String>, n: nat)
    requires |order| == n - 1
    requires forall i :: 0 <= i < n - 1 ==> order[i] == Token(i + 1)
    ensures Token(n) !in order
    ensures forall i :: 0 <= i < n - 1 ==> order[i] != Token(n)
  {
    forall i | 0 <= i < n - 1 ensures order[i] != Token(n) {
      TokenDistinct(i + 1, n);
    }
  }

  /** Assigning the next token after the tokens numbered below it. */
  lemma PutNext(front: Dict, s: seq<String>)
    requires |s| > 0 && |front.order| == |s| - 1
    requires forall i :: 0 <= i < |s| - 1 ==> front.order[i] == Token(i + 1) && front.entries[Token(i + 1)] == s[i]
    ensures var d := Put(front, Token(|s|), s[|s| - 1]);
      && |d.order| == |s|
      && forall i :: 0 <= i < |s| ==> d.order[i] == Token(i + 1) && d.entries[Token(i + 1)] == s[i]
  {
    var n := |s|;
    TokensBefore(front.order, n);
    var d := Put(front, Token(n), s[n - 1]);
    forall i | 0 <= i < n - 1 ensures d.order[i] == Token(i + 1) && d.entries[Token(i + 1)] == s[i] {
      var k := front.order[i];
      assert k != Token(n);
      assert Get(d, k) == Get(front, k);
    }
    assert Get(d, Token(n)) == Some(s[n - 1]);
  }

  lemma TokenDistinct(a: nat, b: nat)
    requires a != b
    ensures Token(a) != Token(b)
  {
    if Token(a) == Token(b) {
      TokenInjective(a, b);
    }
  }

  /** The mapping built from the sources: `Token(i + 1)` maps to `s[i]`, in
      minting order. */
  function ToDict(s: seq<String>): (d: Dict)
    ensures |d.order| == |s|
    ensures forall i :: 0 <= i < |s| ==> d.order[i] == Token(i + 1) && d.entries[Token(i + 1)] == s[i]
    decreases |s|
  {
    if |s| == 0 then Empty
    else
      var front := ToDict(s[..|s| - 1]);
      assert forall i :: 0 <= i < |s| - 1 ==> s[..|s| - 1][i] == s[i];
      PutNext(front, s);
      Put(front, Token(|s|), s[|s| - 1])
  }

  /** The values of the token map are exactly the sources: this is what makes
      the check `src in mapping.values()` the same as `src in sources`. */
  lemma ToDictValues(s: seq<String>, v: String)
    ensures HasValue(ToDict(s), v) <==> v in s
  {
    var d := ToDict(s);
    if v in s {
      var i :| 0 <= i < |s| && s[i] == v;
      assert d.entries[Token(i + 1)] == v;
    }
    if HasValue(d, v) {
      var k :| k in d.entries && d.entries[k] == v;
      var i :| 0 <= i < |d.order| && d.order[i] == k;
      assert s[i] == v;
    }
  }

  /** The result of `freeze_all`: the frozen text and the token map. */
  datatype Freezing = Freezing(text: String, mapping: Dict)

  /** `freeze_all(text, dnt)`. The keys are `Token(1)`, `Token(2)`, … in
      order, no two keys share a value, and every markdown-link URL of the
      original text is a value. */
  function Freeze(e: Engine, text: String, dnt: seq<String>): (r: Freezing)
    ensures forall i :: 0 <= i < |r.mapping.order| ==> r.mapping.order[i] == Token(i + 1)
    ensures forall i, j :: 0 <= i < j < |r.mapping.order| ==>
      r.mapping.entries[r.mapping.order[i]] != r.mapping.entries[r.mapping.order[j]]
    ensures forall k :: 0 <= k < |e.links(text)| ==> HasValue(r.mapping, e.links(text)[k].url)
  {
    var st := FreezeState(e, text, dnt);
    var d := ToDict(st.sources);
    forall i, j | 0 <= i < j < |d.order| ensures d.entries[d.order[i]] != d.entries[d.order[j]] {
      assert d.entries[d.order[i]] == st.sources[i];
      assert d.entries[d.order[j]] == st.sources[j];
    }
    var l := LinkPass(Frozen(text, []), e.links(text));
    forall k | 0 <= k < |e.links(text)| ensures HasValue(d, e.links(text)[k].url) {
      PrefixKeeps(l.sources, st.sources, e.links(text)[k].url);
      ToDictValues(st.sources, e.links(text)[k].url);
    }
    Freezing(st.text, d)
  }

  /** The final state of `freeze_all`: the link pre-pass on the original
      text, then the patterns. */
  function FreezeState(e: Engine, text: String, dnt: seq<String>): (st: Frozen)
    ensures Distinct(st.sources)
    ensures IsPrefix(LinkPass(Frozen(text, []), e.links(text)).sources, st.sources)
  {
    Passes(e, LinkPass(Frozen(text, []), e.links(text)), Rules(dnt))
  }

  // ---------------------------------------------------------------------------
  // Restoring
  // ---------------------------------------------------------------------------

  /** Substitute each key by its value, everywhere, one item after the other. */
  function RestoreItems(text: String, ps: seq<Pair>): (r: String)
    ensures |ps| == 0 ==> r == text
    ensures ((forall k :: 0 <= k < |ps| ==> |ps[k].key| > 0 && !Occurs(text, ps[k].key))
      && (forall k, j :: 0 <= k < j < |ps| ==> !Occurs(ps[k].value, ps[j].key))) ==> r == text
    decreases |ps|
  {
    if |ps| == 0 then text
    else
      var r := RestoreItems(ReplaceAll(text, ps[0].key, ps[0].value), ps[1..]);
      assert forall k :: 1 <= k < |ps| ==> ps[k] == ps[1..][k - 1];
      r
  }

  /** `restore_all(text, mapping)`: every occurrence of each key, taken in
      the map's insertion order, is replaced by its value. With no keys the
      text comes back unchanged. */
  function Restore(text: String, mapping: Dict): (r: String)
    ensures |mapping.order| == 0 ==> r == text
  {
    RestoreItems(text, Items(mapping))
  }
}

=== FILE: prototype.dfy ===
/** The standalone prototype `simple_translate_example.py`: a mock answer
    without an API key, an HTML-first format check, its own protection of
    URLs, e-mail addresses and prices behind `⟦KIND_n⟧` placeholders, the
    batching of at most five segments into one request, and the loop that
    writes translated strings back into the parsed document. The chat model,
    the three regular expressions and BeautifulSoup are parameters. */
module Prototype {
  import opened Wrappers
  import opened Text
  import opened Dicts
  import opened Scanners
  import FormatDetection
  import Placeholders

  // ---------------------------------------------------------------------------
  // The mock answer and the key
  // ---------------------------------------------------------------------------

  /** `f"[MOCK {target_lang.upper()}] {text}"`. */
  function MockResult(lang: String, text: String): (r: String)
    ensures StartsWith(r, "[MOCK " + Upper(lang) + "] ")
    ensures |r| == |lang| + 8 + |text| && r[|lang| + 8..] == text
  {
    var head := "[MOCK " + Upper(lang) + "] ";
    assert (head + text)[..|head|] == head;
    assert (head + text)[|head|..] == text;
    head + text
  }

  /** `openai_api_key or os.getenv('OPENAI_API_KEY')` is truthy: an absent
      or empty argument falls back to the environment. */
  predicate HasKey(argKey: Option<String>, envKey: Option<String>) {
    (argKey.Some? && |argKey.value| > 0) || (envKey.Some? && |envKey.value| > 0)
  }

  // ---------------------------------------------------------------------------
  // Format detection
  // ---------------------------------------------------------------------------

  /** The four Markdown patterns of the prototype at one index: heading,
      bold, italic and link; bullets, numbered items and quotes are not
      among them. */
  predicate MarkdownPatternAt(t: String, i: int) {
    FormatDetection.HeadingAt(t, i) || FormatDetection.BoldAt(t, i)
    || FormatDetection.ItalicAt(t, i) || FormatDetection.LinkAt(t, i)
  }

  predicate HasMarkdownPattern(t: String) {
    exists i :: 0 <= i <= |t| && MarkdownPatternAt(t, i)
  }

  /** `detect_format`: any `<…>` tag makes the text HTML before Markdown is
      considered. */
  function DetectFormat(t: String): (r: String)
    ensures r == FormatDetection.HtmlName <==> HasTag(t)
    ensures r == FormatDetection.MarkdownName <==> !HasTag(t) && HasMarkdownPattern(t)
    ensures r == FormatDetection.TextName <==> !HasTag(t) && !HasMarkdownPattern(t)
  {
    if HasTag(t) then FormatDetection.HtmlName
    else if HasMarkdownPattern(t) then FormatDetection.MarkdownName
    else FormatDetection.TextName
  }

  /** Where the prototype sees Markdown the service does too, and where the
      prototype sees plain text the service never sees HTML. */
  lemma DetectionAgrees(t: String)
    ensures DetectFormat(t) == FormatDetection.MarkdownName ==>
      FormatDetection.DetectFormat(t) == FormatDetection.MarkdownName
    ensures DetectFormat(t) == FormatDetection.TextName ==>
      FormatDetection.DetectFormat(t) != FormatDetection.HtmlName
  {
    if HasMarkdownPattern(t) {
      var i :| 0 <= i <= |t| && MarkdownPatternAt(t, i);
      assert FormatDetection.SignalAt(t, i);
    }
    if !HasTag(t) {
      FormatDetection.NoTagNotHtml(t);
    }
  }

  lemma HeadingWithMarkupTag(t: String)
    requires t == "# Hi\n<p>x</p>"
    ensures HasTag(t)
  {
    UpToIs(t, 6, '>', 7);
    assert TagStartsAt(t, 5);
  }

  /** `"# Hi\n<p>x</p>"` is HTML to the prototype and Markdown to the
      service: the two versions order their checks oppositely. */
  lemma DetectionOrderDiffers(t: String)
    requires t == "# Hi\n<p>x</p>"
    ensures DetectFormat(t) == FormatDetection.HtmlName
    ensures FormatDetection.DetectFormat(t) == FormatDetection.MarkdownName
  {
    HeadingWithMarkupTag(t);
    FormatDetection.HeadingWithMarkupExample();
  }

  // ---------------------------------------------------------------------------
  // Protection
  // ---------------------------------------------------------------------------

  /** `re.finditer` over URL, EMAIL and PRICE: the matches in order. */
  datatype Matchers = Matchers(
    url: String -> seq<String>,
    email: String -> seq<String>,
    price: String -> seq<String>)

  const UrlKind: String := "URL"
  const EmailKind: String := "EMAIL"
  const PriceKind: String := "PRICE"

  predicate IsKind(k: String) {
    k == UrlKind || k == EmailKind || k == PriceKind
  }

  /** `f"⟦{KIND}_{n}⟧"`. */
  function Placeholder(kind: String, n: nat): String {
    [Placeholders.Open] + kind + "_" + NatToString(n) + [Placeholders.Close]
  }

  /** Placeholders of the three kinds are told apart by their number alone. */
  lemma PlaceholderInjective(k1: String, n1: nat, k2: String, n2: nat)
    requires IsKind(k1) && IsKind(k2)
    requires Placeholder(k1, n1) == Placeholder(k2, n2)
    ensures k1 == k2 && n1 == n2
  {
    var p := Placeholder(k1, n1);
    assert p[1] == k1[0];
    assert Placeholder(k2, n2)[1] == k2[0];
    assert k1 == k2;
    var a := |k1| + 2;
    assert p[a..|p| - 1] == NatToString(n1);
    assert Placeholder(k2, n2)[a..|p| - 1] == NatToString(n2);
    NatToStringInjective(n1, n2);
  }

  /** The state of `protect_content` between matches: the text so far and
      the placeholders assigned so far, in order. The shared counter is one
      more than the number of placeholders. */
  datatype Protection = Protection(text: String, items: seq<Pair>)

  /** One `for match in …` loop: each match gets the next number, every
      occurrence of it in the current text is replaced, and the placeholder
      is recorded. */
  function ProtectPass(st: Protection, kind: String, ms: seq<String>): (r: Protection)
    ensures Extends(st.items, r.items, kind, ms)
    decreases |ms|
  {
    if |ms| == 0 then st
    else
      var ph := Placeholder(kind, |st.items| + 1);
      var next := Protection(ReplaceAll(st.text, ms[0], ph), st.items + [Pair(ph, ms[0])]);
      var r := ProtectPass(next, kind, ms[1..]);
      PassItems(st.items, r.items, kind, ms);
      r
  }

  /** `b` is `a` followed by one item per match, each behind the placeholder
      of `kind` numbered by its position. */
  predicate Extends(a: seq<Pair>, b: seq<Pair>, kind: String, ms: seq<String>) {
    && |b| == |a| + |ms| && b[..|a|] == a
    && forall j :: 0 <= j < |ms| ==> b[|a| + j] == Pair(Placeholder(kind, |a| + j + 1), ms[j])
  }

  /** The items after the first match of a pass extend those before it. */
  lemma PassItems(a: seq<Pair>, b: seq<Pair>, kind: String, ms: seq<String>)
    requires |ms| > 0
    requires Extends(a + [Pair(Placeholder(kind, |a| + 1), ms[0])], b, kind, ms[1..])
    ensures Extends(a, b, kind, ms)
  {
    var a' := a + [Pair(Placeholder(kind, |a| + 1), ms[0])];
    assert b[..|a|] == b[..|a'|][..|a|];
    forall j | 0 <= j < |ms| ensures b[|a| + j] == Pair(Placeholder(kind, |a| + j + 1), ms[j]) {
      if j == 0 {
        assert b[|a|] == b[..|a'|][|a|];
      } else {
        assert b[|a| + j] == b[|a'| + (j - 1)];
        assert ms[1..][j - 1] == ms[j];
      }
    }
  }

  /** URLs are searched in the original text. */
  function UrlStage(m: Matchers, text: String): Protection {
    ProtectPass(Protection(text, []), UrlKind, m.url(text))
  }

  /** E-mail addresses are searched in the text after URL protection. */
  function EmailStage(m: Matchers, text: String): Protection {
    ProtectPass(UrlStage(m, text), EmailKind, m.email(UrlStage(m, text).text))
  }

  /** Prices are searched in the text after e-mail protection. */
  function PriceStage(m: Matchers, text: String): Protection {
    ProtectPass(EmailStage(m, text), PriceKind, m.price(EmailStage(m, text).text))
  }

  /** The keys of `ps` are pairwise distinct. */
  predicate DistinctKeys(ps: seq<Pair>) {
    forall i, j :: 0 <= i < j < |ps| ==> ps[i].key != ps[j].key
  }

  /** `d` lists exactly the items of `ps`, in order. */
  predicate Lists(d: Dict, ps: seq<Pair>) {
    |d.order| == |ps| &&
    forall i :: 0 <= i < |ps| ==> d.order[i] == ps[i].key && Get(d, ps[i].key) == Some(ps[i].value)
  }

  /** The dict built by assigning the items one after the other. */
  function DictOf(ps: seq<Pair>): (d: Dict)
    ensures DistinctKeys(ps) ==> Lists(d, ps)
    decreases |ps|
  {
    if |ps| == 0 then Empty
    else
      var front := DictOf(ps[..|ps| - 1]);
      DictOfStep(ps, front);
      Put(front, ps[|ps| - 1].key, ps[|ps| - 1].value)
  }

  /** Assigning the last item after all the others, whose keys differ. */
  lemma DictOfStep(ps: seq<Pair>, front: Dict)
    requires |ps| > 0
    requires DistinctKeys(ps[..|ps| - 1]) ==> Lists(front, ps[..|ps| - 1])
    ensures DistinctKeys(ps) ==> Lists(Put(front, ps[|ps| - 1].key, ps[|ps| - 1].value), ps)
  {
    var init := ps[..|ps| - 1];
    var last := ps[|ps| - 1];
    if DistinctKeys(ps) {
      assert forall i :: 0 <= i < |init| ==> init[i] == ps[i];
      assert DistinctKeys(init);
      assert forall i :: 0 <= i < |front.order| ==> front.order[i] != last.key;
      assert last.key !in front.order;
    }
  }

  /** The kind of the placeholder at a position: URLs first, then e-mail
      addresses, then prices. */
  function KindAt(i: int, urls: nat, emails: nat): (k: String)
    ensures IsKind(k)
  {
    if i < urls then UrlKind else if i < urls + emails then EmailKind else PriceKind
  }

  /** Items numbered from 1 across the three kinds: the URL matches `u`,
      then the e-mail matches `e`, then the price matches `p`, each behind the
      placeholder of its kind and position. */
  predicate Layout(ps: seq<Pair>, u: seq<String>, e: seq<String>, p: seq<String>) {
    && |ps| == |u| + |e| + |p|
    && (forall i :: 0 <= i < |u| ==> ps[i] == Pair(Placeholder(UrlKind, i + 1), u[i]))
    && (forall i :: 0 <= i < |e| ==> ps[|u| + i] == Pair(Placeholder(EmailKind, |u| + i + 1), e[i]))
    && (forall i :: 0 <= i < |p| ==> ps[|u| + |e| + i] == Pair(Placeholder(PriceKind, |u| + |e| + i + 1), p[i]))
  }

  /** The items of the three stages follow the layout. */
  lemma ProtectItems(m: Matchers, text: String)
    ensures Layout(PriceStage(m, text).items, m.url(text), m.email(UrlStage(m, text).text),
                   m.price(EmailStage(m, text).text))
  {
    var s1, s2, s3 := UrlStage(m, text), EmailStage(m, text), PriceStage(m, text);
    StagesLayout(s1.items, s2.items, s3.items, m.url(text), m.email(s1.text), m.price(s2.text));
  }

  /** Three passes, each extending the items of the one before. */
  lemma StagesLayout(a: seq<Pair>, b: seq<Pair>, c: seq<Pair>, u: seq<String>, e: seq<String>, p: seq<String>)
    requires Extends([], a, UrlKind, u) && Extends(a, b, EmailKind, e) && Extends(b, c, PriceKind, p)
    ensures Layout(c, u, e, p)
  {
    assert forall i :: 0 <= i < |a| ==> c[i] == b[i] == a[i] by {
      forall i | 0 <= i < |a| ensures c[i] == b[i] == a[i] {
        assert c[i] == c[..|b|][i];
        assert b[i] == b[..|a|][i];
      }
    }
    assert forall i :: |a| <= i < |b| ==> c[i] == b[i] by {
      forall i | |a| <= i < |b| ensures c[i] == b[i] {
        assert c[i] == c[..|b|][i];
      }
    }
  }

  /** Every placeholder of the layout carries its own position, so no two
      coincide. */
  lemma LayoutDistinct(ps: seq<Pair>, u: seq<String>, e: seq<String>, p: seq<String>)
    requires Layout(ps, u, e, p)
    ensures DistinctKeys(ps)
  {
    assert forall i :: 0 <= i < |ps| ==> ps[i].key == Placeholder(KindAt(i, |u|, |e|), i + 1) by {
      forall i | 0 <= i < |ps| ensures ps[i].key == Placeholder(KindAt(i, |u|, |e|), i + 1) {
        if i < |u| {
          assert ps[i] == Pair(Placeholder(UrlKind, i + 1), u[i]);
        } else if i < |u| + |e| {
          assert ps[|u| + (i - |u|)] == Pair(Placeholder(EmailKind, |u| + (i - |u|) + 1), e[i - |u|]);
        } else {
          assert ps[|u| + |e| + (i - |u| - |e|)] == Pair(Placeholder(PriceKind, |u| + |e| + (i - |u| - |e|) + 1), p[i - |u| - |e|]);
        }
      }
    }
    forall i, j | 0 <= i < j < |ps| ensures ps[i].key != ps[j].key {
      if ps[i].key == ps[j].key {
        PlaceholderInjective(KindAt(i, |u|, |e|), i + 1, KindAt(j, |u|, |e|), j + 1);
      }
    }
  }

  /** With distinct keys, assigning the items one after the other gives a
      dict whose items are exactly those, in order. */
  lemma DictOfItems(ps: seq<Pair>)
    requires DistinctKeys(ps)
    ensures Items(DictOf(ps)) == ps
  {
    var d := DictOf(ps);
    forall i | 0 <= i < |ps| ensures Items(d)[i] == ps[i] {
      assert Get(d, ps[i].key) == Some(ps[i].value);
    }
  }

  /** What `protect_content` returns. */
  datatype Protected = Protected(text: String, placeholders: Dict)

  /** `protect_content`: the text after the three passes, and the dict of
      the placeholders they assigned. */
  function Protect(m: Matchers, text: String): Protected {
    var s3 := PriceStage(m, text);
    Protected(s3.text, DictOf(s3.items))
  }

  /** One shared counter from 1 across the three kinds: the placeholders are
      the URL matches of the original text, then the e-mail matches of the
      URL-protected text, then the price matches of the e-mail-protected
      text, each numbered by its position and mapped to its match. */
  lemma ProtectPlaceholders(m: Matchers, text: String)
    ensures Layout(Items(Protect(m, text).placeholders), m.url(text), m.email(UrlStage(m, text).text),
                   m.price(EmailStage(m, text).text))
  {
    var ps := PriceStage(m, text).items;
    ProtectItems(m, text);
    LayoutDistinct(ps, m.url(text), m.email(UrlStage(m, text).text), m.price(EmailStage(m, text).text));
    DictOfItems(ps);
  }

  /** A pass over a single match replaces every occurrence of it by the
      next placeholder. */
  lemma ProtectPassOne(st: Protection, kind: String, x: String)
    ensures ProtectPass(st, kind, [x]).text == ReplaceAll(st.text, x, Placeholder(kind, |st.items| + 1))
  {
    assert [x][1..] == [];
  }

  /** No matches: the text is unprotected and there are no placeholders. */
  lemma ProtectNothing(m: Matchers, text: String)
    requires m.url(text) == [] && m.email(text) == [] && m.price(text) == []
    ensures Protect(m, text) == Protected(text, Empty)
  {
  }

  /** Replacing `m` by a placeholder that starts with `⟦`, in a text without
      `⟦`, and then the placeholder by `m`, gives the text back. */
  lemma {:induction false} ReplaceAllUndo(s: String, m: String, p: String)
    requires |m| > 0 && |p| > 0 && p[0] == Placeholders.Open
    requires forall i :: 0 <= i < |s| ==> s[i] != Placeholders.Open
    ensures ReplaceAll(ReplaceAll(s, m, p), p, m) == s
    decreases |s|
  {
    if OccursAt(s, m, 0) {
      var rest := s[|m|..];
      ReplaceAllUndo(rest, m, p);
      var w := p + ReplaceAll(rest, m, p);
      assert w[..|p|] == p;
      assert w[|p|..] == ReplaceAll(rest, m, p);
      assert s == m + rest;
    } else if |s| > 0 {
      ReplaceAllUndo(s[1..], m, p);
      var w := [s[0]] + ReplaceAll(s[1..], m, p);
      assert !OccursAt(w, p, 0) by {
        if |p| <= |w| { assert w[..|p|][0] == s[0]; }
      }
      assert w[1..] == ReplaceAll(s[1..], m, p);
      assert s == [s[0]] + s[1..];
    }
  }

  /** `restore_protected_content(*protect_content(text))` gives the text
      back when a single non-empty URL is the only span protected and the
      text holds no `⟦`. */
  lemma ProtectOneRoundTrip(m: Matchers, text: String, u: String)
    requires m.url(text) == [u] && |u| > 0
    requires m.email(UrlStage(m, text).text) == [] && m.price(EmailStage(m, text).text) == []
    requires forall i :: 0 <= i < |text| ==> text[i] != Placeholders.Open
    ensures Placeholders.Restore(Protect(m, text).text, Protect(m, text).placeholders) == text
  {
    var ph := Placeholder(UrlKind, 1);
    var r := Protect(m, text);
    ProtectPassOne(Protection(text, []), UrlKind, u);
    assert UrlStage(m, text).text == ReplaceAll(text, u, ph);
    assert EmailStage(m, text) == UrlStage(m, text);
    assert PriceStage(m, text) == EmailStage(m, text);
    assert r.text == ReplaceAll(text, u, ph);
    ProtectPlaceholders(m, text);
    var ps := Items(r.placeholders);
    assert |ps| == 1 && ps[0] == Pair(ph, u);
    assert Placeholders.RestoreItems(r.text, ps) == Placeholders.RestoreItems(ReplaceAll(r.text, ph, u), ps[1..]);
    assert ps[1..] == [];
    ReplaceAllUndo(text, u, ph);
  }

  // ---------------------------------------------------------------------------
  // The chat model and batching
  // ---------------------------------------------------------------------------

  /** The four instructions the prototype sends, each naming the target
      language. */
  datatype Prompt = Batched(lang: String) | Single(lang: String) | MarkdownDoc(lang: String) | PlainDoc(lang: String)

  /** `client.chat.completions.create(…)`: the reply to an instruction and a
      user message. */
  type Chat = (Prompt, String) -> String

  const BatchLimit: nat := 5
  const BatchJoin: String := "\n---\n"
  const BatchSep: String := "---"

  /** `translate_segments_with_context`: at most five segments go in one
      request, joined by `\n---\n`, and the reply is split on `---` at each
      leftmost separator; more go one request each. */
  function TranslateSegments(segs: seq<String>, lang: String, chat: Chat): (r: seq<String>)
    ensures |segs| <= 5 ==> |r| >= 1 && Join(r, "---") == chat(Batched(lang), Join(segs, "\n---\n"))
    ensures |segs| <= 5 ==> forall k :: 0 <= k < |r| ==> !Occurs(r[k], "---")
    ensures |segs| <= 5 ==> LeftmostCuts(r, "---")
    ensures |segs| > 5 ==> |r| == |segs| && forall i :: 0 <= i < |segs| ==> r[i] == chat(Single(lang), segs[i])
  {
    if |segs| <= BatchLimit then
      var reply := chat(Batched(lang), Join(segs, BatchJoin));
      SplitCuts(reply, BatchSep);
      Split(reply, BatchSep)
    else seq(|segs|, i requires 0 <= i < |segs| => chat(Single(lang), segs[i]))
  }

  /** What splitting an echoed batch gives back: every segment but the first
      keeps the newline before its separator, every segment but the last the
      newline after. */
  function Padded(segs: seq<String>, lead: String): (r: seq<String>)
    requires |segs| >= 1
    ensures |r| == |segs|
    decreases |segs|
  {
    if |segs| == 1 then [lead + segs[0]]
    else [lead + segs[0] + "\n"] + Padded(segs[1..], "\n")
  }

  /** `Find` is the given index when `p` occurs there and nowhere before. */
  lemma FindIs(s: String, p: String, i: int)
    requires OccursAt(s, p, i)
    requires forall j :: 0 <= j < i ==> !OccursAt(s, p, j)
    ensures Find(s, p) == i
  {
    assert Occurs(s, p);
  }

  /** No `---` starts inside `lead + x + "\n"` before what follows it,
      when `x` holds none. */
  lemma NoSepBefore(lead: String, x: String, y: String)
    requires lead == "" || lead == "\n"
    requires !Occurs(x, "---")
    ensures forall j :: 0 <= j < |lead + x + "\n"| ==> !OccursAt(lead + x + "\n" + y, "---", j)
  {
    var a := lead + x + "\n";
    var s := a + y;
    forall j | 0 <= j < |a| ensures !OccursAt(s, "---", j) {
      NoSepAt(lead, x, y, j);
    }
  }

  lemma NoSepAt(lead: String, x: String, y: String, j: nat)
    requires lead == "" || lead == "\n"
    requires !Occurs(x, "---")
    requires j < |lead + x + "\n"|
    ensures !OccursAt(lead + x + "\n" + y, "---", j)
  {
    var a := lead + x + "\n";
    var s := a + y;
    if j + 3 <= |s| {
      if j >= |lead| && j + 3 <= |a| - 1 {
        assert s[j..j + 3] == x[j - |lead|..j - |lead| + 3];
        assert !OccursAt(x, "---", j - |lead|);
      } else if j < |lead| {
        assert s[j..j + 3][0] == '\n';
      } else {
        assert s[j..j + 3][|a| - 1 - j] == '\n';
      }
    }
  }

  /** Nor inside `lead + x` itself. */
  lemma NoSepIn(lead: String, x: String)
    requires lead == "" || lead == "\n"
    requires !Occurs(x, "---")
    ensures !Occurs(lead + x, "---")
  {
    var t := lead + x;
    var s := lead + x + "\n" + "";
    assert s == t + "\n";
    forall j | 0 <= j ensures !OccursAt(t, "---", j) {
      if j + 3 <= |t| {
        assert t[j..j + 3] == s[j..j + 3];
        NoSepAt(lead, x, "", j);
      }
    }
  }

  /** Splitting the joined segments on `---` gives them back padded, as long
      as no segment holds `---` itself. */
  lemma {:induction false} SplitJoined(segs: seq<String>, lead: String)
    requires |segs| >= 1
    requires lead == "" || lead == "\n"
    requires forall k :: 0 <= k < |segs| ==> !Occurs(segs[k], "---")
    ensures Split(lead + Join(segs, BatchJoin), BatchSep) == Padded(segs, lead)
    decreases |segs|
  {
    if |segs| == 1 {
      NoSepIn(lead, segs[0]);
    } else {
      var a := lead + segs[0] + "\n";
      var y := "\n" + Join(segs[1..], BatchJoin);
      var s := lead + Join(segs, BatchJoin);
      assert s == a + "---" + y;
      NoSepBefore(lead, segs[0], "---" + y);
      assert a + "---" + y == a + ("---" + y);
      assert OccursAt(s, "---", |a|) by { assert s[|a|..|a| + 3] == "---"; }
      FindIs(s, "---", |a|);
      assert s[..|a|] == a;
      assert s[|a| + 3..] == y;
      SplitJoined(segs[1..], "\n");
    }
  }

  /** A model that echoes its input makes a batch of one to five segments
      come back as that many pieces, padded with the newlines of the
      separator. */
  lemma EchoBatch(segs: seq<String>, lang: String, chat: Chat)
    requires forall pr, c :: chat(pr, c) == c
    requires 1 <= |segs| <= 5
    requires forall k :: 0 <= k < |segs| ==> !Occurs(segs[k], "---")
    ensures TranslateSegments(segs, lang, chat) == Padded(segs, "")
  {
    SplitJoined(segs, "");
    assert "" + Join(segs, BatchJoin) == Join(segs, BatchJoin);
  }

  /** A segment that holds `---` splits into two pieces, so the pieces no
      longer line up with the segments. */
  lemma SeparatorInSegment(chat: Chat, lang: String)
    requires forall pr, c :: chat(pr, c) == c
    ensures TranslateSegments(["a---b"], lang, chat) == ["a", "b"]
  {
    var s := "a---b";
    assert Join(["a---b"], BatchJoin) == s;
    assert OccursAt(s, "---", 1);
    assert !OccursAt(s, "---", 0) by { assert s[0..3][0] == 'a'; }
    FindIs(s, "---", 1);
    assert s[..1] == "a" && s[4..] == "b";
    assert !Occurs("b", "---");
  }

  // ---------------------------------------------------------------------------
  // The HTML path
  // ---------------------------------------------------------------------------

  /** `r` is `s[a..b]` with only whitespace before `a` and from `b` on. */
  predicate Trimmed(s: String, r: String) {
    exists a, b :: 0 <= a <= b <= |s| && r == s[a..b]
      && (forall j :: 0 <= j < a ==> IsSpace(s[j]))
      && (forall j :: b <= j < |s| ==> IsSpace(s[j]))
  }

  /** A leading whitespace character widens the trimmed margin. */
  lemma TrimmedFront(s: String, r: String)
    requires |s| > 0 && IsSpace(s[0]) && Trimmed(s[1..], r)
    ensures Trimmed(s, r)
  {
    var a, b :| 0 <= a <= b <= |s[1..]| && r == s[1..][a..b]
      && (forall j :: 0 <= j < a ==> IsSpace(s[1..][j]))
      && (forall j :: b <= j < |s[1..]| ==> IsSpace(s[1..][j]));
    assert r == s[a + 1..b + 1];
    assert forall j :: 1 <= j < a + 1 ==> s[j] == s[1..][j - 1];
    assert forall j :: b + 1 <= j < |s| ==> s[j] == s[1..][j - 1];
  }

  /** A trailing whitespace character widens the trimmed margin. */
  lemma TrimmedBack(s: String, r: String)
    requires |s| > 0 && IsSpace(s[|s| - 1]) && Trimmed(s[..|s| - 1], r)
    ensures Trimmed(s, r)
  {
    var t := s[..|s| - 1];
    var a, b :| 0 <= a <= b <= |t| && r == t[a..b]
      && (forall j :: 0 <= j < a ==> IsSpace(t[j]))
      && (forall j :: b <= j < |t| ==> IsSpace(t[j]));
    assert r == s[a..b];
  }

  /** `s.strip()`: `s` without its leading and trailing whitespace. */
  function Strip(s: String): (r: String)
    ensures IsBlank(s) <==> |r| == 0
    ensures |r| > 0 ==> !IsSpace(r[0]) && !IsSpace(r[|r| - 1])
    ensures Trimmed(s, r)
    decreases |s|
  {
    if |s| == 0 then
      assert s == s[0..0];
      s
    else if IsSpace(s[0]) then
      var r := Strip(s[1..]);
      TrimmedFront(s, r);
      r
    else if IsSpace(s[|s| - 1]) then
      var r := Strip(s[..|s| - 1]);
      TrimmedBack(s, r);
      r
    else
      assert s == s[0..|s|];
      s
  }

  /** What html.parser and BeautifulSoup provide: the strings of the
      document in order, as `find_all(text=True)` lists them, and `str(soup)`
      once each string has been replaced by the one at its position. */
  datatype Soup = Soup(strings: String -> seq<String>, render: (String, seq<String>) -> String)

  /** The positions of the strings `translate_html` keeps as segments: those
      that are not blank, in document order. */
  function Kept(strs: seq<String>, j: nat): (ks: seq<nat>)
    requires j <= |strs|
    ensures forall i :: 0 <= i < |ks| ==> j <= ks[i] < |strs| && !IsBlank(strs[ks[i]])
    ensures forall a, b :: 0 <= a < b < |ks| ==> ks[a] < ks[b]
    decreases |strs| - j
  {
    if j == |strs| then []
    else if IsBlank(strs[j]) then Kept(strs, j + 1)
    else [j] + Kept(strs, j + 1)
  }

  /** Every string that is not blank is kept. */
  lemma {:induction false} KeptComplete(strs: seq<String>, j: nat, x: nat)
    requires j <= x < |strs| && !IsBlank(strs[x])
    ensures x in Kept(strs, j)
    decreases x - j
  {
    if x != j {
      KeptComplete(strs, j + 1, x);
    }
  }

  /** The stripped text of each kept string. */
  function Originals(strs: seq<String>, ks: seq<nat>): (os: seq<String>)
    requires forall i :: 0 <= i < |ks| ==> ks[i] < |strs|
    ensures |os| == |ks|
    ensures forall i :: 0 <= i < |ks| ==> os[i] == Strip(strs[ks[i]])
  {
    seq(|ks|, i requires 0 <= i < |ks| => Strip(strs[ks[i]]))
  }

  /** `protect_content` of each segment: its protected text and its
      placeholders, position by position. */
  function Protections(os: seq<String>, m: Matchers): (ps: seq<Protected>)
    ensures |ps| == |os|
    ensures forall i :: 0 <= i < |os| ==> ps[i] == Protect(m, os[i])
  {
    seq(|os|, i requires 0 <= i < |os| => Protect(m, os[i]))
  }

  function Texts(ps: seq<Protected>): (ts: seq<String>)
    ensures |ts| == |ps|
    ensures forall i :: 0 <= i < |ps| ==> ts[i] == ps[i].text
  {
    seq(|ps|, i requires 0 <= i < |ps| => ps[i].text)
  }

  /** Positions in range and strictly increasing, as `Kept` produces them. */
  predicate Placed(strs: seq<String>, ks: seq<nat>) {
    && (forall k :: 0 <= k < |ks| ==> ks[k] < |strs|)
    && (forall a, b :: 0 <= a < b < |ks| ==> ks[a] < ks[b])
  }

  /** The translations restored with the placeholders of their own
      segment, for the segments that have a translation. */
  function Restored(tr: seq<String>, ps: seq<Protected>): (outs: seq<String>)
    ensures |outs| == if |tr| < |ps| then |tr| else |ps|
    ensures forall k :: 0 <= k < |outs| ==> outs[k] == Placeholders.Restore(tr[k], ps[k].placeholders)
  {
    var n := if |tr| < |ps| then |tr| else |ps|;
    seq(n, k requires 0 <= k < n => Placeholders.Restore(tr[k], ps[k].placeholders))
  }

  /** The loop of `translate_html` from segment `i` on: a segment is
      replaced by its restored translation only when there is one at its
      position. */
  function Replaced(strs: seq<String>, ks: seq<nat>, outs: seq<String>, i: nat): (r: seq<String>)
    requires i <= |ks| && Placed(strs, ks)
    ensures |r| == |strs|
    decreases |ks| - i
  {
    if i == |ks| then strs
    else if i < |outs| then Replaced(strs[ks[i] := outs[i]], ks, outs, i + 1)
    else Replaced(strs, ks, outs, i + 1)
  }

  /** A string no replaced segment sits on keeps its text. */
  lemma {:induction false} ReplacedElsewhere(strs: seq<String>, ks: seq<nat>, outs: seq<String>, i: nat, x: nat)
    requires i <= |ks| && Placed(strs, ks) && x < |strs|
    requires forall k :: i <= k < |ks| && k < |outs| ==> ks[k] != x
    ensures Replaced(strs, ks, outs, i)[x] == strs[x]
    decreases |ks| - i
  {
    if i < |ks| {
      if i < |outs| {
        ReplacedElsewhere(strs[ks[i] := outs[i]], ks, outs, i + 1, x);
      } else {
        ReplacedElsewhere(strs, ks, outs, i + 1, x);
      }
    }
  }

  /** Every segment with a restored translation gets it. */
  lemma {:induction false} ReplacedAt(strs: seq<String>, ks: seq<nat>, outs: seq<String>, i: nat, k: nat)
    requires i <= k < |ks| && k < |outs| && Placed(strs, ks)
    ensures Replaced(strs, ks, outs, i)[ks[k]] == outs[k]
    decreases |ks| - i
  {
    var next := strs[ks[i] := outs[i]];
    if k == i {
      ReplacedElsewhere(next, ks, outs, i + 1, ks[k]);
    } else {
      ReplacedAt(next, ks, outs, i + 1, k);
    }
  }

  /** The whole loop: strings off the segments, and segments past the last
      translation, keep their text; the others get their restored
      translation. */
  lemma ReplacedAll(strs: seq<String>, ks: seq<nat>, outs: seq<String>)
    requires Placed(strs, ks)
    ensures var r := Replaced(strs, ks, outs, 0);
      && (forall x :: 0 <= x < |strs| && x !in ks ==> r[x] == strs[x])
      && (forall k :: 0 <= k < |ks| && k < |outs| ==> r[ks[k]] == outs[k])
      && (forall k :: 0 <= k < |ks| && k >= |outs| ==> r[ks[k]] == strs[ks[k]])
  {
    forall x | 0 <= x < |strs| && x !in ks ensures Replaced(strs, ks, outs, 0)[x] == strs[x] {
      ReplacedElsewhere(strs, ks, outs, 0, x);
    }
    forall k | 0 <= k < |ks| && k < |outs| ensures Replaced(strs, ks, outs, 0)[ks[k]] == outs[k] {
      ReplacedAt(strs, ks, outs, 0, k);
    }
    forall k | 0 <= k < |ks| && k >= |outs| ensures Replaced(strs, ks, outs, 0)[ks[k]] == strs[ks[k]] {
      ReplacedElsewhere(strs, ks, outs, 0, ks[k]);
    }
  }

  /** The strings after `translate_html`'s loop. */
  function NewStrings(strs: seq<String>, lang: String, chat: Chat, m: Matchers): (r: seq<String>)
    ensures |r| == |strs|
  {
    var ks := Kept(strs, 0);
    var ps := Protections(Originals(strs, ks), m);
    if |ks| == 0 then strs
    else Replaced(strs, ks, Restored(TranslateSegments(Texts(ps), lang, chat), ps), 0)
  }

  /** Blank strings, and the segments past the last translation, keep their
      text; every other string becomes its translation, restored with the
      placeholders of its own stripped text. */
  lemma NewStringsReplace(strs: seq<String>, lang: String, chat: Chat, m: Matchers)
    ensures var ks := Kept(strs, 0);
      var ps := Protections(Originals(strs, ks), m);
      var tr := TranslateSegments(Texts(ps), lang, chat);
      var r := NewStrings(strs, lang, chat, m);
      && (forall x :: 0 <= x < |strs| && IsBlank(strs[x]) ==> r[x] == strs[x])
      && (forall k :: 0 <= k < |ks| && k < |tr| ==>
            r[ks[k]] == Placeholders.Restore(tr[k], Protect(m, Strip(strs[ks[k]])).placeholders))
      && (forall k :: 0 <= k < |ks| && k >= |tr| ==> r[ks[k]] == strs[ks[k]])
  {
    var ks := Kept(strs, 0);
    var ps := Protections(Originals(strs, ks), m);
    var tr := TranslateSegments(Texts(ps), lang, chat);
    if |ks| > 0 {
      ReplacedOutcome(strs, ks, ps, tr, m);
    }
  }

  /** The loop over non-blank positions with their own protections. */
  lemma ReplacedOutcome(strs: seq<String>, ks: seq<nat>, ps: seq<Protected>, tr: seq<String>, m: Matchers)
    requires Placed(strs, ks) && |ps| == |ks|
    requires forall k :: 0 <= k < |ks| ==> !IsBlank(strs[ks[k]]) && ps[k] == Protect(m, Strip(strs[ks[k]]))
    ensures var r := Replaced(strs, ks, Restored(tr, ps), 0);
      && (forall x :: 0 <= x < |strs| && IsBlank(strs[x]) ==> r[x] == strs[x])
      && (forall k :: 0 <= k < |ks| && k < |tr| ==>
            r[ks[k]] == Placeholders.Restore(tr[k], Protect(m, Strip(strs[ks[k]])).placeholders))
      && (forall k :: 0 <= k < |ks| && k >= |tr| ==> r[ks[k]] == strs[ks[k]])
  {
    var outs := Restored(tr, ps);
    ReplacedAll(strs, ks, outs);
    forall x | 0 <= x < |strs| && IsBlank(strs[x]) ensures x !in ks {
      assert forall k :: 0 <= k < |ks| ==> ks[k] != x;
    }
  }

  /** `translate_html`: the document rendered with its new strings. */
  function TranslateHtml(html: String, lang: String, chat: Chat, m: Matchers, soup: Soup): String {
    soup.render(html, NewStrings(soup.strings(html), lang, chat, m))
  }

  /** `translate_markdown` and `translate_text`: the protected text in one
      request, the reply restored. */
  function TranslateWhole(text: String, prompt: Prompt, chat: Chat, m: Matchers): String {
    var p := Protect(m, text);
    Placeholders.Restore(chat(prompt, p.text), p.placeholders)
  }

  /** `translate_content`: the mock answer without a key, otherwise the path
      of the detected format. */
  function TranslateContent(text: String, lang: String, argKey: Option<String>, envKey: Option<String>,
                            chat: Chat, m: Matchers, soup: Soup): (r: String)
    ensures !HasKey(argKey, envKey) ==> r == MockResult(lang, text)
    ensures HasKey(argKey, envKey) && HasTag(text) ==> r == TranslateHtml(text, lang, chat, m, soup)
    ensures HasKey(argKey, envKey) && !HasTag(text) ==>
      r == TranslateWhole(text, if HasMarkdownPattern(text) then MarkdownDoc(lang) else PlainDoc(lang), chat, m)
  {
    if !HasKey(argKey, envKey) then MockResult(lang, text)
    else
      var format := DetectFormat(text);
      if format == FormatDetection.HtmlName then TranslateHtml(text, lang, chat, m, soup)
      else if format == FormatDetection.MarkdownName then TranslateWhole(text, MarkdownDoc(lang), chat, m)
      else TranslateWhole(text, PlainDoc(lang), chat, m)
  }

  // ---------------------------------------------------------------------------
  // End-to-end properties
  // ---------------------------------------------------------------------------

  /** Without a key nothing is detected, protected or sent: even HTML comes
      back behind the mock prefix. */
  lemma NoKeyIsMock(text: String, lang: String, chat: Chat, m: Matchers, soup: Soup)
    ensures TranslateContent(text, lang, None, None, chat, m, soup) == MockResult(lang, text)
    ensures TranslateContent(text, lang, Some(""), None, chat, m, soup) == MockResult(lang, text)
  {
  }

  /** With an echoing model, a Markdown or plain text with a single URL to
      protect and no `⟦` comes back unchanged. */
  lemma EchoWholeRoundTrip(text: String, lang: String, key: String, chat: Chat, m: Matchers, soup: Soup, u: String)
    requires forall pr, c :: chat(pr, c) == c
    requires |key| > 0 && !HasTag(text)
    requires m.url(text) == [u] && |u| > 0
    requires m.email(UrlStage(m, text).text) == [] && m.price(EmailStage(m, text).text) == []
    requires forall i :: 0 <= i < |text| ==> text[i] != Placeholders.Open
    ensures TranslateContent(text, lang, Some(key), None, chat, m, soup) == text
  {
    ProtectOneRoundTrip(m, text, u);
  }

  /** With an echoing model and nothing to protect, a document with one to
      five non-blank strings, none holding `---`, gets each of them back
      stripped and padded with the separator's newlines. */
  lemma EchoHtmlPads(strs: seq<String>, lang: String, chat: Chat, m: Matchers)
    requires forall pr, c :: chat(pr, c) == c
    requires forall t :: m.url(t) == [] && m.email(t) == [] && m.price(t) == []
    requires var os := Originals(strs, Kept(strs, 0));
      1 <= |os| <= 5 && forall k :: 0 <= k < |os| ==> !Occurs(os[k], "---")
    ensures var ks := Kept(strs, 0);
      var r := NewStrings(strs, lang, chat, m);
      forall k :: 0 <= k < |ks| ==> r[ks[k]] == Padded(Originals(strs, ks), "")[k]
  {
    var ks := Kept(strs, 0);
    var os := Originals(strs, ks);
    var ps := Protections(os, m);
    forall k | 0 <= k < |ks| ensures ps[k] == Protected(os[k], Empty) {
      ProtectNothing(m, os[k]);
    }
    assert Texts(ps) == os;
    EchoBatch(os, lang, chat);
    NewStringsReplace(strs, lang, chat, m);
  }
}

=== FILE: providers.dfy ===
/** The translation providers' pure logic: the mock provider, and the
    post-processing of the OpenAI provider around its network call (the
    punctuation split, the reading of the reply into a mapping, the
    back-fill of missing ids). The call itself is an input: what came back,
    if anything, and the usage it reported. */
module Providers {
  import opened Wrappers
  import opened Text
  import opened Dicts
  import opened Models

  /** What `translate_segments` returns: the id→text mapping, the usage and
      the detected language. */
  datatype Outcome = Outcome(translations: Dict, usage: Usage, detected: String)

  // ---------------------------------------------------------------------------
  // MockProvider
  // ---------------------------------------------------------------------------

  /** `f"[{target_lang.upper()}] {text}"`. */
  function MockText(targetLang: String, text: String): (r: String)
    ensures StartsWith(r, "[" + Upper(targetLang) + "] ") && EndsWith(r, text)
    ensures |r| == |targetLang| + 3 + |text| && r[|targetLang| + 3..] == text
  {
    var head := "[" + Upper(targetLang) + "] ";
    assert (head + text)[..|head|] == head;
    assert (head + text)[|head|..] == text;
    head + text
  }

  const MockUsage: Usage := Usage(10, 15)
  const MockDetected: String := "en"

  /** `MockProvider.translate_segments`: every segment's text behind the
      upper-cased target language; fixed usage and detected language. The
      source language, brand guide and glossary are not consulted. */
  function MockTranslate(segs: seq<Segment>, targetLang: String, sourceLang: String,
                         brandGuide: Dict, glossary: Dict): (r: Outcome)
    ensures forall k :: Has(r.translations, k) <==> k in Ids(segs)
    ensures forall j :: 0 <= j < |segs| && (forall m :: j < m < |segs| ==> segs[m].id != segs[j].id) ==>
      Get(r.translations, segs[j].id) == Some(MockText(targetLang, segs[j].text))
    ensures r.usage == Usage(10, 15) && r.detected == "en"
  {
    Outcome(MapSegments(segs, t => MockText(targetLang, t)), MockUsage, MockDetected)
  }

  /** No segments, no translations. */
  lemma MockEmpty(targetLang: String, sourceLang: String, brandGuide: Dict, glossary: Dict)
    ensures MockTranslate([], targetLang, sourceLang, brandGuide, glossary).translations == Empty
  {
  }

  /** The result depends on the segments and the target language only. */
  lemma MockIgnoresGuides(segs: seq<Segment>, targetLang: String, s1: String, s2: String,
                          b1: Dict, b2: Dict, g1: Dict, g2: Dict)
    ensures MockTranslate(segs, targetLang, s1, b1, g1) == MockTranslate(segs, targetLang, s2, b2, g2)
  {
  }

  /** `{"id": "t1", "text": "Hello"}` into `fr` gives `[FR] Hello`. */
  lemma MockExample()
    ensures Get(MockTranslate([Segment("t1", "Hello")], "fr", "auto", Empty, Empty).translations, "t1")
      == Some("[FR] Hello")
  {
    assert Upper("fr") == "FR";
    assert MockText("fr", "Hello") == "[FR] Hello";
    var segs := [Segment("t1", "Hello")];
    assert segs[0].id == "t1";
  }

  // ---------------------------------------------------------------------------
  // OpenAIProvider: the punctuation split
  // ---------------------------------------------------------------------------

  /** `string.punctuation`. */
  const Punctuation: String := "!\"#$%&'()*+,-./:;<=>?@[\\]^_`{|}~"

  /** A character of `string.punctuation`: the four runs of printable ASCII
      that are neither letters, digits nor space. */
  predicate IsPunct(c: char) {
    ('!' <= c <= '/') || (':' <= c <= '@') || ('[' <= c <= '`') || ('{' <= c <= '~')
  }

  lemma PunctuationRuns()
    ensures |Punctuation| == 32
    ensures forall i :: 0 <= i < |Punctuation| ==> IsPunct(Punctuation[i])
  {
  }

  /** `is_only_punctuation`: every character is punctuation or whitespace,
      and something other than whitespace is left after stripping. */
  predicate IsOnlyPunctuation(t: String) {
    (forall i :: 0 <= i < |t| ==> IsPunct(t[i]) || IsSpace(t[i])) && !IsBlank(t)
  }

  /** The punctuation-only segments, in order. */
  function PunctSegments(segs: seq<Segment>): (r: seq<Segment>)
    ensures forall g :: g in r <==> g in segs && IsOnlyPunctuation(g.text)
    decreases |segs|
  {
    if |segs| == 0 then []
    else
      var rest := PunctSegments(segs[1..]);
      assert forall g :: g in segs <==> g == segs[0] || g in segs[1..];
      if IsOnlyPunctuation(segs[0].text) then [segs[0]] + rest else rest
  }

  /** `translatable_segments`: the others, in order. */
  function TranslatableSegments(segs: seq<Segment>): (r: seq<Segment>)
    ensures forall g :: g in r <==> g in segs && !IsOnlyPunctuation(g.text)
    decreases |segs|
  {
    if |segs| == 0 then []
    else
      var rest := TranslatableSegments(segs[1..]);
      assert forall g :: g in segs <==> g == segs[0] || g in segs[1..];
      if IsOnlyPunctuation(segs[0].text) then rest else [segs[0]] + rest
  }

  /** `punctuation_segments`: id → own text for the punctuation-only
      segments. */
  function PunctMap(segs: seq<Segment>): Dict {
    MapSegments(PunctSegments(segs), t => t)
  }

  // ---------------------------------------------------------------------------
  // OpenAIProvider: the reply
  // ---------------------------------------------------------------------------

  /** One entry of the reply's `translations` list, with whichever of `id`
      and `text` it has. */
  datatype Record = Record(id: Option<String>, text: Option<String>)

  /** The decoded reply: its translation entries and `detected_language`. */
  datatype Reply = Reply(records: seq<Record>, detected: Option<String>)

  /** What the network call produced: both attempts raised, or a reply with
      its reported usage and the decoded object, `None` when neither the
      whole text nor a `{…}` part of it decodes. */
  datatype Call = Failed | Answered(usage: Usage, reply: Option<Reply>)

  /** `{"translations": [], "detected_language": "auto"}`. */
  const DefaultReply: Reply := Reply([], Some("auto"))
  const NoUsage: Usage := Usage(0, 0)
  const Auto: String := "auto"

  /** The entries that have both an `id` and a `text`, in order. */
  function CompleteSegments(recs: seq<Record>): (segs: seq<Segment>)
    ensures forall g :: g in segs <==> Record(Some(g.id), Some(g.text)) in recs
    decreases |recs|
  {
    if |recs| == 0 then []
    else
      var rest := CompleteSegments(recs[1..]);
      assert forall x :: x in recs <==> x == recs[0] || x in recs[1..];
      if recs[0].id.Some? && recs[0].text.Some? then [Segment(recs[0].id.value, recs[0].text.value)] + rest
      else rest
  }

  /** `{t["id"]: t["text"] for t in trans_list if "id" in t and "text" in t}`. */
  function ReplyMapping(recs: seq<Record>): Dict {
    MapSegments(CompleteSegments(recs), t => t)
  }

  /** The call is made only with a client and something to translate. */
  predicate Attempted(segs: seq<Segment>, client: bool) {
    client && |TranslatableSegments(segs)| > 0
  }

  /** The decoded object the post-processing reads. */
  function ReplyOf(segs: seq<Segment>, client: bool, call: Call): Reply {
    if Attempted(segs, client) && call.Answered? then call.reply.GetOr(DefaultReply) else DefaultReply
  }

  /** The missing ids back-filled: each segment whose id is not yet a key
      adds its own text, so the first segment of an id wins. */
  function Backfill(m: Dict, segs: seq<Segment>): (r: Dict)
    ensures forall k :: Has(r, k) <==> Has(m, k) || k in Ids(segs)
    ensures forall k :: Has(m, k) ==> Get(r, k) == Get(m, k)
    ensures forall j :: 0 <= j < |segs| && !Has(m, segs[j].id) && (forall i :: 0 <= i < j ==> segs[i].id != segs[j].id) ==>
      Get(r, segs[j].id) == Some(segs[j].text)
    decreases |segs|
  {
    if |segs| == 0 then m
    else
      var g := segs[0];
      var m' := if Has(m, g.id) then m else Put(m, g.id, g.text);
      var r := Backfill(m', segs[1..]);
      BackfillStep(m, segs, m', r);
      r
  }

  /** Back-filling the first segment, then the rest. */
  lemma BackfillStep(m: Dict, segs: seq<Segment>, m': Dict, r: Dict)
    requires |segs| > 0
    requires m' == if Has(m, segs[0].id) then m else Put(m, segs[0].id, segs[0].text)
    requires var tail := segs[1..];
      && (forall k :: Has(r, k) <==> Has(m', k) || k in Ids(tail))
      && (forall k :: Has(m', k) ==> Get(r, k) == Get(m', k))
      && (forall j :: 0 <= j < |tail| && !Has(m', tail[j].id) && (forall i :: 0 <= i < j ==> tail[i].id != tail[j].id) ==>
            Get(r, tail[j].id) == Some(tail[j].text))
    ensures forall k :: Has(r, k) <==> Has(m, k) || k in Ids(segs)
    ensures forall k :: Has(m, k) ==> Get(r, k) == Get(m, k)
    ensures forall j :: 0 <= j < |segs| && !Has(m, segs[j].id) && (forall i :: 0 <= i < j ==> segs[i].id != segs[j].id) ==>
      Get(r, segs[j].id) == Some(segs[j].text)
  {
    BackfillStepKeys(m, segs, m', r);
    var g := segs[0];
    forall j | 0 <= j < |segs| && !Has(m, segs[j].id) && (forall i :: 0 <= i < j ==> segs[i].id != segs[j].id)
      ensures Get(r, segs[j].id) == Some(segs[j].text)
    {
      if j == 0 {
        assert Has(m', g.id);
      } else {
        BackfillStepAt(m, segs, m', r, j);
      }
    }
  }

  /** The keys after back-filling the first segment, then the rest. */
  lemma BackfillStepKeys(m: Dict, segs: seq<Segment>, m': Dict, r: Dict)
    requires |segs| > 0
    requires m' == if Has(m, segs[0].id) then m else Put(m, segs[0].id, segs[0].text)
    requires forall k :: Has(r, k) <==> Has(m', k) || k in Ids(segs[1..])
    requires forall k :: Has(m', k) ==> Get(r, k) == Get(m', k)
    ensures forall k :: Has(r, k) <==> Has(m, k) || k in Ids(segs)
    ensures forall k :: Has(m, k) ==> Get(r, k) == Get(m, k)
  {
    var g := segs[0];
    assert Ids(segs) == [g.id] + Ids(segs[1..]);
    forall k ensures Has(m', k) <==> Has(m, k) || k == g.id {
      assert Has(m', k) <==> Get(m', k).Some?;
      assert Has(m, k) <==> Get(m, k).Some?;
    }
  }

  /** A later segment whose id is new to both the head and `m`. */
  lemma BackfillStepAt(m: Dict, segs: seq<Segment>, m': Dict, r: Dict, j: nat)
    requires 0 < j < |segs|
    requires m' == if Has(m, segs[0].id) then m else Put(m, segs[0].id, segs[0].text)
    requires !Has(m, segs[j].id) && forall i :: 0 <= i < j ==> segs[i].id != segs[j].id
    requires var tail := segs[1..];
      forall j :: 0 <= j < |tail| && !Has(m', tail[j].id) && (forall i :: 0 <= i < j ==> tail[i].id != tail[j].id) ==>
        Get(r, tail[j].id) == Some(tail[j].text)
    ensures Get(r, segs[j].id) == Some(segs[j].text)
  {
    var tail := segs[1..];
    assert tail[j - 1] == segs[j];
    forall i | 0 <= i < j - 1 ensures tail[i].id != tail[j - 1].id {
      assert tail[i] == segs[i + 1];
    }
    assert segs[0].id != segs[j].id;
    assert Get(m', segs[j].id) == Get(m, segs[j].id);
  }

  /** When every segment with id `k` carries the text `t` and `k` is not yet
      a key, the back-filled mapping holds `t` at `k`. */
  lemma {:induction false} BackfillUniform(m: Dict, segs: seq<Segment>, k: String, t: String)
    requires !Has(m, k) && k in Ids(segs)
    requires forall g :: g in segs && g.id == k ==> g.text == t
    ensures Get(Backfill(m, segs), k) == Some(t)
    decreases |segs|
  {
    var g := segs[0];
    assert g in segs;
    assert Ids(segs) == [g.id] + Ids(segs[1..]);
    if g.id != k {
      var m' := if Has(m, g.id) then m else Put(m, g.id, g.text);
      assert forall h :: h in segs[1..] ==> h in segs;
      BackfillUniform(m', segs[1..], k, t);
    }
  }

  /** The ids of the segments are those of the two parts. */
  lemma IdsPartition(segs: seq<Segment>)
    ensures forall k :: k in Ids(segs) <==> k in Ids(PunctSegments(segs)) || k in Ids(TranslatableSegments(segs))
  {
    forall k ensures k in Ids(segs) <==> k in Ids(PunctSegments(segs)) || k in Ids(TranslatableSegments(segs)) {
      IdsMember(segs, k);
      IdsMember(PunctSegments(segs), k);
      IdsMember(TranslatableSegments(segs), k);
    }
  }

  /** `OpenAIProvider.translate_segments` after the call: the reply read
      into a mapping, the translatable segments back-filled, and the
      punctuation-only segments written over it with their own text. */
  function OpenAITranslate(segs: seq<Segment>, client: bool, call: Call): (r: Outcome)
    ensures forall k :: Has(PunctMap(segs), k) ==> Get(r.translations, k) == Get(PunctMap(segs), k)
    ensures r.detected == ReplyOf(segs, client, call).detected.GetOr(Auto)
    ensures !Attempted(segs, client) || call.Failed? ==> r.usage == NoUsage && r.detected == Auto
    ensures Attempted(segs, client) && call.Answered? ==> r.usage == call.usage
  {
    var punct := PunctMap(segs);
    var tsegs := TranslatableSegments(segs);
    var reply := ReplyOf(segs, client, call);
    var usage := if Attempted(segs, client) && call.Answered? then call.usage else NoUsage;
    var mapping := ReplyMapping(reply.records);
    var filled := Backfill(mapping, tsegs);
    Outcome(Update(filled, punct), usage, reply.detected.GetOr(Auto))
  }

  // ---------------------------------------------------------------------------
  // Properties of the OpenAI post-processing
  // ---------------------------------------------------------------------------

  /** The keys of the result are the input ids and the ids the reply
      covers. */
  lemma OpenAIKeys(segs: seq<Segment>, client: bool, call: Call)
    ensures forall k :: Has(OpenAITranslate(segs, client, call).translations, k) <==>
      k in Ids(segs) || Has(ReplyMapping(ReplyOf(segs, client, call).records), k)
  {
    var punct := PunctMap(segs);
    var filled := Backfill(ReplyMapping(ReplyOf(segs, client, call).records), TranslatableSegments(segs));
    var r := OpenAITranslate(segs, client, call).translations;
    assert r == Update(filled, punct);
    IdsPartition(segs);
    forall k ensures Has(r, k) <==> Has(filled, k) || Has(punct, k) {
      assert Get(r, k) == if Has(punct, k) then Get(punct, k) else Get(filled, k);
    }
  }

  /** Ids the reply carries beyond the input come through unchanged. */
  lemma ExtraIdsKept(segs: seq<Segment>, client: bool, call: Call, k: String)
    requires k !in Ids(segs)
    ensures Get(OpenAITranslate(segs, client, call).translations, k)
      == Get(ReplyMapping(ReplyOf(segs, client, call).records), k)
  {
    IdsPartition(segs);
  }

  /** Every input id is a key of the result. */
  lemma EveryIdAnswered(segs: seq<Segment>, client: bool, call: Call)
    ensures forall g :: g in segs ==> Has(OpenAITranslate(segs, client, call).translations, g.id)
  {
    OpenAIKeys(segs, client, call);
    IdsContain(segs);
  }

  /** Every segment is either punctuation-only or translatable. */
  lemma Partition(segs: seq<Segment>, g: Segment)
    requires g in segs
    ensures g in PunctSegments(segs) <==> g !in TranslatableSegments(segs)
  {
  }

  /** A punctuation-only segment whose id is carried by no other
      punctuation-only text maps to its own text, whatever the reply says. */
  lemma PunctuationKept(segs: seq<Segment>, client: bool, call: Call, g: Segment)
    requires g in segs && IsOnlyPunctuation(g.text)
    requires forall h :: h in segs && h.id == g.id && IsOnlyPunctuation(h.text) ==> h.text == g.text
    ensures Get(OpenAITranslate(segs, client, call).translations, g.id) == Some(g.text)
  {
    IdsMember(PunctSegments(segs), g.id);
    MapSegmentsUniform(PunctSegments(segs), t => t, g.id, g.text);
  }

  /** A translatable segment the reply covers takes the reply's text, unless
      a punctuation-only segment carries the same id. */
  lemma ReplyWins(segs: seq<Segment>, client: bool, call: Call, g: Segment)
    requires g in TranslatableSegments(segs)
    requires Has(ReplyMapping(ReplyOf(segs, client, call).records), g.id)
    requires g.id !in Ids(PunctSegments(segs))
    ensures Get(OpenAITranslate(segs, client, call).translations, g.id)
      == Get(ReplyMapping(ReplyOf(segs, client, call).records), g.id)
  {
  }

  /** A translatable segment the reply misses keeps its own text, when its
      id is unambiguous among the segments. */
  lemma MissingBackfilled(segs: seq<Segment>, client: bool, call: Call, g: Segment)
    requires g in segs && !IsOnlyPunctuation(g.text)
    requires forall h :: h in segs && h.id == g.id ==> h == g
    requires !Has(ReplyMapping(ReplyOf(segs, client, call).records), g.id)
    ensures Get(OpenAITranslate(segs, client, call).translations, g.id) == Some(g.text)
  {
    var tsegs := TranslatableSegments(segs);
    IdsMember(tsegs, g.id);
    IdsMember(PunctSegments(segs), g.id);
    BackfillUniform(ReplyMapping(ReplyOf(segs, client, call).records), tsegs, g.id, g.text);
  }

  /** With no reply to read (no client, nothing to translate, both calls
      failed, or nothing decodable), the mapping is the identity on segments
      with distinct ids. */
  lemma NoReplyIdentity(segs: seq<Segment>, client: bool, call: Call, g: Segment)
    requires DistinctIds(segs) && g in segs
    requires ReplyOf(segs, client, call).records == []
    ensures Get(OpenAITranslate(segs, client, call).translations, g.id) == Some(g.text)
  {
    forall h | h in segs && h.id == g.id ensures h == g {
      var i :| 0 <= i < |segs| && segs[i] == h;
      var j :| 0 <= j < |segs| && segs[j] == g;
      assert i == j;
    }
    if IsOnlyPunctuation(g.text) {
      PunctuationKept(segs, client, call, g);
    } else {
      assert CompleteSegments([]) == [];
      MissingBackfilled(segs, client, call, g);
    }
  }

  /** With nothing to translate no call is made: no usage, `auto`, and every
      segment maps to its own text. */
  lemma NothingToTranslate(segs: seq<Segment>, client: bool, call: Call)
    requires DistinctIds(segs)
    requires forall g :: g in segs ==> IsOnlyPunctuation(g.text)
    ensures OpenAITranslate(segs, client, call).usage == Usage(0, 0)
    ensures OpenAITranslate(segs, client, call).detected == "auto"
    ensures forall g :: g in segs ==> Get(OpenAITranslate(segs, client, call).translations, g.id) == Some(g.text)
  {
    if |TranslatableSegments(segs)| > 0 {
      assert TranslatableSegments(segs)[0] in TranslatableSegments(segs);
      assert false;
    }
    forall g | g in segs ensures Get(OpenAITranslate(segs, client, call).translations, g.id) == Some(g.text) {
      NoReplyIdentity(segs, client, call, g);
    }
  }

  /** Both calls failing gives no usage, `auto`, and the identity. */
  lemma BothCallsFailed(segs: seq<Segment>, client: bool)
    requires DistinctIds(segs)
    ensures OpenAITranslate(segs, client, Failed).usage == Usage(0, 0)
    ensures OpenAITranslate(segs, client, Failed).detected == "auto"
    ensures forall g :: g in segs ==> Get(OpenAITranslate(segs, client, Failed).translations, g.id) == Some(g.text)
  {
    forall g | g in segs ensures Get(OpenAITranslate(segs, client, Failed).translations, g.id) == Some(g.text) {
      NoReplyIdentity(segs, client, Failed, g);
    }
  }

  /** A reply with no JSON object gives the identity and `auto` but keeps
      the usage the call reported. */
  lemma UndecodableReply(segs: seq<Segment>, u: Usage)
    requires DistinctIds(segs) && Attempted(segs, true)
    ensures OpenAITranslate(segs, true, Answered(u, None)).usage == u
    ensures OpenAITranslate(segs, true, Answered(u, None)).detected == "auto"
    ensures forall g :: g in segs ==> Get(OpenAITranslate(segs, true, Answered(u, None)).translations, g.id) == Some(g.text)
  {
    forall g | g in segs ensures Get(OpenAITranslate(segs, true, Answered(u, None)).translations, g.id) == Some(g.text) {
      NoReplyIdentity(segs, true, Answered(u, None), g);
    }
  }

  /** Entries without an `id` or a `text` are dropped. */
  lemma IncompleteDropped(recs: seq<Record>, k: String)
    requires forall x :: x in recs && x.id == Some(k) ==> x.text.None?
    ensures !Has(ReplyMapping(recs), k)
  {
    IdsMember(CompleteSegments(recs), k);
  }

  /** Later entries for the same id overwrite earlier ones. */
  lemma LastEntryWins(recs: seq<Record>, k: String, a: String, b: String)
    ensures Get(ReplyMapping(recs + [Record(Some(k), Some(a)), Record(Some(k), Some(b))]), k) == Some(b)
  {
    var all := recs + [Record(Some(k), Some(a)), Record(Some(k), Some(b))];
    var segs := CompleteSegments(all);
    assert Segment(k, b) in segs;
    CompleteSuffix(recs, [Record(Some(k), Some(a)), Record(Some(k), Some(b))]);
    var two := [Record(Some(k), Some(a)), Record(Some(k), Some(b))];
    assert two[1..] == [Record(Some(k), Some(b))];
    assert CompleteSegments(two[1..]) == [Segment(k, b)] by {
      assert CompleteSegments(two[1..][1..]) == [];
    }
    assert CompleteSegments(two) == [Segment(k, a), Segment(k, b)];
    var j := |segs| - 1;
    assert segs[j] == Segment(k, b);
  }

  lemma {:induction false} CompleteSuffix(a: seq<Record>, b: seq<Record>)
    ensures CompleteSegments(a + b) == CompleteSegments(a) + CompleteSegments(b)
    decreases |a|
  {
    if |a| == 0 {
      assert a + b == b;
    } else {
      assert (a + b)[0] == a[0];
      assert (a + b)[1..] == a[1..] + b;
      CompleteSuffix(a[1..], b);
    }
  }

  /** `", "` and `"..."` are punctuation only; whitespace alone, the empty
      string and words are not. */
  lemma PunctuationExamples()
    ensures IsOnlyPunctuation(", ") && IsOnlyPunctuation("...")
    ensures !IsOnlyPunctuation("  ") && !IsOnlyPunctuation("") && !IsOnlyPunctuation("Hi!")
  {
    assert !IsSpace(", "[0]);
    assert !IsSpace("..."[0]);
    assert !IsPunct("Hi!"[0]) && !IsSpace("Hi!"[0]);
  }

  /** A reply translating the only segment: its text, its language and its
      usage are taken. */
  lemma ReplyExample(segs: seq<Segment>, call: Call)
    requires segs == [Segment("t1", "Hello world")]
    requires call == Answered(Usage(50, 30), Some(Reply([Record(Some("t1"), Some("Bonjour le monde"))], Some("en"))))
    ensures Get(OpenAITranslate(segs, true, call).translations, "t1") == Some("Bonjour le monde")
    ensures OpenAITranslate(segs, true, call).detected == "en"
    ensures OpenAITranslate(segs, true, call).usage == Usage(50, 30)
  {
    var g := segs[0];
    assert !IsPunct(g.text[0]) && !IsSpace(g.text[0]);
    assert !IsOnlyPunctuation(g.text);
    assert g in TranslatableSegments(segs);
    assert Attempted(segs, true);
    var recs := [Record(Some("t1"), Some("Bonjour le monde"))];
    assert CompleteSegments(recs) == [Segment("t1", "Bonjour le monde")] by {
      assert CompleteSegments(recs[1..]) == [];
    }
    assert Get(ReplyMapping(recs), "t1") == Some("Bonjour le monde");
    assert PunctSegments(segs) == [];
    assert "t1" !in Ids(PunctSegments(segs));
    ReplyWins(segs, true, call, g);
  }
}

=== FILE: scanners.dfy ===
/** Left-to-right scanners for the regular expressions of the pipeline whose
    semantics are simple enough to state exactly: the tag pattern `<[^>]+>`
    shared by the placeholder rules and the format classifier, and the URL
    rule `https?://[^\s"'>]+|(?<=href=")/[^"']+`. Each returns the matched
    texts in the order `re.finditer` yields them. */
module Scanners {
  import opened Text

  // ---------------------------------------------------------------------------
  // <[^>]+>
  // ---------------------------------------------------------------------------

  /** The first index at or after `i` holding `c`, or `|t|`. */
  function UpTo(t: String, i: nat, c: char): (j: nat)
    requires i <= |t|
    ensures i <= j <= |t|
    ensures j < |t| ==> t[j] == c
    ensures forall m :: i <= m < j ==> t[m] != c
    decreases |t| - i
  {
    if i == |t| || t[i] == c then i else UpTo(t, i + 1, c)
  }

  lemma {:induction false} UpToIs(t: String, i: nat, c: char, j: nat)
    requires i <= j <= |t|
    requires j < |t| ==> t[j] == c
    requires forall m :: i <= m < j ==> t[m] != c
    ensures UpTo(t, i, c) == j
    decreases j - i
  {
    if i < j {
      UpToIs(t, i + 1, c, j);
    }
  }

  /** The length of the run of decimal digits starting at `i`. */
  function DigitRun(t: String, i: nat): (n: nat)
    requires i <= |t|
    ensures i + n <= |t|
    ensures forall m :: i <= m < i + n ==> IsDigit(t[m])
    ensures i + n == |t| || !IsDigit(t[i + n])
    decreases |t| - i
  {
    if i < |t| && IsDigit(t[i]) then 1 + DigitRun(t, i + 1) else 0
  }

  /** A tag match can start at `i`: a `<`, one character that is not `>`, and
      a `>` somewhere after it. */
  predicate TagStartsAt(t: String, i: int) {
    0 <= i && i + 1 < |t| && t[i] == '<' && t[i + 1] != '>' && UpTo(t, i + 1, '>') < |t|
  }

  /** `re.search(r'<[^>]+>', t)` succeeds. */
  predicate HasTag(t: String) {
    exists i :: 0 <= i < |t| && TagStartsAt(t, i)
  }

  /** The shape of one match of `<[^>]+>`: `<`, at least one character that is
      not `>`, then `>`. */
  predicate IsTag(m: String) {
    |m| >= 3 && m[0] == '<' && m[|m| - 1] == '>' && forall j :: 0 < j < |m| - 1 ==> m[j] != '>'
  }

  /** `re.findall(r'<[^>]+>', t)`. */
  function TagScan(t: String): (tags: seq<String>)
    ensures forall k :: 0 <= k < |tags| ==> IsTag(tags[k]) && Occurs(t, tags[k])
    ensures |tags| > 0 <==> HasTag(t)
  {
    TagScanFrom(t, 0)
  }

  function TagScanFrom(t: String, i: nat): (tags: seq<String>)
    requires i <= |t|
    ensures forall k :: 0 <= k < |tags| ==> IsTag(tags[k]) && Occurs(t, tags[k])
    ensures |tags| > 0 <==> exists j :: i <= j < |t| && TagStartsAt(t, j)
    decreases |t| - i
  {
    if i == |t| then
      []
    else if t[i] == '<' && i + 1 < |t| && t[i + 1] != '>' then
      var k := UpTo(t, i + 1, '>');
      if k == |t| then
        assert forall j :: i <= j < |t| ==> !TagStartsAt(t, j) by {
          forall j | i <= j < |t| ensures !TagStartsAt(t, j) {
            if j + 1 < |t| {
              UpToIs(t, j + 1, '>', |t|);
            }
          }
        }
        []
      else
        var m := t[i..k + 1];
        assert TagStartsAt(t, i);
        assert IsTag(m) by {
          forall j | 0 < j < |m| - 1 ensures m[j] != '>' {
            assert m[j] == t[i + j];
          }
        }
        assert OccursAt(t, m, i);
        [m] + TagScanFrom(t, k + 1)
    else
      assert !TagStartsAt(t, i);
      TagScanFrom(t, i + 1)
  }

  /** A scan position that does not start a tag is passed over. */
  lemma TagScanSkip(t: String, i: nat)
    requires i < |t| && (t[i] != '<' || i + 1 == |t| || t[i + 1] == '>')
    ensures TagScanFrom(t, i) == TagScanFrom(t, i + 1)
  {
  }

  /** A `<` at `i` followed by a non-`>` and a first `>` at `k` yields the
      tag `t[i..k + 1]`, and the scan resumes after it. */
  lemma TagScanHit(t: String, i: nat, k: nat)
    requires i + 1 < k < |t| && t[i] == '<' && t[i + 1] != '>' && t[k] == '>'
    requires forall m :: i < m < k ==> t[m] != '>'
    ensures TagScanFrom(t, i) == [t[i..k + 1]] + TagScanFrom(t, k + 1)
  {
    UpToIs(t, i + 1, '>', k);
  }

  // ---------------------------------------------------------------------------
  // https?://[^\s"'>]+|(?<=href=")/[^"']+
  // ---------------------------------------------------------------------------

  /** `[^\s"'>]`. */
  predicate UrlChar(c: char) {
    !IsSpace(c) && c != '"' && c != '\'' && c != '>'
  }

  /** `[^"']`. */
  predicate PathChar(c: char) {
    c != '"' && c != '\''
  }

  /** The length of the longest run of `UrlChar`s (or of `PathChar`s) at `j`. */
  function Run(t: String, j: nat, path: bool): (n: nat)
    requires j <= |t|
    ensures j + n <= |t|
    ensures forall m :: j <= m < j + n ==> if path then PathChar(t[m]) else UrlChar(t[m])
    ensures j + n < |t| ==> !(if path then PathChar(t[j + n]) else UrlChar(t[j + n]))
    decreases |t| - j
  {
    if j == |t| || !(if path then PathChar(t[j]) else UrlChar(t[j])) then 0
    else 1 + Run(t, j + 1, path)
  }

  /** A `/` at offset `k` of `t[i..i + n]` is an occurrence of `"/"` in it. */
  lemma SlashIn(t: String, i: nat, n: nat, k: nat)
    requires i + n <= |t| && k < n && t[i + k] == '/'
    ensures Occurs(t[i..i + n], "/")
  {
    var u := t[i..i + n];
    assert u[k] == t[i + k];
    assert u[k..k + 1] == [u[k]];
    assert OccursAt(u, "/", k);
  }

  /** The length of the URL match at `i`, or 0 when there is none. The first
      alternative is tried first, `https` before `http` (greedy `s?`); the
      second needs the look-behind `href="`. */
  function UrlMatchLen(t: String, i: nat): (n: nat)
    requires i <= |t|
    ensures i + n <= |t|
    ensures n > 0 ==> Occurs(t[i..i + n], "/")
    // a match starts with one of the two alternatives ...
    ensures n > 0 ==>
      (OccursAt(t, "https://", i) || OccursAt(t, "http://", i)
       || (OccursAt(t, "href=\"", i - 6) && t[i] == '/'))
    // ... and each alternative that applies is matched
    ensures OccursAt(t, "https://", i) && i + 8 < |t| && UrlChar(t[i + 8]) ==> n > 0
    ensures OccursAt(t, "http://", i) && i + 7 < |t| && UrlChar(t[i + 7]) ==> n > 0
    ensures OccursAt(t, "href=\"", i - 6) && i + 1 < |t| && t[i] == '/' && PathChar(t[i + 1]) ==> n > 0
    // a match holds no quote and runs as far as it can
    ensures forall m :: i <= m < i + n ==> PathChar(t[m])
    ensures n > 0 && i + n < |t| ==> !UrlChar(t[i + n])
  {
    if OccursAt(t, "https://", i) && i + 8 < |t| && UrlChar(t[i + 8]) then
      var n := 8 + Run(t, i + 8, false);
      assert t[i + 6] == t[i..i + 8][6];
      SlashIn(t, i, n, 6);
      assert forall m :: i <= m < i + 8 ==> t[m] == "https://"[m - i];
      n
    else if OccursAt(t, "http://", i) && i + 7 < |t| && UrlChar(t[i + 7]) then
      var n := 7 + Run(t, i + 7, false);
      assert t[i + 5] == t[i..i + 7][5];
      SlashIn(t, i, n, 5);
      assert forall m :: i <= m < i + 7 ==> t[m] == "http://"[m - i];
      n
    else if OccursAt(t, "href=\"", i - 6) && i + 1 < |t| && t[i] == '/' && PathChar(t[i + 1]) then
      var n := 1 + Run(t, i + 1, true);
      SlashIn(t, i, n, 0);
      n
    else
      0
  }

  /** `[m.group(0) for m in re.finditer(URL, t)]`: every match contains a `/`. */
  function UrlScan(t: String): (urls: seq<String>)
    ensures forall k :: 0 <= k < |urls| ==> Occurs(t, urls[k]) && Occurs(urls[k], "/")
    ensures !Occurs(t, "/") ==> urls == []
    ensures |urls| > 0 <==> exists j :: 0 <= j < |t| && UrlMatchLen(t, j) > 0
  {
    UrlScanFrom(t, 0)
  }

  function UrlScanFrom(t: String, i: nat): (urls: seq<String>)
    requires i <= |t|
    ensures forall k :: 0 <= k < |urls| ==> Occurs(t, urls[k]) && Occurs(urls[k], "/")
    ensures !Occurs(t, "/") ==> urls == []
    ensures |urls| > 0 <==> exists j :: i <= j < |t| && UrlMatchLen(t, j) > 0
    decreases |t| - i
  {
    if i == |t| then
      []
    else
      var n := UrlMatchLen(t, i);
      if n > 0 then
        var rest := UrlScanFrom(t, i + n);
        UrlScanStep(t, i, n, rest);
        [t[i..i + n]] + rest
      else
        UrlScanFrom(t, i + 1)
  }

  /** A match in front of the later matches keeps every match a piece of
      the text holding a `/`. */
  lemma UrlScanStep(t: String, i: nat, n: nat, rest: seq<String>)
    requires i + n <= |t| && Occurs(t[i..i + n], "/")
    requires forall k :: 0 <= k < |rest| ==> Occurs(t, rest[k]) && Occurs(rest[k], "/")
    ensures var urls := [t[i..i + n]] + rest;
      forall k :: 0 <= k < |urls| ==> Occurs(t, urls[k]) && Occurs(urls[k], "/")
    ensures Occurs(t, "/")
  {
    var m := t[i..i + n];
    assert OccursAt(t, m, i);
    var h := Find(m, "/");
    assert OccursAt(t, "/", i + h);
    var urls := [m] + rest;
    assert forall k :: 0 < k < |urls| ==> urls[k] == rest[k - 1];
  }

  /** A position where the pattern matches yields that match, and the scan
      resumes after it. */
  lemma UrlScanHit(t: String, i: nat)
    requires i < |t| && UrlMatchLen(t, i) > 0
    ensures UrlScanFrom(t, i) == [t[i..i + UrlMatchLen(t, i)]] + UrlScanFrom(t, i + UrlMatchLen(t, i))
  {
  }

  /** A position where the pattern does not match is passed over. */
  lemma UrlScanSkip(t: String, i: nat)
    requires i < |t| && UrlMatchLen(t, i) == 0
    ensures UrlScanFrom(t, i) == UrlScanFrom(t, i + 1)
  {
  }
}

=== FILE: storage.dfy ===
/** `FileStorage.save_translation`'s naming rules: the extension chosen for a
    format, the output file name derived from the input file name (POSIX
    `basename` and `splitext`) or from a timestamp, and the output path. The
    directory creation and the write itself are left out; the timestamp is
    a parameter. */
module Storage {
  import opened Wrappers
  import opened Text

  // ---------------------------------------------------------------------------
  // POSIX path primitives
  // ---------------------------------------------------------------------------

  /** `s.rfind(c)`: the last index holding `c`, or -1. */
  function LastIndex(s: String, c: char): (r: int)
    ensures -1 <= r < |s|
    ensures r >= 0 ==> s[r] == c
    ensures forall j :: r < j < |s| ==> s[j] != c
    decreases |s|
  {
    if |s| == 0 then -1
    else if s[|s| - 1] == c then |s| - 1
    else LastIndex(s[..|s| - 1], c)
  }

  lemma {:induction false} LastIndexIs(s: String, c: char, i: int)
    requires -1 <= i < |s|
    requires i >= 0 ==> s[i] == c
    requires forall j :: i < j < |s| ==> s[j] != c
    ensures LastIndex(s, c) == i
    decreases |s|
  {
    if |s| > 0 && i < |s| - 1 {
      LastIndexIs(s[..|s| - 1], c, i);
    }
  }

  /** `os.path.join(a, b)`: `b` alone when it is absolute, otherwise `b`
      appended to `a` with one `/` between them unless `a` is empty or
      already ends in `/`. */
  function PathJoin(a: String, b: String): (r: String)
    ensures EndsWith(r, b)
    ensures StartsWith(b, "/") ==> r == b
    ensures !StartsWith(b, "/") ==> StartsWith(r, a) && |b| <= |r| - |a| <= |b| + 1
  {
    if |b| > 0 && b[0] == '/' then b
    else if |a| == 0 || a[|a| - 1] == '/' then a + b
    else a + "/" + b
  }

  /** `os.path.basename(p)`: what follows the last `/`. */
  function Basename(p: String): (r: String)
    ensures '/' !in r
    ensures EndsWith(p, r)
    ensures '/' !in p ==> r == p
    ensures |r| == |p| || p[|p| - |r| - 1] == '/'
  {
    var k := LastIndex(p, '/');
    assert k >= 0 ==> '/' in p by {
      if k >= 0 { assert p[k] == '/'; }
    }
    var r := p[k + 1..];
    assert forall j :: 0 <= j < |r| ==> r[j] == p[k + 1 + j];
    assert forall j :: 0 <= j < |r| ==> r[j] != '/';
    assert OccursAt(p, r, |p| - |r|) by { assert p[|p| - |r|..] == r; }
    r
  }

  /** Some character of `p` in `[lo, hi)` is not a dot. */
  predicate NonDotIn(p: String, lo: int, hi: int) {
    exists j :: lo <= j < hi && 0 <= j < |p| && p[j] != '.'
  }

  /** `os.path.splitext(p)`: the extension is the text from the last dot of
      the last path component, provided some non-dot character of that
      component comes before it (so `.bashrc` has no extension); the root
      is everything else. */
  function SplitExt(p: String): (r: (String, String))
    ensures r.0 + r.1 == p
    ensures r.1 == [] || (r.1[0] == '.' && '.' !in r.1[1..] && '/' !in r.1)
  {
    var s := LastIndex(p, '/');
    var d := LastIndex(p, '.');
    if d > s && NonDotIn(p, s + 1, d) then
      assert p[..d] + p[d..] == p;
      assert forall j :: 1 <= j < |p[d..]| ==> p[d..][j] == p[d + j];
      (p[..d], p[d..])
    else
      (p, [])
  }

  /** `os.path.splitext(p)[0]`. */
  function Stem(p: String): String {
    SplitExt(p).0
  }

  /** Only the last extension of a name is dropped: `b.e` loses `.e` when `e`
      holds no dot and `b` holds some character other than a dot. */
  lemma StemDropsLastExtension(b: String, e: String)
    requires '/' !in b && '/' !in e && '.' !in e
    requires exists j :: 0 <= j < |b| && b[j] != '.'
    ensures SplitExt(b + "." + e) == (b, "." + e)
  {
    var p := b + "." + e;
    assert forall j :: 0 <= j < |b| ==> p[j] == b[j];
    assert forall j :: |b| < j < |p| ==> p[j] == e[j - |b| - 1];
    forall j | 0 <= j < |p| ensures p[j] != '/' {
      if j < |b| { assert b[j] in b; } else if j > |b| { assert e[j - |b| - 1] in e; }
    }
    forall j | |b| < j < |p| ensures p[j] != '.' {
      assert e[j - |b| - 1] in e;
    }
    LastIndexIs(p, '/', -1);
    LastIndexIs(p, '.', |b|);
    var j :| 0 <= j < |b| && b[j] != '.';
    assert p[j] != '.';
    assert NonDotIn(p, 0, |b|);
    assert p[..|b|] == b;
    assert p[|b|..] == "." + e;
  }

  /** A name without a dot, or whose dots all lead it, has no extension. */
  lemma StemWithoutExtension(p: String)
    requires '.' !in p || forall j :: 0 <= j < |p| && j < LastIndex(p, '.') ==> p[j] == '.'
    ensures SplitExt(p) == (p, [])
  {
  }

  // ---------------------------------------------------------------------------
  // save_translation
  // ---------------------------------------------------------------------------

  /** `os.path.join("data", "output")`. */
  const OutputDir: String := "data/output"

  lemma OutputDirIsJoin()
    ensures PathJoin("data", "output") == OutputDir
  {
  }

  const ExtensionMap: map<String, String> := map["html" := "html", "markdown" := "md", "text" := "txt"]

  /** `extension_map.get(input_format, "txt")`. */
  function Extension(format: String): (ext: String)
    ensures format == "html" ==> ext == "html"
    ensures format == "markdown" ==> ext == "md"
    ensures format != "html" && format != "markdown" ==> ext == "txt"
  {
    if format in ExtensionMap then ExtensionMap[format] else "txt"
  }

  /** The output file name before its extension. */
  function NameHead(inputFilename: Option<String>, lang: String, timestamp: String): String {
    if inputFilename.Some? && |inputFilename.value| > 0 then
      Stem(Basename(inputFilename.value)) + "_translated_" + lang
    else
      "translated_" + lang + "_" + timestamp
  }

  lemma NameHeadRelative(inputFilename: Option<String>, lang: String, timestamp: String)
    ensures |NameHead(inputFilename, lang, timestamp)| > 0
    ensures NameHead(inputFilename, lang, timestamp)[0] != '/'
  {
    if inputFilename.Some? && |inputFilename.value| > 0 {
      var b := Basename(inputFilename.value);
      var stem := Stem(b);
      assert stem + SplitExt(b).1 == b;
      if |stem| > 0 {
        assert b[0] == stem[0];
        assert b[0] in b;
      }
    }
  }

  /** The output file name: with a non-empty input file name, its stem
      followed by `_translated_<lang>`; otherwise `translated_<lang>_<timestamp>`;
      in both cases `.` and the extension at the end. */
  function OutputFilename(inputFilename: Option<String>, lang: String, ext: String,
                          timestamp: String): (name: String)
    ensures EndsWith(name, "." + ext)
    ensures inputFilename.Some? && |inputFilename.value| > 0 ==>
      StartsWith(name, Stem(Basename(inputFilename.value)) + "_translated_" + lang)
    ensures (inputFilename.None? || inputFilename.value == []) ==>
      StartsWith(name, "translated_" + lang + "_" + timestamp)
    ensures !StartsWith(name, "/")
  {
    var head := NameHead(inputFilename, lang, timestamp);
    var name := head + "." + ext;
    assert name[|name| - |"." + ext|..] == "." + ext;
    assert name[..|head|] == head;
    NameHeadRelative(inputFilename, lang, timestamp);
    assert name[0] == head[0];
    name
  }

  /** The path `save_translation` writes and returns:
      `data/output/<format>/<file name>`. */
  function SavePath(format: String, lang: String, inputFilename: Option<String>,
                    timestamp: String): (path: String)
    ensures EndsWith(path, "." + Extension(format))
  {
    var name := OutputFilename(inputFilename, lang, Extension(format), timestamp);
    var path := PathJoin(PathJoin(OutputDir, format), name);
    EndsWithTrans(path, name, "." + Extension(format));
    path
  }

  /** For a format name that is a single relative path component, the file
      lands in the directory named after the format, not the extension. */
  lemma SavePathShape(format: String, lang: String, inputFilename: Option<String>, timestamp: String)
    requires |format| > 0 && '/' !in format
    ensures SavePath(format, lang, inputFilename, timestamp) ==
      OutputDir + "/" + format + "/" + OutputFilename(inputFilename, lang, Extension(format), timestamp)
  {
    assert format[0] in format;
    assert format[|format| - 1] in format;
    var name := OutputFilename(inputFilename, lang, Extension(format), timestamp);
    var dir := OutputDir + "/" + format;
    JoinRelative(OutputDir, format);
    assert dir[|dir| - 1] == format[|format| - 1];
    assert |name| > 0 && name[0] != '/' by {
      assert EndsWith(name, "." + Extension(format));
      assert name[..1] == [name[0]];
    }
    JoinRelative(dir, name);
  }

  /** Joining a relative component onto a directory that does not end in
      `/` puts one `/` between them. */
  lemma JoinRelative(a: String, b: String)
    requires |a| > 0 && a[|a| - 1] != '/'
    requires |b| == 0 || b[0] != '/'
    ensures PathJoin(a, b) == a + "/" + b
  {
  }

  lemma ExampleBasename()
    ensures Basename("docs/report.v2.txt") == "report.v2.txt"
  {
    var f := "docs/report.v2.txt";
    assert f[4] == '/';
    assert forall j :: 4 < j < |f| ==> f[j] == "report.v2.txt"[j - 5];
    LastIndexIs(f, '/', 4);
    assert f[5..] == "report.v2.txt";
  }

  lemma ExampleStem()
    ensures Stem("report.v2.txt") == "report.v2"
  {
    assert "report.v2"[0] != '.';
    StemDropsLastExtension("report.v2", "txt");
    assert "report.v2" + "." + "txt" == "report.v2.txt";
  }

  /** `docs/report.v2.txt` saved as Markdown for `de` lands at
      `data/output/markdown/report.v2_translated_de.md`. */
  lemma SavePathExample(timestamp: String)
    ensures SavePath("markdown", "de", Some("docs/report.v2.txt"), timestamp) ==
      OutputDir + "/" + "markdown" + "/" + ("report.v2" + "_translated_" + "de" + "." + "md")
  {
    MarkdownComponent();
    ExampleBasename();
    ExampleStem();
    SavePathOfFile("markdown", "de", "docs/report.v2.txt", timestamp);
  }

  lemma MarkdownComponent()
    ensures |"markdown"| > 0 && '/' !in "markdown" && Extension("markdown") == "md"
  {
    assert forall j :: 0 <= j < |"markdown"| ==> "markdown"[j] != '/';
  }

  /** A file saved under a non-empty input name is named after the stem of
      that name's last component. */
  lemma SavePathOfFile(format: String, lang: String, inputFilename: String, timestamp: String)
    requires |format| > 0 && '/' !in format && |inputFilename| > 0
    ensures SavePath(format, lang, Some(inputFilename), timestamp) ==
      OutputDir + "/" + format + "/" + (Stem(Basename(inputFilename)) + "_translated_" + lang + "." + Extension(format))
  {
    SavePathShape(format, lang, Some(inputFilename), timestamp);
    assert NameHead(Some(inputFilename), lang, timestamp) == Stem(Basename(inputFilename)) + "_translated_" + lang;
  }
}

=== FILE: text.dfy ===
/** The string primitives of the Python runtime the pipeline relies on:
    substring search (`in`, `find`), `replace` with and without a count,
    `split`, `join`, `strip`, `upper`, `lower`, `capitalize`, and the decimal
    rendering of integers. Character classes are the ASCII part of Python's. */
module Text {

  type String = seq<char>

  // ---------------------------------------------------------------------------
  // Character classes
  // ---------------------------------------------------------------------------

  /** Python's `str.isspace()` on the ASCII range: TAB, LF, VT, FF, CR, the
      information separators 0x1C-0x1F, and SPACE. */
  predicate IsSpace(c: char) {
    ('\t' <= c <= '\r') || ('\U{001C}' <= c <= ' ')
  }

  /** `s.strip() == ""`: the string holds nothing but whitespace. */
  predicate IsBlank(s: String) {
    forall i :: 0 <= i < |s| ==> IsSpace(s[i])
  }

  /** The regex class `\d`, ASCII part. */
  predicate IsDigit(c: char) {
    '0' <= c <= '9'
  }

  predicate AllDigits(s: String) {
    forall i :: 0 <= i < |s| ==> IsDigit(s[i])
  }

  function ToUpperChar(c: char): char {
    if 'a' <= c <= 'z' then (c as int - 32) as char else c
  }

  function ToLowerChar(c: char): char {
    if 'A' <= c <= 'Z' then (c as int + 32) as char else c
  }

  /** `s.upper()`. */
  function Upper(s: String): String {
    seq(|s|, i requires 0 <= i < |s| => ToUpperChar(s[i]))
  }

  /** `s.lower()`. */
  function Lower(s: String): String {
    seq(|s|, i requires 0 <= i < |s| => ToLowerChar(s[i]))
  }

  /** `s.capitalize()`: first character upper case, the rest lower case. */
  function Capitalize(s: String): String {
    if |s| == 0 then [] else [ToUpperChar(s[0])] + Lower(s[1..])
  }

  // ---------------------------------------------------------------------------
  // Substring search
  // ---------------------------------------------------------------------------

  /** `p` occurs in `s` starting at index `i`. */
  predicate OccursAt(s: String, p: String, i: int) {
    0 <= i && i + |p| <= |s| && s[i..i + |p|] == p
  }

  /** Python's `p in s`; the empty string occurs everywhere. */
  predicate Occurs(s: String, p: String) {
    exists i :: 0 <= i <= |s| - |p| && OccursAt(s, p, i)
  }

  /** Python's `s.startswith(p)`. */
  predicate StartsWith(s: String, p: String) {
    |p| <= |s| && s[..|p|] == p
  }

  /** Python's `s.endswith(p)`. */
  predicate EndsWith(s: String, p: String) {
    |p| <= |s| && s[|s| - |p|..] == p
  }

  lemma EndsWithTrans(a: String, b: String, c: String)
    requires EndsWith(a, b) && EndsWith(b, c)
    ensures EndsWith(a, c)
  {
    assert a[|a| - |c|..] == a[|a| - |b|..][|b| - |c|..];
  }

  /** `p in s` ignoring ASCII case, as `re.search(re.escape(p), s, re.IGNORECASE)`. */
  predicate OccursIgnoreCase(s: String, p: String) {
    Occurs(Lower(s), Lower(p))
  }

  lemma OccursAtTail(s: String, p: String, i: int)
    requires |s| > 0 && i >= 1
    ensures OccursAt(s, p, i) <==> OccursAt(s[1..], p, i - 1)
  {
    if i + |p| <= |s| {
      assert s[i..i + |p|] == s[1..][i - 1..i - 1 + |p|];
    }
  }

  /** Python's `s.find(p)`: the least index where `p` occurs, or -1. */
  function Find(s: String, p: String): (r: int)
    ensures r < 0 ==> r == -1
    ensures r >= 0 ==> OccursAt(s, p, r)
    ensures r >= 0 ==> forall j :: 0 <= j < r ==> !OccursAt(s, p, j)
    ensures r < 0 <==> !Occurs(s, p)
    decreases |s|
  {
    if |p| > |s| then
      -1
    else if s[..|p|] == p then
      assert OccursAt(s, p, 0);
      0
    else
      var k := Find(s[1..], p);
      assert !OccursAt(s, p, 0);
      if k < 0 then
        assert forall i :: !OccursAt(s, p, i) by {
          forall i | 1 <= i { OccursAtTail(s, p, i); }
        }
        -1
      else
        OccursAtTail(s, p, k + 1);
        assert forall j :: 1 <= j < k + 1 ==> !OccursAt(s, p, j) by {
          forall j | 1 <= j < k + 1 { OccursAtTail(s, p, j); }
        }
        k + 1
  }

  // ---------------------------------------------------------------------------
  // replace, split, join
  // ---------------------------------------------------------------------------

  /** An occurrence in the tail of `s` is an occurrence in `s`. */
  lemma OccursTail(s: String, p: String)
    requires |s| > 0
    ensures Occurs(s[1..], p) ==> Occurs(s, p)
  {
    if Occurs(s[1..], p) {
      var i :| 0 <= i <= |s[1..]| - |p| && OccursAt(s[1..], p, i);
      OccursAtTail(s, p, i + 1);
    }
  }

  lemma TailSlices(s: String, k: nat, m: nat)
    requires k <= m < |s|
    ensures [s[0]] + s[1..][..k] == s[..k + 1]
    ensures s[1..][m..] == s[m + 1..]
  {
  }

  lemma Assoc(a: String, b: String, c: String)
    ensures a + (b + c) == a + b + c
  {
  }

  lemma ConsAssoc(c: char, a: String, b: String, x: String)
    ensures [c] + (a + b + x) == [c] + a + b + x
  {
  }

  /** Python's `s.replace(p, rep, 1)`: scanning from the left, the first
      position where `p` starts is rewritten; a string without `p` comes back
      unchanged. */
  function ReplaceFirst(s: String, p: String, rep: String): (r: String)
    ensures !Occurs(s, p) ==> r == s
    decreases |s|
  {
    if OccursAt(s, p, 0) then rep + s[|p|..]
    else if |s| == 0 then s
    else
      OccursTail(s, p);
      [s[0]] + ReplaceFirst(s[1..], p, rep)
  }

  /** `i` is the leftmost occurrence of `p` in `s`. */
  predicate FirstAt(s: String, p: String, i: int) {
    OccursAt(s, p, i) && forall j :: 0 <= j < i ==> !OccursAt(s, p, j)
  }

  /** Rewriting the first occurrence where it is leftmost. */
  lemma ReplaceFirstAt(s: String, p: String, rep: String, f: int)
    requires FirstAt(s, p, f)
    ensures ReplaceFirst(s, p, rep) == s[..f] + rep + s[f + |p|..]
  {
    var x, w := s[..f], s[f..];
    assert s == x + w;
    forall i | 0 <= i < |x| ensures !OccursAt(x + w, p, i) {
      assert !OccursAt(s, p, i);
    }
    ReplaceFirstSkip(x, w, p, rep);
    assert OccursAt(w, p, 0) by { assert w[..|p|] == s[f..f + |p|]; }
    ReplaceFirstHere(w, p, rep);
    var y := s[f + |p|..];
    assert w[|p|..] == y;
    Assoc(x, rep, y);
  }

  /** The leftmost occurrence is the one `Find` reports: `s.replace(p, rep, 1)`
      is `s[:i] + rep + s[i + len(p):]` for `i = s.find(p)`. */
  lemma ReplaceFirstFind(s: String, p: String, rep: String)
    requires Find(s, p) >= 0
    ensures ReplaceFirst(s, p, rep) == s[..Find(s, p)] + rep + s[Find(s, p) + |p|..]
  {
    ReplaceFirstAt(s, p, rep, Find(s, p));
  }


  /** Python's `s.split(sep)` for a non-empty separator (the source never
      splits on the empty string, which Python rejects). */
  function Split(s: String, sep: String): (parts: seq<String>)
    requires |sep| > 0
    ensures |parts| >= 1
    ensures Join(parts, sep) == s
    ensures forall k :: 0 <= k < |parts| ==> !Occurs(parts[k], sep)
    ensures |parts| == 1 <==> !Occurs(s, sep)
    ensures |parts| > 1 ==> FirstAt(s, sep, |parts[0]|)
    decreases |s|
  {
    var i := Find(s, sep);
    if i < 0 then
      [s]
    else
      var rest := Split(s[i + |sep|..], sep);
      SplitStep(s, sep, i, rest);
      [s[..i]] + rest
  }

  /** Every cut is at the leftmost separator of what is left: the text
      joined from piece `k` on has its first separator right after piece
      `k`. */
  predicate LeftmostCuts(parts: seq<String>, sep: String) {
    forall k :: 0 <= k < |parts| - 1 ==> FirstAt(Join(parts[k..], sep), sep, |parts[k]|)
  }

  /** `s.split(sep)` cuts at leftmost separators only. */
  lemma {:induction false} SplitCuts(s: String, sep: String)
    requires |sep| > 0
    ensures LeftmostCuts(Split(s, sep), sep)
    decreases |s|
  {
    var i := Find(s, sep);
    if i >= 0 {
      var rest := Split(s[i + |sep|..], sep);
      assert Split(s, sep) == [s[..i]] + rest;
      SplitCuts(s[i + |sep|..], sep);
      JoinCons(s[..i], rest, sep);
      SeparatorAt(s, sep, i);
      CutsCons(s[..i], rest, sep, s);
    }
  }

  /** One more leftmost cut in front of pieces that are already cut at
      leftmost separators. */
  lemma CutsCons(head: String, rest: seq<String>, sep: String, whole: String)
    requires |rest| >= 1 && Join([head] + rest, sep) == whole && FirstAt(whole, sep, |head|)
    requires LeftmostCuts(rest, sep)
    ensures LeftmostCuts([head] + rest, sep)
  {
    var parts := [head] + rest;
    forall k | 0 <= k < |parts| - 1
      ensures FirstAt(Join(parts[k..], sep), sep, |parts[k]|)
    {
      if k == 0 {
        assert parts[k..] == parts;
      } else {
        assert parts[k..] == rest[k - 1..];
      }
    }
  }

  /** The pieces are determined: any list of separator-free pieces that
      joins to `s` and is cut at each leftmost separator is `s.split(sep)`. */
  lemma {:induction false} SplitUnique(s: String, sep: String, parts: seq<String>)
    requires |sep| > 0 && |parts| >= 1 && Join(parts, sep) == s
    requires forall k :: 0 <= k < |parts| ==> !Occurs(parts[k], sep)
    requires LeftmostCuts(parts, sep)
    ensures parts == Split(s, sep)
    decreases |parts|
  {
    if |parts| == 1 {
      assert s == parts[0];
    } else {
      var i := |parts[0]|;
      assert parts[0..] == parts;
      assert FirstAt(s, sep, i);
      assert Find(s, sep) == i;
      var tail := parts[1..];
      JoinCons(parts[0], tail, sep);
      assert [parts[0]] + tail == parts;
      assert s == parts[0] + sep + Join(tail, sep);
      assert s[..i] == parts[0];
      assert s[i + |sep|..] == Join(tail, sep);
      assert LeftmostCuts(tail, sep) by {
        forall k | 0 <= k < |tail| - 1
          ensures FirstAt(Join(tail[k..], sep), sep, |tail[k]|)
        {
          assert tail[k..] == parts[k + 1..];
        }
      }
      SplitUnique(s[i + |sep|..], sep, tail);
    }
  }

  /** The piece before a leftmost separator, followed by the pieces of what
      comes after it. */
  lemma SplitStep(s: String, sep: String, i: int, rest: seq<String>)
    requires |sep| > 0 && FirstAt(s, sep, i) && |rest| >= 1 && Join(rest, sep) == s[i + |sep|..]
    requires forall k :: 0 <= k < |rest| ==> !Occurs(rest[k], sep)
    ensures Join([s[..i]] + rest, sep) == s
    ensures forall k :: 0 <= k < |[s[..i]] + rest| ==> !Occurs(([s[..i]] + rest)[k], sep)
  {
    SplitJoinStep(s, sep, i, rest);
    HeadNoSep(s, sep, i);
    PartsNoSep(s[..i], rest, sep);
  }

  lemma SplitJoinStep(s: String, sep: String, i: int, rest: seq<String>)
    requires OccursAt(s, sep, i) && |rest| >= 1 && Join(rest, sep) == s[i + |sep|..]
    ensures Join([s[..i]] + rest, sep) == s
  {
    JoinCons(s[..i], rest, sep);
    SeparatorAt(s, sep, i);
  }

  lemma SeparatorAt(s: String, sep: String, i: int)
    requires OccursAt(s, sep, i)
    ensures s == s[..i] + sep + s[i + |sep|..]
  {
    assert s[i..i + |sep|] == sep;
    SliceFacts(s, i, |sep|);
    Assoc(s[..i], sep, s[i + |sep|..]);
  }

  lemma PartsNoSep(head: String, rest: seq<String>, sep: String)
    requires !Occurs(head, sep)
    requires forall k :: 0 <= k < |rest| ==> !Occurs(rest[k], sep)
    ensures forall k :: 0 <= k < |[head] + rest| ==> !Occurs(([head] + rest)[k], sep)
  {
    var parts := [head] + rest;
    assert forall k :: 1 <= k < |parts| ==> parts[k] == rest[k - 1];
  }

  /** Nothing before a leftmost occurrence holds it. */
  lemma HeadNoSep(s: String, sep: String, i: int)
    requires |sep| > 0 && FirstAt(s, sep, i)
    ensures !Occurs(s[..i], sep)
  {
    var head := s[..i];
    forall j | 0 <= j ensures !OccursAt(head, sep, j) {
      if j + |sep| <= |head| {
        assert head[j..j + |sep|] == s[j..j + |sep|];
        assert !OccursAt(s, sep, j);
      }
    }
  }

  lemma JoinCons(head: String, rest: seq<String>, sep: String)
    requires |rest| >= 1
    ensures Join([head] + rest, sep) == head + sep + Join(rest, sep)
  {
    assert ([head] + rest)[1..] == rest;
  }

  /** Python's `sep.join(parts)`. */
  function Join(parts: seq<String>, sep: String): String
    decreases |parts|
  {
    if |parts| == 0 then []
    else if |parts| == 1 then parts[0]
    else parts[0] + sep + Join(parts[1..], sep)
  }

  /** `s.replace("", rep)`: `rep` before every character and at the end. */
  function Interleave(s: String, rep: String): String
    decreases |s|
  {
    if |s| == 0 then rep else rep + [s[0]] + Interleave(s[1..], rep)
  }

  /** Python's `s.replace(p, rep)`: scanning from the left, every occurrence
      of `p` that does not overlap an earlier rewritten one becomes `rep`. */
  function ReplaceAll(s: String, p: String, rep: String): (r: String)
    ensures |p| > 0 && !Occurs(s, p) ==> r == s
    decreases |s|
  {
    if |p| == 0 then Interleave(s, rep)
    else if OccursAt(s, p, 0) then rep + ReplaceAll(s[|p|..], p, rep)
    else if |s| == 0 then s
    else
      OccursTail(s, p);
      [s[0]] + ReplaceAll(s[1..], p, rep)
  }

  /** Rewriting every occurrence, from a leftmost one: the text before it is
      kept, the occurrence becomes `rep`, and the scan resumes after it. */
  lemma ReplaceAllAt(s: String, p: String, rep: String, f: int)
    requires |p| > 0 && FirstAt(s, p, f)
    ensures ReplaceAll(s, p, rep) == s[..f] + rep + ReplaceAll(s[f + |p|..], p, rep)
  {
    var x, w, y := s[..f], s[f..], s[f + |p|..];
    SliceFacts(s, f, |p|);
    NoStartBefore(x, w, p, f);
    ReplaceAllSkip(x, w, p, rep);
    ReplaceAllStart(w, p, rep);
    Assoc(x, rep, ReplaceAll(y, p, rep));
  }

  lemma SliceFacts(s: String, f: int, n: nat)
    requires 0 <= f && f + n <= |s|
    ensures s == s[..f] + s[f..]
    ensures s[f..][n..] == s[f + n..]
    ensures s[f..][..n] == s[f..f + n]
  {
  }

  /** No occurrence starts before a leftmost one. */
  lemma NoStartBefore(x: String, w: String, p: String, f: int)
    requires |x| == f && FirstAt(x + w, p, f)
    ensures forall i :: 0 <= i < |x| ==> !OccursAt(x + w, p, i)
    ensures OccursAt(w, p, 0)
  {
    assert (x + w)[f..f + |p|] == w[..|p|];
  }

  lemma ReplaceAllStart(w: String, p: String, rep: String)
    requires |p| > 0 && OccursAt(w, p, 0)
    ensures ReplaceAll(w, p, rep) == rep + ReplaceAll(w[|p|..], p, rep)
  {
  }

  /** The documented identity `s.replace(p, rep) == rep.join(s.split(p))`
      for a non-empty `p`. */
  lemma {:induction false} ReplaceAllIsJoinSplit(s: String, p: String, rep: String)
    requires |p| > 0
    ensures ReplaceAll(s, p, rep) == Join(Split(s, p), rep)
    decreases |s|
  {
    var i := Find(s, p);
    if i >= 0 {
      ReplaceAllAt(s, p, rep, i);
      ReplaceAllIsJoinSplit(s[i + |p|..], p, rep);
      assert |Split(s[i + |p|..], p)| >= 1;
    }
  }

  // ---------------------------------------------------------------------------
  // Rewriting inside a concatenation
  // ---------------------------------------------------------------------------

  lemma ConsParts(a: String, u: String)
    requires |a| > 0
    ensures (a + u)[0] == a[0] && (a + u)[1..] == a[1..] + u
  {
  }

  lemma ConsRegroup(a: String, x: String)
    requires |a| > 0
    ensures [a[0]] + (a[1..] + x) == a + x
  {
    assert a == [a[0]] + a[1..];
  }

  /** No occurrence starting inside `a` either, after dropping its first
      character. */
  lemma NoStartTail(a: String, u: String, p: String)
    requires |a| > 0
    requires forall i :: 0 <= i < |a| ==> !OccursAt(a + u, p, i)
    ensures forall i :: 0 <= i < |a| - 1 ==> !OccursAt(a[1..] + u, p, i)
  {
    ConsParts(a, u);
    forall i | 0 <= i < |a| - 1 ensures !OccursAt(a[1..] + u, p, i) {
      OccursAtTail(a + u, p, i + 1);
    }
  }

  /** With no occurrence of `p` starting inside `a`, rewriting the first
      occurrence in `a + u` leaves `a` alone. */
  lemma {:induction false} ReplaceFirstSkip(a: String, u: String, p: String, rep: String)
    requires forall i :: 0 <= i < |a| ==> !OccursAt(a + u, p, i)
    ensures ReplaceFirst(a + u, p, rep) == a + ReplaceFirst(u, p, rep)
    decreases |a|
  {
    if |a| == 0 {
      assert a + u == u;
    } else {
      assert !OccursAt(a + u, p, 0);
      ConsParts(a, u);
      NoStartTail(a, u, p);
      ReplaceFirstSkip(a[1..], u, p, rep);
      ConsRegroup(a, ReplaceFirst(u, p, rep));
    }
  }

  /** The same for rewriting every occurrence. */
  lemma {:induction false} ReplaceAllSkip(a: String, u: String, p: String, rep: String)
    requires |p| > 0
    requires forall i :: 0 <= i < |a| ==> !OccursAt(a + u, p, i)
    ensures ReplaceAll(a + u, p, rep) == a + ReplaceAll(u, p, rep)
    decreases |a|
  {
    if |a| == 0 {
      assert a + u == u;
    } else {
      assert !OccursAt(a + u, p, 0);
      ConsParts(a, u);
      NoStartTail(a, u, p);
      ReplaceAllSkip(a[1..], u, p, rep);
      ConsRegroup(a, ReplaceAll(u, p, rep));
    }
  }

  /** Rewriting `p` in `w` where it starts `w`. */
  lemma ReplaceFirstHere(w: String, p: String, rep: String)
    requires OccursAt(w, p, 0)
    ensures ReplaceFirst(w, p, rep) == rep + w[|p|..]
  {
  }

  lemma NoStartBeforeFind(s: String, u: String, p: String)
    requires Find(s, p) >= 0
    ensures forall i :: 0 <= i < Find(s, p) ==> !OccursAt(s + u, p, i)
  {
    forall i | 0 <= i < Find(s, p) ensures !OccursAt(s + u, p, i) {
      assert i + |p| <= |s|;
      assert (s + u)[i..i + |p|] == s[i..i + |p|];
      assert !OccursAt(s, p, i);
    }
  }

  /** A leftmost occurrence inside a prefix stays leftmost in any extension. */
  lemma FindInPrefix(s: String, u: String, p: String)
    requires Find(s, p) >= 0
    ensures Find(s + u, p) == Find(s, p)
  {
    var f := Find(s, p);
    NoStartBeforeFind(s, u, p);
    assert (s + u)[f..f + |p|] == s[f..f + |p|];
    assert OccursAt(s + u, p, f);
  }

  lemma PrefixSlices(s: String, u: String, f: nat, g: nat)
    requires f <= g <= |s|
    ensures (s + u)[..f] == s[..f]
    ensures (s + u)[g..] == s[g..] + u
    ensures s == s[..f] + s[f..g] + s[g..]
  {
  }

  /** When `p` occurs in `s`, rewriting it in `s + u` happens inside `s`. */
  lemma ReplaceFirstInPrefix(s: String, u: String, p: String, rep: String)
    requires Find(s, p) >= 0
    ensures ReplaceFirst(s + u, p, rep) == s[..Find(s, p)] + rep + (s[Find(s, p) + |p|..] + u)
    ensures s == s[..Find(s, p)] + p + s[Find(s, p) + |p|..]
  {
    var f := Find(s, p);
    NoStartBeforeFind(s, u, p);
    assert (s + u)[f..f + |p|] == s[f..f + |p|];
    assert FirstAt(s + u, p, f);
    ReplaceFirstAt(s + u, p, rep, f);
    PrefixSlices(s, u, f, f + |p|);
  }

  // ---------------------------------------------------------------------------
  // Decimal rendering, as in f"{n}"
  // ---------------------------------------------------------------------------

  function DigitChar(d: nat): char
    requires d < 10
  {
    ('0' as int + d) as char
  }

  /** The number a string of decimal digits denotes. */
  function DigitsValue(s: String): nat
    requires AllDigits(s)
    decreases |s|
  {
    if |s| == 0 then 0
    else 10 * DigitsValue(s[..|s| - 1]) + (s[|s| - 1] as int - '0' as int)
  }

  /** `str(n)` for a natural number: a non-empty digit string denoting `n`,
      with no leading zero unless it is `0` itself. */
  function NatToString(n: nat): (s: String)
    ensures |s| > 0 && AllDigits(s)
    ensures DigitsValue(s) == n
    ensures s[0] != '0' || s == "0"
    decreases n
  {
    if n < 10 then
      [DigitChar(n)]
    else
      var prefix := NatToString(n / 10);
      var s := prefix + [DigitChar(n % 10)];
      assert s[..|s| - 1] == prefix;
      s
  }

  /** Distinct numbers render differently. */
  lemma NatToStringInjective(a: nat, b: nat)
    requires NatToString(a) == NatToString(b)
    ensures a == b
  {
  }

  /** A digit string without a leading zero denotes a positive number. */
  lemma {:induction false} LeadingDigitPositive(s: String)
    requires |s| > 0 && AllDigits(s) && s[0] != '0'
    ensures DigitsValue(s) > 0
    decreases |s|
  {
    if |s| > 1 {
      LeadingDigitPositive(s[..|s| - 1]);
    }
  }

  /** The canonical spelling is the only one: a digit string without a
      leading zero (or `0` itself) is `str` of the number it denotes. */
  lemma {:induction false} NatToStringCanonical(s: String)
    requires |s| > 0 && AllDigits(s)
    requires s[0] != '0' || s == "0"
    ensures NatToString(DigitsValue(s)) == s
    decreases |s|
  {
    if |s| == 1 {
      assert DigitChar(DigitsValue(s)) == s[0];
    } else {
      var p := s[..|s| - 1];
      var d := s[|s| - 1] as int - '0' as int;
      assert p[0] == s[0];
      LeadingDigitPositive(p);
      NatToStringCanonical(p);
      var n := DigitsValue(s);
      assert n == 10 * DigitsValue(p) + d;
      assert n / 10 == DigitsValue(p) && n % 10 == d;
      assert DigitChar(d) == s[|s| - 1];
      assert s == p + [s[|s| - 1]];
    }
  }
}

=== FILE: translation_service.dfy ===
/** `TranslationService`: the six steps of a translation — freeze, detect,
    process, restore, save, describe — and the notes and applied glossary
    terms that describe the result. The placeholder engine, the provider, the
    html5lib tree and its rendering, and the clock's timestamp are parameters
    of the environment. */
module TranslationService {
  import opened Wrappers
  import opened Text
  import opened Dicts
  import opened Models
  import opened Placeholders
  import opened PlaceholderRoundTrip
  import PlaceholderExamples
  import opened FormatDetection
  import HtmlDocument
  import opened Providers
  import opened ContentProcessing
  import opened Storage

  /** Everything the workflow takes from outside: the regex matches of the
      placeholder rules, the provider the factory hands out, html5lib's tree
      for a text and the rendering of a node, and the `%Y%m%d-%H%M%S`
      timestamp of the moment of saving. */
  datatype Env = Env(
    engine: Engine,
    provider: Provider,
    parse: String -> seq<HtmlDocument.Node>,
    render: HtmlDocument.Node -> String,
    timestamp: String)

  // ---------------------------------------------------------------------------
  // Notes
  // ---------------------------------------------------------------------------

  const UnresolvedNote: String := "Unresolved segment marker found"
  const PreservedSuffix: String := " preserved"

  /** `⟦SEG_`: how every segment marker begins. */
  const SegProbe: String := [Open] + "SEG_"

  /** The probe as the source spells it: the UTF-8 bytes of `⟦` read back as
      Windows-1252, `âŸ¦`, followed by `SEG_`. */
  const SegProbeAsWritten: String := "\U{00E2}\U{0178}\U{00A6}SEG_"

  /** A note that names a format is never the unresolved-marker note. */
  lemma PreservedIsNotUnresolved(format: String)
    ensures Capitalize(format) + PreservedSuffix != UnresolvedNote
  {
    var s := Capitalize(format) + PreservedSuffix;
    if |s| == |UnresolvedNote| {
      assert s[|s| - 10] == ' ';
      assert UnresolvedNote[|UnresolvedNote| - 10] == 'r';
    }
  }

  /** The notes of `_generate_metadata` for a given probe: one note, the
      unresolved-marker note exactly when the probe occurs in the output,
      otherwise the capitalised format followed by ` preserved`. */
  function NotesFor(output: String, format: String, probe: String): (notes: seq<String>)
    ensures |notes| == 1
    ensures notes[0] == UnresolvedNote <==> Occurs(output, probe)
    ensures !Occurs(output, probe) ==> notes[0] == Capitalize(format) + PreservedSuffix
  {
    PreservedIsNotUnresolved(format);
    if Occurs(output, probe) then [UnresolvedNote] else [Capitalize(format) + PreservedSuffix]
  }

  /** The notes with the probe as the source spells it. */
  function NotesAsWritten(output: String, format: String): (notes: seq<String>)
    ensures |notes| == 1
    ensures notes[0] == UnresolvedNote <==> Occurs(output, SegProbeAsWritten)
    ensures !Occurs(output, SegProbeAsWritten) ==> notes == [Capitalize(format) + PreservedSuffix]
  {
    NotesFor(output, format, SegProbeAsWritten)
  }

  /** The notes with the probe the markers actually begin with. */
  function Notes(output: String, format: String): (notes: seq<String>)
    ensures |notes| == 1
    ensures notes[0] == UnresolvedNote <==> Occurs(output, SegProbe)
    ensures !Occurs(output, SegProbe) ==> notes == [Capitalize(format) + PreservedSuffix]
  {
    NotesFor(output, format, SegProbe)
  }

  lemma TextNote()
    ensures Capitalize("text") + PreservedSuffix == "Text preserved"
  {
  }

  lemma HtmlNote()
    ensures Capitalize("html") + PreservedSuffix == "Html preserved"
  {
  }

  /** A text in which the first character of `p` never appears does not
      contain `p`. */
  lemma HeadAbsent(s: String, p: String)
    requires |p| > 0
    requires forall i :: 0 <= i < |s| ==> s[i] != p[0]
    ensures !Occurs(s, p)
  {
    forall i | 0 <= i <= |s| - |p| ensures !OccursAt(s, p, i) {
      assert s[i..i + |p|][0] == s[i];
    }
  }

  /** No `⟦` in the text. */
  predicate NoOpen(s: String) {
    forall i :: 0 <= i < |s| ==> s[i] != Open
  }

  /** Every marker left in the output is reported, whatever its id. */
  lemma MarkerFlagged(s: String, id: String, i: int, format: String)
    requires OccursAt(s, HtmlDocument.Marker(id), i)
    ensures Notes(s, format) == [UnresolvedNote]
  {
    var m := HtmlDocument.Marker(id);
    assert m[..|SegProbe|] == SegProbe;
    assert s[i..i + |SegProbe|] == s[i..i + |m|][..|SegProbe|];
    assert OccursAt(s, SegProbe, i);
  }

  // ---------------------------------------------------------------------------
  // Applied glossary terms
  // ---------------------------------------------------------------------------

  /** The glossary entry `k` applies when its target term occurs in the
      output, ignoring case. */
  predicate Applied(output: String, g: Dict, k: String) {
    Has(g, k) && OccursIgnoreCase(output, g.entries[k])
  }

  /** `a` is `b` with some elements left out and the rest in order. */
  predicate Subsequence(a: seq<String>, b: seq<String>)
    decreases |b|
  {
    if |a| == 0 then true
    else if |b| == 0 then false
    else (a[0] == b[0] && Subsequence(a[1..], b[1..])) || Subsequence(a, b[1..])
  }

  /** The keys among `keys` that apply, in the order of `keys`. */
  function AppliedAmong(output: String, g: Dict, keys: seq<String>): (r: seq<String>)
    ensures forall k :: k in r <==> k in keys && Applied(output, g, k)
    ensures Subsequence(r, keys)
    decreases |keys|
  {
    if |keys| == 0 then []
    else
      var rest := AppliedAmong(output, g, keys[1..]);
      assert forall k :: k in keys <==> k == keys[0] || k in keys[1..];
      if Applied(output, g, keys[0]) then
        assert ([keys[0]] + rest)[1..] == rest;
        [keys[0]] + rest
      else rest
  }

  /** The applied terms of `_generate_metadata`: the glossary's source terms
      whose target occurs in the output ignoring case, in glossary order;
      none without a glossary. */
  function AppliedTerms(output: String, glossary: Option<Dict>): (r: seq<String>)
    ensures glossary.None? ==> r == []
    ensures glossary.Some? ==> forall k :: k in r <==> Applied(output, glossary.value, k)
    ensures glossary.Some? ==> Subsequence(r, glossary.value.order)
  {
    if glossary.None? then [] else AppliedAmong(output, glossary.value, glossary.value.order)
  }

  lemma LowerUpperChar(c: char)
    ensures ToLowerChar(ToUpperChar(c)) == ToLowerChar(c)
  {
  }

  /** Whether an entry applies depends on the output only up to case. */
  lemma AppliedUpToCase(output: String, g: Dict, k: String)
    ensures Applied(Upper(output), g, k) <==> Applied(output, g, k)
  {
    assert Lower(Upper(output)) == Lower(output) by {
      forall i | 0 <= i < |output| ensures Lower(Upper(output))[i] == Lower(output)[i] {
        LowerUpperChar(output[i]);
      }
    }
  }

  lemma {:induction false} AppliedAmongUpToCase(output: String, g: Dict, keys: seq<String>)
    ensures AppliedAmong(Upper(output), g, keys) == AppliedAmong(output, g, keys)
    decreases |keys|
  {
    if |keys| > 0 {
      AppliedUpToCase(output, g, keys[0]);
      AppliedAmongUpToCase(output, g, keys[1..]);
    }
  }

  /** Upper-casing the output changes none of the applied terms. */
  lemma AppliedTermsIgnoreCase(output: String, glossary: Option<Dict>)
    ensures AppliedTerms(Upper(output), glossary) == AppliedTerms(output, glossary)
  {
    if glossary.Some? {
      AppliedAmongUpToCase(output, glossary.value, glossary.value.order);
    }
  }

  /** An entry whose target is the empty string always applies. */
  lemma EmptyTermApplies(output: String, g: Dict, k: String)
    requires Has(g, k) && g.entries[k] == ""
    ensures k in AppliedTerms(output, Some(g))
  {
    assert OccursAt(Lower(output), Lower(g.entries[k]), 0);
  }

  // ---------------------------------------------------------------------------
  // The workflow
  // ---------------------------------------------------------------------------

  /** `translate`: freeze with the request's do-not-translate terms (none
      when absent), detect the format of the frozen text, process it, restore
      the placeholders, compute the save path, and describe the output. The
      result carries one note that flags exactly the outputs still holding a
      marker, the applied glossary terms, and a path with the format's
      extension. */
  function Translate(env: Env, q: TranslationRequest): (r: TranslationResult)
    ensures |r.notes| == 1
    ensures r.notes[0] == UnresolvedNote <==> Occurs(r.translatedText, SegProbe)
    ensures forall k :: k in r.appliedTerms <==> q.glossary.Some? && Applied(r.translatedText, q.glossary.value, k)
    ensures EndsWith(r.outputFilepath,
      "." + Extension(DetectFormat(Freeze(env.engine, q.text, q.dntTerms.GetOr([])).text)))
  {
    var frozen := Freeze(env.engine, q.text, q.dntTerms.GetOr([]));
    var format := DetectFormat(frozen.text);
    var p := Process(frozen.text, format, env.parse(frozen.text), env.render, env.provider,
                     q.targetLang, q.brandGuide, q.glossary);
    var output := Restore(p.text, frozen.mapping);
    var path := SavePath(format, q.targetLang, q.inputFilename, env.timestamp);
    TranslationResult(output, p.detected, Notes(output, format), AppliedTerms(output, q.glossary),
                      p.usage, path)
  }

  /** `translate` as the code stands: the same result, except that the notes
      probe for the mis-encoded `âŸ¦SEG_`, so they flag exactly the outputs
      holding that text. */
  function TranslateAsWritten(env: Env, q: TranslationRequest): (r: TranslationResult)
    ensures |r.notes| == 1
    ensures r.notes[0] == UnresolvedNote <==> Occurs(r.translatedText, SegProbeAsWritten)
    ensures r.(notes := Translate(env, q).notes) == Translate(env, q)
  {
    var t := Translate(env, q);
    var format := DetectFormat(Freeze(env.engine, q.text, q.dntTerms.GetOr([])).text);
    t.(notes := NotesAsWritten(t.translatedText, format))
  }

  /** The two probes only matter when the output holds one of them: for an
      output with neither, the code as written and the corrected workflow
      give the same result. */
  lemma TranslateAsWrittenAgrees(env: Env, q: TranslationRequest)
    requires !Occurs(Translate(env, q).translatedText, SegProbe)
    requires !Occurs(Translate(env, q).translatedText, SegProbeAsWritten)
    ensures TranslateAsWritten(env, q) == Translate(env, q)
  {
  }

  // ---------------------------------------------------------------------------
  // End-to-end properties
  // ---------------------------------------------------------------------------

  /** The usage and the detected language of the result are the provider's,
      for the segments the detected format sends: the extracted ones for
      HTML, the whole frozen text as `t1` otherwise. */
  lemma TranslateReportsProvider(env: Env, q: TranslationRequest)
    ensures var frozen := Freeze(env.engine, q.text, q.dntTerms.GetOr([]));
      var segs := if DetectFormat(frozen.text) == HtmlName
        then HtmlDocument.Extract(HtmlDocument.Parse(frozen.text, env.parse(frozen.text)).nodes).segments
        else [Segment("t1", frozen.text)];
      var o := env.provider(segs, q.targetLang, "auto", OrEmpty(q.brandGuide), OrEmpty(q.glossary));
      Translate(env, q).usage == o.usage && Translate(env, q).detectedLanguage == o.detected
  {
  }

  /** The mock's prefix adds no `⟦` of its own. */
  lemma MockTextNoOpen(lang: String, text: String)
    requires NoOpen(lang) && NoOpen(text)
    ensures NoOpen(MockText(lang, text))
  {
    var head := "[" + Upper(lang) + "] ";
    assert MockText(lang, text) == head + text;
    forall i | 0 <= i < |head| ensures head[i] != Open {
      if 1 <= i <= |lang| {
        assert head[i] == ToUpperChar(lang[i - 1]);
      }
    }
  }

  /** With the mock provider, a text that no placeholder rule touches and
      that is not HTML comes back with the mock's prefix, the mock's usage
      and language, the "preserved" note, and no `⟦` to report. */
  lemma TranslateWithMock(env: Env, q: TranslationRequest)
    requires env.provider == MockTranslate
    requires env.engine.links(q.text) == []
    requires forall k :: 0 <= k < |Rules(q.dntTerms.GetOr([]))| ==>
      Matches(env.engine, Rules(q.dntTerms.GetOr([]))[k], q.text) == []
    requires DetectFormat(q.text) != HtmlName
    requires NoOpen(q.text) && NoOpen(q.targetLang)
    ensures var out := MockText(q.targetLang, q.text);
      Translate(env, q) == TranslationResult(out, "en",
        [Capitalize(DetectFormat(q.text)) + PreservedSuffix], AppliedTerms(out, q.glossary),
        Usage(10, 15), SavePath(DetectFormat(q.text), q.targetLang, q.inputFilename, env.timestamp))
  {
    PlaceholderExamples.FreezeNothing(env.engine, q.text, q.dntTerms.GetOr([]));
    WholeWithMock(q.text, q.targetLang, q.brandGuide, q.glossary);
    var out := MockText(q.targetLang, q.text);
    MockTextNoOpen(q.targetLang, q.text);
    HeadAbsent(out, SegProbe);
  }

  /** A provider that answers nothing gives back a Markdown or plain-text
      request unchanged: the whole frozen text survives processing, and the
      restoration undoes the freeze. */
  lemma TranslateUnanswered(env: Env, q: TranslationRequest)
    requires forall segs, l, s, b, g :: env.provider(segs, l, s, b, g).translations == Empty
    requires Plain(q.text)
    requires AllProtectable(FreezeState(env.engine, q.text, q.dntTerms.GetOr([])).sources)
    requires DetectFormat(Freeze(env.engine, q.text, q.dntTerms.GetOr([])).text) != HtmlName
    ensures Translate(env, q).translatedText == q.text
  {
    var dnt := q.dntTerms.GetOr([]);
    var frozen := Freeze(env.engine, q.text, dnt);
    WholeUnanswered(frozen.text, env.provider, q.targetLang, q.brandGuide, q.glossary);
    RoundTrip(env.engine, q.text, dnt);
  }

  /** A provider that answers nothing gives back an HTML request as html5lib
      renders its tree, placeholders restored, when no text of the tree holds
      a `⟦`. */
  lemma TranslateUnansweredHtml(env: Env, q: TranslationRequest)
    requires forall segs, l, s, b, g :: env.provider(segs, l, s, b, g).translations == Empty
    requires var frozen := Freeze(env.engine, q.text, q.dntTerms.GetOr([]));
      && DetectFormat(frozen.text) == HtmlName
      && HtmlDocument.Unmarked(HtmlDocument.Leaves(
           HtmlDocument.Parse(frozen.text, env.parse(frozen.text)).nodes, HtmlDocument.DocumentName))
    ensures var frozen := Freeze(env.engine, q.text, q.dntTerms.GetOr([]));
      var p := HtmlDocument.Parse(frozen.text, env.parse(frozen.text));
      Translate(env, q).translatedText
        == Restore(HtmlDocument.Serialize(p, p.nodes, env.render), frozen.mapping)
  {
    var frozen := Freeze(env.engine, q.text, q.dntTerms.GetOr([]));
    HtmlUnanswered(frozen.text, env.parse(frozen.text), env.render, env.provider,
                   q.targetLang, q.brandGuide, q.glossary);
  }

  /** The one-token text `⟦PH_1⟧` is plain text to the classifier. */
  lemma TokenIsText()
    ensures DetectFormat(Token(1)) == TextName
  {
    PlaceholderExamples.TokenOne();
    var t := Token(1);
    NoMarkdown(t);
    assert '<' !in t;
    NoTagNotHtml(t);
  }

  /** The mock's output for `⟦PH_1⟧` restores to the mock's output for the
      frozen source. */
  lemma RestoreMockToken(lang: String, a: String)
    requires NoOpen(lang)
    ensures Restore(MockText(lang, Token(1)), ToDict([a])) == MockText(lang, a)
  {
    PlaceholderExamples.RestoreOne(MockText(lang, Token(1)), a);
    var head := "[" + Upper(lang) + "] ";
    assert MockText(lang, Token(1)) == head + Token(1);
    assert MockText(lang, a) == head + a;
    MockHeadNoOpen(lang);
    ReplaceTokenAfter(head, a);
  }

  /** Behind a prefix free of `⟦`, only the trailing `⟦PH_1⟧` is rewritten. */
  lemma ReplaceTokenAfter(head: String, a: String)
    requires NoOpen(head)
    ensures ReplaceAll(head + Token(1), Token(1), a) == head + a
  {
    TokenShape(1);
    OpenFreeHead(head, Token(1));
    ReplaceAllSkip(head, Token(1), Token(1), a);
    assert Token(1) + [] == Token(1);
    ReplaceAllHere(1, [], a);
    assert a + [] == a;
  }

  /** The mock's prefix holds no `⟦` when the language holds none. */
  lemma MockHeadNoOpen(lang: String)
    requires NoOpen(lang)
    ensures NoOpen("[" + Upper(lang) + "] ")
  {
    var head := "[" + Upper(lang) + "] ";
    forall i | 0 <= i < |head| ensures head[i] != Open {
      if 1 <= i <= |lang| {
        assert head[i] == ToUpperChar(lang[i - 1]);
      }
    }
  }

  /** A word that starts with `⟦` occurs nowhere inside a prefix free of
      `⟦`. */
  lemma OpenFreeHead(head: String, t: String)
    requires NoOpen(head) && |t| > 0 && t[0] == Open
    ensures forall i :: 0 <= i < |head| ==> !OccursAt(head + t, t, i)
  {
    forall i | 0 <= i < |head| ensures !OccursAt(head + t, t, i) {
      if i + |t| <= |head + t| {
        assert (head + t)[i..i + |t|][0] == head[i];
      }
    }
  }

  lemma ImgFrozen(T: String)
    requires T == "<img src=x>"
    ensures Freeze(PlaceholderExamples.Quiet, T, []) == Freezing(Token(1), ToDict([T]))
    ensures DetectFormat(T) == HtmlName && DetectFormat(Token(1)) == TextName
    ensures NoOpen(T)
  {
    ImgFreezing(T);
    AttributeExample(T);
    TokenIsText();
    ImgNoOpen(T);
  }

  lemma ImgFreezing(T: String)
    requires T == "<img src=x>"
    ensures Freeze(PlaceholderExamples.Quiet, T, []) == Freezing(Token(1), ToDict([T]))
  {
    PlaceholderExamples.ImgFreeze(T);
    PlaceholderExamples.FreezeParts(PlaceholderExamples.Quiet, T, []);
  }

  lemma ImgNoOpen(T: String)
    requires T == "<img src=x>"
    ensures NoOpen(T)
  {
  }

  /** Freezing runs before detection and freezes raw tags. `<img src=x>` is
      HTML as written, but its frozen form `⟦PH_1⟧` is not, so the request
      takes the plain-text path: the mock returns it whole behind its prefix
      and the note says text was preserved. */
  lemma TagsFrozenBeforeDetection(env: Env, q: TranslationRequest)
    requires env.engine == PlaceholderExamples.Quiet && env.provider == MockTranslate
    requires q.text == "<img src=x>" && q.dntTerms.GetOr([]) == [] && NoOpen(q.targetLang)
    ensures DetectFormat(q.text) == HtmlName
    ensures Translate(env, q).translatedText == MockText(q.targetLang, q.text)
    ensures Translate(env, q).notes == ["Text preserved"]
  {
    ImgFrozen(q.text);
    var frozen := Freeze(env.engine, q.text, q.dntTerms.GetOr([]));
    assert frozen.text == Token(1);
    var p := Process(frozen.text, TextName, env.parse(frozen.text), env.render, env.provider,
                     q.targetLang, q.brandGuide, q.glossary);
    WholeWithMock(Token(1), q.targetLang, q.brandGuide, q.glossary);
    assert p.text == MockText(q.targetLang, Token(1));
    RestoreMockToken(q.targetLang, q.text);
    var out := MockText(q.targetLang, q.text);
    assert Restore(p.text, frozen.mapping) == out;
    MockTextNoOpen(q.targetLang, q.text);
    HeadAbsent(out, SegProbe);
    TextNote();
  }

  // ---------------------------------------------------------------------------
  // Examples
  // ---------------------------------------------------------------------------

  lemma OccursInMiddle(a: String, p: String, b: String)
    ensures OccursAt(a + p + b, p, |a|)
  {
    assert (a + p + b)[|a|..|a| + |p|] == p;
  }

  /** `p` at `i` in `s` is `Lower(p)` at `i` in `Lower(s)`. */
  lemma LowerOccursAt(s: String, p: String, i: int)
    requires OccursAt(s, p, i)
    ensures OccursIgnoreCase(s, p)
  {
    assert Lower(s)[i..i + |p|] == Lower(p) by {
      forall j | 0 <= j < |p| ensures Lower(s)[i..i + |p|][j] == Lower(p)[j] {
        assert s[i + j] == s[i..i + |p|][j];
      }
    }
    assert OccursAt(Lower(s), Lower(p), i);
  }

  /** A character that lower-cases from nothing else but itself and is
      absent from `s` keeps every term holding it from applying. */
  lemma LowerAbsent(s: String, p: String, j: int)
    requires 0 <= j < |p| && !('A' <= p[j] <= 'Z') && !('a' <= p[j] <= 'z')
    requires forall i :: 0 <= i < |s| ==> ToLowerChar(s[i]) != p[j]
    ensures !OccursIgnoreCase(s, p)
  {
    var ls, lp := Lower(s), Lower(p);
    forall i | 0 <= i <= |ls| - |lp| ensures !OccursAt(ls, lp, i) {
      assert ls[i..i + |lp|][j] == ls[i + j] != lp[j];
    }
  }

  /** The marker test: `⟦SEG_123⟧` left in an HTML output is reported, and
      an empty glossary applies nothing. */
  lemma UnresolvedExample(t: String)
    requires t == "Some text with " + "\U{27E6}SEG_" + "123\U{27E7} unresolved marker."
    ensures Notes(t, "html") == [UnresolvedNote]
    ensures AppliedTerms(t, Some(Empty)) == []
  {
    assert SegProbe == "\U{27E6}SEG_";
    OccursInMiddle("Some text with ", SegProbe, "123\U{27E7} unresolved marker.");
  }

  /** As the source spells its probe, the same output is not reported: its
      `⟦` is one character, not the three of `âŸ¦`. */
  lemma UnresolvedMissedAsWritten(t: String)
    requires t == "Some text with " + "\U{27E6}SEG_" + "123\U{27E7} unresolved marker."
    ensures NotesAsWritten(t, "html") == ["Html preserved"]
  {
    HeadAbsent(t, SegProbeAsWritten);
    HtmlNote();
  }

  /** The output of the glossary test holds `luxe` and `haut de gamme`. */
  lemma GlossaryTargetsFound(t: String)
    requires t == "This is a " + "luxe" + " handbag made with " + "haut de gamme" + " materials."
    ensures OccursIgnoreCase(t, "luxe") && OccursIgnoreCase(t, "haut de gamme")
  {
    OccursInMiddle("This is a ", "luxe", " handbag made with " + "haut de gamme" + " materials.");
    LowerOccursAt(t, "luxe", 10);
    OccursInMiddle("This is a " + "luxe" + " handbag made with ", "haut de gamme", " materials.");
    LowerOccursAt(t, "haut de gamme", 33);
  }

  /** The output of the glossary test holds no `à` and no `⟦`. */
  lemma GlossaryTargetsMissing(t: String)
    requires t == "This is a " + "luxe" + " handbag made with " + "haut de gamme" + " materials."
    ensures !OccursIgnoreCase(t, "sac \U{00E0} main") && !Occurs(t, SegProbe)
  {
    LowerAbsent(t, "sac \U{00E0} main", 4);
    HeadAbsent(t, SegProbe);
  }

  /** Three keys, the first two applying and the last not, give the first two. */
  lemma AppliedFirstTwo(t: String, g: Dict, keys: seq<String>)
    requires |keys| == 3
    requires Applied(t, g, keys[0]) && Applied(t, g, keys[1]) && !Applied(t, g, keys[2])
    ensures AppliedAmong(t, g, keys) == [keys[0], keys[1]]
  {
    assert keys[1..][1..] == keys[2..];
    assert keys[2..][1..] == [];
    assert AppliedAmong(t, g, keys[2..]) == [];
    assert AppliedAmong(t, g, keys[1..]) == [keys[1]];
  }

  /** The glossary test: `luxe` and `haut de gamme` occur in the output,
      `sac à main` does not; the note says the text was preserved. */
  lemma GlossaryExample(t: String, g: Dict)
    requires t == "This is a " + "luxe" + " handbag made with " + "haut de gamme" + " materials."
    requires g.order == ["luxury", "premium", "handbag"]
    requires g.entries == map["luxury" := "luxe", "premium" := "haut de gamme", "handbag" := "sac \U{00E0} main"]
    ensures AppliedTerms(t, Some(g)) == ["luxury", "premium"]
    ensures Notes(t, "text") == ["Text preserved"]
  {
    GlossaryTargetsFound(t);
    GlossaryTargetsMissing(t);
    AppliedFirstTwo(t, g, g.order);
    TextNote();
  }
}

=== FILE: wrappers.dfy ===
/** Failure-compatible wrappers shared by the whole model. */
module Wrappers {

  /** An optional value: Python's `None` or a present value. */
  datatype Option<+T> = None | Some(value: T) {

    /** The value when present, otherwise `default` (Python's `x if x is not None else default`). */
    function GetOr(default: T): T {
      match this
      case Some(v) => v
      case None => default
    }
  }

  /** The outcome of an operation that raises in the source: `Err` carries the exception message. */
  datatype Result<+R, +E> = Ok(value: R) | Err(error: E)
}
